=== FILE: README.md ===
# BigMLer k-fold analysis: search and scoring core

This project is a Dafny model of the search-and-score logic behind
`bigmler analyze` in `bigmler/analyze/k_fold_cv.py`, together with proofs
about it. The model covers four parts:

- **Scoring.** An evaluation comes back from an oracle. The model picks
  its per-class or aggregate metrics, resolves `average_<metric>` with the
  fallback to `average_r_squared`, and computes the penalised, oriented
  score. The metric name that was actually used is fed back as the next
  request.
- **Best-first feature search.** The search runs over boolean masks of
  the candidate fields with an open list and a closed list. A state
  becomes the new best only if it beats the old best by more than
  `EPSILON = 0.001`. The search stops once `staleness` consecutive
  closed states have failed to improve, or when nothing is left open.
- **Node-threshold sweep.** A linear scan from `min_nodes` in steps of
  `nodes_step`, while the threshold stays below `max_nodes + 1`. It uses
  the same improvement margin and staleness rule.
- **Resume ledger.** The file of sub-commands from an earlier run is
  replayed. Each call either pops and skips a matching entry, abandons
  resuming on a detected difference, or fires the single
  `main --resume` catch-up call when the ledger runs out. The helpers it
  relies on are modelled too:
  - `rebuild_command`
  - `different_command`, as written
  - `avoid_duplicates`
  - `add_model_options`
  - the evaluation-name truncation

The oracle is a parameter: a function from a mask, or from a threshold,
to an evaluation. So is the command text handed to the ledger. Three of
the source's error exits are modelled as a `Failure`:

- no `average_<metric>` and no `average_r_squared` in the evaluation
  (`sys.exit`, k_fold_cv.py:599-600 and 702-703), a `ScoreFailure`;
- popping an empty ledger while resuming (an `IndexError`), a
  `LedgerFailure`;
- splitting the model fields on an empty separator (a `ValueError`), a
  `ScoreFailure`.

The other exits, which are about reading or writing files, are listed
under "Left out".

Modules, one per file:

| file | module | what it holds |
|---|---|---|
| `results.dfy` | `Results` | `Option` and `Result` |
| `text.dfy` | `Text` | joining, splitting counts, backslash escaping, decimal rendering |
| `commands.dfy` | `Commands` | `rebuild_command`, `different_command`, `avoid_duplicates`, name truncation, `add_model_options` |
| `ledger.dfy` | `Ledger` | reading the ledger file, the per-call resume step, whole replays |
| `extended_reals.dfy` | `ExtendedReals` | scores with a −∞ element and the EPSILON improvement test |
| `scorer.dfy` | `Scorer` | `extract_evaluation_info`, metric resolution, the score formula |
| `progress.dfy` | `Progress` | the progress rows both loops write, the best-score chain, the staleness count |
| `masks.dfy` | `Masks` | masks, `expand_state`, and the counting argument that bounds the search by 2^n |
| `feature_search.dfy` | `FeatureSearch` | `find_max_state` and the `best_first_search` loop |
| `threshold_sweep.dfy` | `ThresholdSweep` | the `best_node_threshold` loop |

Where the tool's documentation and the code disagree, the model follows
the code:

- **Catch-up call on replay.** A replay that matches every logged entry
  still dispatches one `['main', '--resume']` call when the last entry
  is consumed. It is not a run with zero new calls.
- **Sweep report.** The closing report of the sweep prints `best_score`
  on its metric line, not the best threshold's metric value.
- **`different_command`.** Its sense is the opposite of its name: it
  answers true when the two lines differ ONLY in the deleted default
  names (`Commands.DifferentCommandOnDefaultNames`,
  `Commands.DifferentCommandExample`), and false when they differ before
  any default name (`Commands.DifferentCommandSeesPrefix`). The callers then abandon resuming.
  Also, the guard tests for `name=BigMLer_`, but the pattern removes
  `name=Bigmler_…`, which differs in case. A replay whose commands carry
  no lower-case spelling never detects a difference: it stays in resume
  mode until the ledger is empty (`Ledger.ReplayIgnoresUnnamedChanges`).
- **Orientation after the `r_squared` fallback.** The sign `invert` is
  taken from the metric name that was asked for (k_fold_cv.py:601 and
  704), not from the one that was resolved. Suppose a minimised metric
  is asked for and only `average_r_squared` is present. The first
  evaluation then scores −R² − penalty·size. It feeds `r_squared` back,
  so every later evaluation of the same search scores R² − penalty·size.
  One search thus compares scores of both signs
  (`Scorer.FallbackKeepsRequestedOrientation`). The model keeps this
  behaviour. Each logged evaluation is pinned to the name that was in
  force when it ran (`FeatureSearch.PinnedLog`, `ThresholdSweep.RatedRows`).

## Model

| member | source | states |
|---|---|---|
| Commands.RebuildCommand | bigmler/analyze/k_fold_cv.py:123-127 | a rebuilt command is a non-empty string ending in a newline |
| Commands.RebuildCommandRoundTrip | bigmler/analyze/k_fold_cv.py:123-127 | removing the newline and undoing the backslash doubling gives back the space-joined arguments exactly |
| Commands.RebuiltIsLine | bigmler/analyze/k_fold_cv.py:123-127 | arguments without newlines rebuild to exactly one ledger line, so the file splits back into the same commands |
| Commands.StripWithoutPattern | bigmler/analyze/k_fold_cv.py:135-138 | removing default names changes nothing in a string without the lower-case `name=Bigmler_` spelling |
| Commands.StripDefaultNames | bigmler/analyze/k_fold_cv.py:137-139 | deleting the `name=Bigmler_<non-space>` matches only shortens the text and deletes no whitespace: the whitespace characters survive, in order |
| Commands.StripMatch | bigmler/analyze/k_fold_cv.py:137-139 | a match whose run of non-space characters ends at whitespace or at the end of the text is deleted whole, and the rest is processed on its own |
| Commands.NoMatchAcross | bigmler/analyze/k_fold_cv.py:135-139 | no match starts at the head of text that holds no lower-case default name and ends in whitespace, because the pattern holds no whitespace |
| Commands.StripPrefix | bigmler/analyze/k_fold_cv.py:135-139 | text without a lower-case default name that ends at a word boundary passes through the deletion unchanged, whatever follows it |
| Commands.DifferentCommand | bigmler/analyze/k_fold_cv.py:130-140 | a "different" answer needs two distinct lines, the `name=BigMLer_` guard in the command, the same whitespace in both, and a lower-case `name=Bigmler_` in at least one of them |
| Commands.DifferentCommandOnDefaultNames | bigmler/analyze/k_fold_cv.py:128-139 | for every prefix without a default name, every two distinct non-space words after `name=Bigmler_` and every common tail starting at whitespace, the two lines are reported "different" when the command holds the guard, which is the opposite of what the name says |
| Commands.DifferentCommandSeesPrefix | bigmler/analyze/k_fold_cv.py:128-139 | two lines that differ in text before any default name, and agree after it, are never reported "different" |
| Commands.DifferentCommandExample | bigmler/analyze/k_fold_cv.py:130-140 | `a name=Bigmler_1 name=BigMLer_` and `a name=Bigmler_2 name=BigMLer_` (each ending in a newline) are reported different |
| Commands.DifferentCommandBlind | bigmler/analyze/k_fold_cv.py:130-140 | with no lower-case `name=Bigmler_` in either string, the function never reports a difference |
| Commands.AvoidDuplicates | bigmler/analyze/k_fold_cv.py:277-285 | the result is not among the existing names, and it is the first wrapping in the affix that is not |
| Commands.EvaluationName | bigmler/analyze/k_fold_cv.py:371-375 | the name is a prefix of the requested name followed by `_subset_<counter>`; it is at most 127 characters long when the suffix fits, is untouched when it fits whole, and is exactly 127 characters when truncated |
| Commands.AddModelOptions | bigmler/analyze/k_fold_cv.py:323-360 | the existing arguments are kept, in order, as a prefix |
| Commands.ModelOptionsRoundTrip | bigmler/analyze/k_fold_cv.py:323-360 | reading back the added flags gives every configured model option; the ensemble options appear only when more than one model is asked for |
| Ledger.ReadLines | bigmler/analyze/k_fold_cv.py:117 | the lines concatenate back to the file text, none is empty, and every line but the last ends in its only newline |
| Ledger.ReadLinesConcat | bigmler/analyze/k_fold_cv.py:117 | a file made of whole lines reads back as exactly those lines |
| Ledger.RetrieveSubcommands | bigmler/analyze/k_fold_cv.py:112-120 | the pending list is the file's lines reversed, so popping from its end yields them oldest first |
| Ledger.Step | bigmler/analyze/k_fold_cv.py:307-318 | without resume, the call is logged and dispatched once and the ledger is untouched; with resume, one entry is popped (an empty ledger is the only failure), then a difference logs and dispatches and ends resume, the last entry dispatches only the catch-up call and ends resume, and otherwise nothing is dispatched; resume never comes back |
| Ledger.Run | bigmler/analyze/k_fold_cv.py:392-403 | a replay from a consistent ledger never fails, never re-enters resume, dispatches at most one call per step and only appends to the log and the dispatch list |
| Ledger.RunAppend | bigmler/analyze/k_fold_cv.py:392-403 | replaying one batch of calls and then another is replaying them together, so a loop that steps each call in turn keeps the replay of the calls so far |
| Ledger.FreshRun | bigmler/analyze/k_fold_cv.py:730-741 | without resume, every call is logged and dispatched, in order |
| Ledger.ReplayWithoutDivergence | bigmler/analyze/k_fold_cv.py:392-403 | if no logged entry differs from its call, the replay skips them all, dispatches the catch-up call once, and then runs the remaining calls fresh |
| Ledger.DivergenceAbandonsResume | bigmler/analyze/k_fold_cv.py:307-312 | a difference on the first call drops resume at once, and every call from there on is logged and dispatched |
| Ledger.ResumeFromLedgerFile | bigmler/analyze/k_fold_cv.py:112-120 | re-running the same calls over the file an earlier run wrote skips the logged ones and re-dispatches only the catch-up call and the new calls |
| Ledger.ReplayIgnoresUnnamedChanges | bigmler/analyze/k_fold_cv.py:130-140 | when no command has a lower-case default name, a resumed run skips as many calls as the ledger holds, whatever those calls are |
| ExtendedReals.ImprovesIsAboveMargin | bigmler/analyze/k_fold_cv.py:505 | an improvement lies strictly above the old best, by more than EPSILON when the old best is finite |
| Progress.NextBest | bigmler/analyze/k_fold_cv.py:505-510 | the best never decreases, and it changes only to a score that beats it by the margin |
| Progress.AppendRow | bigmler/analyze/k_fold_cv.py:491-521 | writing one more row keeps the best-score chain; the unchanged count resets on an improvement and otherwise goes up by one |
| Progress.ChainedMonotone | bigmler/analyze/k_fold_cv.py:486-521 | the best score recorded in the rows never decreases from one step to the next |
| Progress.BestFromSnoc | bigmler/analyze/k_fold_cv.py:505-510 | after one more row, the best is still the score of the last row that improved; with no improvement at all it stays −∞ |
| Progress.StaleRunAfter | bigmler/analyze/k_fold_cv.py:505-521 | the unchanged count is at most the number of steps since the last improvement |
| Scorer.FindClass | bigmler/analyze/k_fold_cv.py:570-572 | the result is the first per-class entry with the category's name, and none means no entry has it |
| Scorer.ExtractEvaluationInfo | bigmler/analyze/k_fold_cv.py:564-574 | a missing model gives an empty map; an empty category or no per-class list gives the aggregate metrics; otherwise the first matching class's metrics, or the aggregate when no class matches |
| Scorer.ResolveMetric | bigmler/analyze/k_fold_cv.py:591-600 | the requested metric when `average_<metric>` exists, otherwise `r_squared` when its average exists, otherwise `MetricNotFound`; the value is the map's entry for the resolved name |
| Scorer.ResolveMetricIdempotent | bigmler/analyze/k_fold_cv.py:591-600 | resolving the fed-back name again resolves to the same metric and value |
| Scorer.FedName | bigmler/analyze/k_fold_cv.py:591-600 | the name handed back is the requested one or `r_squared`; it is the resolved name when resolution succeeds, and it differs from the request only when `average_<request>` is missing |
| Scorer.FedNameStaysRSquared | bigmler/analyze/k_fold_cv.py:591-600 | once `r_squared` is asked for, it is always handed back |
| Scorer.Score | bigmler/analyze/k_fold_cv.py:601-606 | the source's `invert * (value − invert * penalty * complexity)` equals the oriented value (negated for a minimised metric) less the penalty times the complexity |
| Scorer.PenaltyLowersScore | bigmler/analyze/k_fold_cv.py:601-606 | with a positive penalty, more complexity strictly lowers the score |
| Scorer.ScoreOrientation | bigmler/analyze/k_fold_cv.py:601-606 | a larger raw value raises the score for a maximised metric and lowers it for a minimised one |
| Scorer.FieldCount | bigmler/analyze/k_fold_cv.py:604 | splitting always yields at least one piece, an empty string counts as one field, and an empty separator is an error |
| Scorer.FieldCountOfJoin | bigmler/analyze/k_fold_cv.py:604 | joining n > 0 field names with a one-character separator they do not contain counts n fields; no fields still count as one |
| Scorer.KfoldScore | bigmler/analyze/k_fold_cv.py:591-606 | fails exactly when resolution fails or the separator is empty; the score is the raw value, negated when the requested metric is minimised, less the penalty times the field count; the name handed back is the resolved one |
| Scorer.NodeThresholdScore | bigmler/analyze/k_fold_cv.py:694-708 | fails exactly when resolution fails; the score is the raw value, negated when the requested metric is minimised, less the penalty times the threshold, with the raw value and the resolved name returned alongside |
| Scorer.FallbackKeepsRequestedOrientation | bigmler/analyze/k_fold_cv.py:697-708 | when a minimised metric is missing and `average_r_squared` is present, asking for the metric scores −R² − penalty·threshold, while asking for the fed-back `r_squared` scores R² − penalty·threshold |
| Masks.ExpandState | bigmler/analyze/k_fold_cv.py:425-434 | one child per position, each as long as the parent, and child i differs from the parent at position i and nowhere else |
| Masks.ExpandStateNeighbours | bigmler/analyze/k_fold_cv.py:425-434 | the children are pairwise distinct, none equals the parent, and expanding child i gives back the parent at position i |
| Masks.FlipIsChild | bigmler/analyze/k_fold_cv.py:425-434 | flipping field j of the parent gives one of its children |
| Masks.FreshChildrenSound | bigmler/analyze/k_fold_cv.py:523-527 | every child the inner loop appends is a flip of the parent among the fields visited so far, and was on neither list |
| Masks.FreshChildrenComplete | bigmler/analyze/k_fold_cv.py:523-527 | every flip of the parent among the fields visited so far that was on neither list is appended |
| Masks.FreshChildrenDistinct | bigmler/analyze/k_fold_cv.py:523-527 | the appended children are pairwise distinct |
| Masks.DistinctBound | bigmler/analyze/k_fold_cv.py:558-560 | distinct masks of length n number at most 2^n |
| Masks.ClosedUnderFlipIsEverything | bigmler/analyze/k_fold_cv.py:487-543 | a duplicate-free list of length-n masks that holds the all-false mask and is closed under single flips holds all 2^n masks |
| FeatureSearch.FindMaxState | bigmler/analyze/k_fold_cv.py:414-422 | an empty list gives (None, −∞, −∞); otherwise the chosen entry scores at least as high as every entry, and strictly higher than every earlier one |
| FeatureSearch.RemoveFirst | bigmler/analyze/k_fold_cv.py:504 | removing takes out exactly one copy of the entry and leaves everything else |
| FeatureSearch.RemoveFirstAt | bigmler/analyze/k_fold_cv.py:504 | when no earlier entry equals it, removing the entry at k cuts exactly position k |
| FeatureSearch.SelectedCount | bigmler/analyze/k_fold_cv.py:495-500 | the all-false mask selects no fields, it is the only mask that does, and the all-true mask selects every field |
| FeatureSearch.EvaluateSubset | bigmler/analyze/k_fold_cv.py:524-543 | one child is scored through one ledger step, which dispatches at most one call; the score comes from the k-fold formula on the child's joined field names; with a consistent ledger only scoring can fail |
| FeatureSearch.NameAfter | bigmler/analyze/k_fold_cv.py:488-541 | the name asked for after any run of evaluations, each handing back what it resolved, is the requested metric or `r_squared` |
| FeatureSearch.PinnedSnoc | bigmler/analyze/k_fold_cv.py:533-543 | an entry scored under the name the log fed back extends a pinned log, and the next name is what its own evaluation resolved |
| FeatureSearch.EvaluatedPinned | bigmler/analyze/k_fold_cv.py:524-543 | a child evaluated under the name the log fed back holds the oracle's k-fold score under that name, and the name it hands back is the one the longer log feeds back |
| FeatureSearch.ListsAppend | bigmler/analyze/k_fold_cv.py:525-543 | appending a fresh scored child of the parent keeps the masks distinct, the counter one per child and the dispatches one per evaluation, and counts that child as visited |
| FeatureSearch.LogAppend | bigmler/analyze/k_fold_cv.py:533-543 | appending an evaluated child to open and to the log keeps the log equal to the entries appended so far and keeps it pinned |
| FeatureSearch.ExpandFrontier | bigmler/analyze/k_fold_cv.py:523-543 | the appended masks are exactly the children of the parent that were on neither list, in field order, so the earliest-maximum tie-break sees them in the source's order; every flip of the parent ends up in open or closed; masks stay distinct; the counter grows by one per child added, and the commands of the appended children, numbered by the counter from one past its starting value, went through the ledger in that order; the log grows by exactly the appended children, in order; when the log was pinned on entry, each appended child holds the oracle's k-fold score under the name fed back by the evaluation just before it, and the returned name is the one the last evaluation resolved |
| FeatureSearch.ExpandChild | bigmler/analyze/k_fold_cv.py:524-543 | one pass of the inner loop: a child already on a list is skipped, and otherwise it is counted, evaluated and appended, keeping what the passes so far promise (fresh children in field order, the counter, the ledger replay, the pinned log) |
| FeatureSearch.AppendChild | bigmler/analyze/k_fold_cv.py:534-543 | a child on neither list is evaluated with the next counter value and appended after the entries already on open, keeping what the passes so far promise |
| FeatureSearch.ChildAppended | bigmler/analyze/k_fold_cv.py:534-543 | appending the evaluated child keeps the open list equal to the fresh children so far, the log pinned and the ledger replay of the numbered commands |
| FeatureSearch.ChildSkipped | bigmler/analyze/k_fold_cv.py:525-526 | a child already on a list is not evaluated and adds nothing, and the passes so far still promise the same |
| FeatureSearch.SeenBefore | bigmler/analyze/k_fold_cv.py:525-526 | while the inner loop runs, a not-yet-visited child is on the current lists exactly when it was on them before the loop, since the loop appends only earlier children |
| FeatureSearch.PartialDone | bigmler/analyze/k_fold_cv.py:523-543 | after the last field the inner loop has appended exactly the fresh children, every child is on a list, and the log and the ledger replay hold as `ExpandFrontier` states |
| FeatureSearch.FreshAppended | bigmler/analyze/k_fold_cv.py:523-543 | once the fresh children are appended, every appended entry is a child of the parent and every child of the parent is on a list |
| FeatureSearch.CallsAppend | bigmler/analyze/k_fold_cv.py:535-542 | the commands of two runs of evaluations are those of the first followed by those of the second, numbered on from where the first stopped |
| FeatureSearch.ExpandLedger | bigmler/analyze/k_fold_cv.py:523-543 | appending the children keeps the whole log's numbered commands equal to what went through the ledger |
| FeatureSearch.CloseStep | bigmler/analyze/k_fold_cv.py:489-521 | closing the earliest best open state keeps the search invariant: sizes, no repeated mask, the 2^n bound, the counter, the rows, and the best as the closed entry of the last improving row |
| FeatureSearch.ExpandStep | bigmler/analyze/k_fold_cv.py:523-543 | adding the children of the state just closed restores the invariant, with that state counted as expanded |
| FeatureSearch.ClosedInOrderSnoc | bigmler/analyze/k_fold_cv.py:489-504 | closing the earliest maximum of the current open list extends the record of steps, each of which closed the earliest maximum of its own open list |
| FeatureSearch.CloseDerived | bigmler/analyze/k_fold_cv.py:503-504 | after closing, every entry other than the initial one is still a child of some closed entry |
| FeatureSearch.FollowsExtend | bigmler/analyze/k_fold_cv.py:503-543 | an open list made of the previous one with the closed entry removed, followed by exactly that entry's fresh children in field order, follows from the previous one |
| FeatureSearch.OrderAfterExpand | bigmler/analyze/k_fold_cv.py:523-543 | appending the fresh children of the entry just closed, in field order, keeps the search best-first, with each open list following from the one before |
| FeatureSearch.DerivedExtend | bigmler/analyze/k_fold_cv.py:523-543 | appending children of a closed entry keeps every non-initial entry a child of some closed entry |
| FeatureSearch.CloseOrder | bigmler/analyze/k_fold_cv.py:489-504 | closing the earliest maximum keeps every earlier step best-first, records the open list it was chosen from, and leaves open as that list with the entry removed |
| FeatureSearch.ExpandOrder | bigmler/analyze/k_fold_cv.py:523-543 | appending the fresh children of the state just closed, in field order, keeps the search best-first |
| FeatureSearch.ClosePinned | bigmler/analyze/k_fold_cv.py:503-504 | moving an entry from open to closed keeps the log equal to the scored entries of the two lists |
| FeatureSearch.LogsListsExtend | bigmler/analyze/k_fold_cv.py:523-543 | appending the same entries to open and to the log keeps the log equal to the scored entries of the two lists |
| FeatureSearch.ExpandPinned | bigmler/analyze/k_fold_cv.py:523-543 | expanding keeps the log equal to the scored entries, pinned, and as long as the evaluation counter |
| FeatureSearch.ClosePhase | bigmler/analyze/k_fold_cv.py:489-521 | closing the earliest maximum keeps the search invariant, the best-first order, the pinned log and the ledger replay of the log's numbered commands |
| FeatureSearch.ExpandPhase | bigmler/analyze/k_fold_cv.py:523-543 | expanding the state just closed restores the whole loop invariant, including the best-first order and the ledger replay of the log's numbered commands |
| FeatureSearch.StepPhase | bigmler/analyze/k_fold_cv.py:489-543 | a whole step, closing the earliest maximum and expanding it, keeps the whole loop invariant |
| FeatureSearch.FinishSearch | bigmler/analyze/k_fold_cv.py:545-560 | at loop exit the report holds: evaluated = \|open\| + \|closed\| − 1 out of 2^n − 1 subsets; each step closed the earliest maximum of its open list; the log of evaluations is pinned and its numbered commands are what went through the ledger; the best is the closed entry of the last improving row and never the initial state; an empty open list means all 2^n masks were closed |
| FeatureSearch.Iterate | bigmler/analyze/k_fold_cv.py:489-543 | one pass closes exactly the earliest maximum of the open list, records that open list, and keeps the search invariant, the best-first order and the pinned log |
| FeatureSearch.BestFirstSearch | bigmler/analyze/k_fold_cv.py:437-560 | the search stops on staleness or an exhausted open list; each step closed the earliest maximum of the open list it saw, starting from the initial state, and every other entry is a child of a closed entry; masks are never repeated and there are at most 2^n; each evaluation, in order, holds the oracle's k-fold score under the name the evaluations before it fed back, and the commands of the evaluations, numbered 1, 2, … by the counter, went through the ledger in that order; the best is the initial state until a row improves, and then the closed entry of the last row that improved; the best is monotone and EPSILON-gated; at most one call is dispatched per evaluation; resume is one-way; with a consistent ledger only scoring can fail |
| ThresholdSweep.EvaluateThreshold | bigmler/analyze/k_fold_cv.py:683-708 | one threshold is scored through one ledger step, using the node-threshold formula |
| ThresholdSweep.ThresholdCountBounds | bigmler/analyze/k_fold_cv.py:640-670 | exactly the first ThresholdCount thresholds `lo + i*step` are below the limit |
| ThresholdSweep.NameAfter | bigmler/analyze/k_fold_cv.py:638-647 | the name asked for after any run of rows, each handing back what it resolved, is the requested metric or `r_squared` |
| ThresholdSweep.RatedRowsSnoc | bigmler/analyze/k_fold_cv.py:640-647 | a row scored under the name the earlier rows fed back extends the pinned rows, and the next name is what its own evaluation resolved |
| ThresholdSweep.RecordStep | bigmler/analyze/k_fold_cv.py:640-670 | one sweep step keeps the thresholds on the `lo + i*step` grid below the limit, keeps the best-score chain and staleness, and names the last improving row as the best |
| ThresholdSweep.RecordSession | bigmler/analyze/k_fold_cv.py:640-670 | one sweep step keeps every row's score and metric value equal to the node-threshold score of the oracle's evaluation at that threshold, under the name the earlier rows fed back, keeps the current name the one the last row resolved, and keeps the rows' commands, in sweep order, equal to what went through the ledger |
| ThresholdSweep.RecordRated | bigmler/analyze/k_fold_cv.py:640-647 | one more row, scored under the name the earlier rows fed back, keeps the rows pinned and the current name the one it resolved |
| ThresholdSweep.RecordLedger | bigmler/analyze/k_fold_cv.py:730-741 | stepping the threshold's command through the ledger extends the replay of the rows' commands by that command, with at most one more dispatch |
| ThresholdSweep.FinishSweep | bigmler/analyze/k_fold_cv.py:672-680 | at loop exit, a sweep that ran reports the best threshold, which is the last row that improved, and the best score |
| ThresholdSweep.Sweep | bigmler/analyze/k_fold_cv.py:636-680 | the loop on resolved settings evaluates nothing exactly when `lo` is not below the limit or staleness ≤ 0, and otherwise reports the visited thresholds, their pinned scores, the best, and the replay of their commands through the ledger |
| ThresholdSweep.BestNodeThreshold | bigmler/analyze/k_fold_cv.py:609-680 | it evaluates nothing, and so has no best threshold, exactly when `min_nodes > max_nodes` or staleness ≤ 0; otherwise it reports the visited thresholds `min, min+step, …`, each ≤ `max_nodes`, stopped by staleness or the limit, each scored from the oracle's evaluation at that threshold under the name the earlier rows fed back, with their commands going through the ledger in sweep order, together with the best, which is the last row that improved |
| ThresholdSweep.SweepVisitsAll | bigmler/analyze/k_fold_cv.py:640 | when staleness exceeds the number of thresholds below the limit, the sweep visits every one of them |
| ThresholdSweep.SweepExample | bigmler/analyze/k_fold_cv.py:627-670 | with defaults 3 and 100 and `max_nodes = 103`, the sweep evaluates exactly 3 and 103 |

## Left out

- Dataset retrieval, the `Fields` schema and `api.check_resource` are not modelled, and neither is excluding the objective and excluded fields (lines 456-482). The candidate field names are an input.
- `create_kfold_datasets_file`, `create_kfold_json` and the k-fold dataset creation are not modelled. They write the local filter files and build the remote k-fold datasets. `create_kfold_json` also switches resume off when one of its filter files is missing (k_fold_cv.py:264-272). The model starts each search from a given session instead. Their ledger step is the same one modelled in `Ledger.Step`.
- The exits on file errors are not modelled. These are failing to read `evaluation.json` (k_fold_cv.py:405-411 and 743-749), failing to write the filter files (line 274) and failing to read the ledger. The oracle is a total function, so every evaluation is read successfully.
- `main_dispatcher`, `u.get_options_list` and reading `evaluation.json` are replaced by parameters. The command for a call is an opaque function of (counter, mask) or of the threshold, and the oracle maps a mask or a threshold to an evaluation.
- File I/O is not modelled:
  - `u.sys_log_message` is taken to append the line verbatim.
  - The ledger file's decoding is the identity.
  - The CSV progress files are the `rows` sequences.
  - Messages and path building are not modelled.
- Human-readable messages are not modelled, including the percent rendering of accuracy, precision and recall.
- Floating point is not modelled. Scores are Dafny reals plus an explicit −∞, and EPSILON is the real 0.001. `str(sample_rate)` is carried as a given text, because the model has no float printing.
- A per-class entry without `class_name`, which is a `KeyError` in the source, cannot be expressed: every modelled class entry has a name.
- `MINIMIZE_OPTIONS` and the default metric come from a module that is not part of this model. They are parameters.
- ThresholdSweep.BestNodeThreshold: requires a positive `nodes_step`, although the source accepts any step. With a negative step the threshold moves away from the limit and the source's loop need not stop. With a zero step, every pass re-scores the same threshold. After the fed-back metric settles, which takes at most two evaluations, the score repeats and cannot improve by EPSILON, so the source stops within staleness + 2 evaluations. The model does not carry that argument and promises nothing for a zero step.
- Commands.AvoidDuplicates: requires a non-empty affix. With an empty affix the source recurses forever on a taken name.
- Commands.AddModelOptions: its own contract only says the earlier arguments are kept. What it adds is stated by `Commands.ModelOptionsRoundTrip` and `Commands.ReadAll`.
- The sweep's missing `best_threshold` after zero iterations is an unbound name in the source. The model reports it as the `NoThresholdEvaluated` failure.
- The end-to-end claim that a resumed analysis reproduces the earlier best is proved at ledger level only (`Ledger.ResumeFromLedgerFile`). The oracle is a fixed function, so the scores coincide by construction.

=== FILE: commands.dfy ===
/** Construction and comparison of the sub-command lines that the analysis
    issues: `rebuild_command`, `different_command`, `avoid_duplicates`,
    the evaluation-name truncation and `add_model_options`. */
module Commands {
  import opened Text

  /** `rebuild_command`: the arguments joined by spaces, every backslash
      doubled, and a line terminator appended. */
  function RebuildCommand(args: seq<string>): (line: string)
    ensures |line| > 0 && line[|line| - 1] == '\n'
  {
    EscapeBackslashes(Join(args, " ")) + "\n"
  }

  /** Round trip: dropping the terminator and undoing the escaping gives
      back the space-joined arguments. */
  lemma RebuildCommandRoundTrip(args: seq<string>)
    ensures var line := RebuildCommand(args);
            UnescapeBackslashes(line[..|line| - 1]) == Join(args, " ")
  {
    var body := EscapeBackslashes(Join(args, " "));
    UnescapeEscape(Join(args, " "));
    assert (body + "\n")[..|body|] == body;
  }

  /** A line as `readlines` returns it: terminated by its only newline. */
  predicate IsLine(l: string) {
    |l| > 0 && l[|l| - 1] == '\n' && '\n' !in l[..|l| - 1]
  }

  /** A rebuilt command is one line of the ledger file exactly when no
      argument carries a newline of its own. */
  lemma RebuiltIsLine(args: seq<string>)
    requires forall i :: 0 <= i < |args| ==> '\n' !in args[i]
    ensures IsLine(RebuildCommand(args))
  {
    JoinAvoids(args, " ", '\n');
    var body := EscapeBackslashes(Join(args, " "));
    assert RebuildCommand(args)[..|body|] == body;
  }

  /** The substring whose presence lets `different_command` look further. */
  const DefaultNameGuard: string := "name=BigMLer_"

  /** The head of the regular expression `name=Bigmler_[^\s]+` whose matches
      are deleted before comparing; its spelling differs from the guard. */
  const DefaultNamePattern: string := "name=Bigmler_"

  /** `\s` of a Python 2 regular expression compiled without the UNICODE flag. */
  predicate IsRegexSpace(c: char) {
    c == ' ' || c == '\t' || c == '\n' || c == '\r' || c == '\U{B}' || c == '\U{C}'
  }

  /** Length of the longest prefix of `s` free of regex whitespace: what the
      greedy `[^\s]+` consumes. */
  function NonSpaceRun(s: string): (n: nat)
    ensures n <= |s|
    ensures forall i :: 0 <= i < n ==> !IsRegexSpace(s[i])
    ensures n < |s| ==> IsRegexSpace(s[n])
    decreases |s|
  {
    if |s| == 0 || IsRegexSpace(s[0]) then 0 else 1 + NonSpaceRun(s[1..])
  }

  /** The regex whitespace of `s`, in order: what separates its words. */
  function SpacesOf(s: string): string
    decreases |s|
  {
    if |s| == 0 then ""
    else (if IsRegexSpace(s[0]) then [s[0]] else "") + SpacesOf(s[1..])
  }

  /** Dropping a prefix free of whitespace leaves the whitespace as it was. */
  lemma {:induction false} SkipNonSpace(s: string, k: nat)
    requires k <= |s|
    requires forall i :: 0 <= i < k ==> !IsRegexSpace(s[i])
    ensures SpacesOf(s[k..]) == SpacesOf(s)
    decreases k
  {
    if k > 0 {
      SkipNonSpace(s[1..], k - 1);
      assert s[1..][k - 1..] == s[k..];
    }
  }

  /** A match of the pattern starting at the head of `s`: the pattern and
      the non-space run after it hold no whitespace. */
  lemma MatchHasNoSpace(s: string)
    requires StartsWith(s, DefaultNamePattern)
    ensures var end := |DefaultNamePattern| + NonSpaceRun(s[|DefaultNamePattern|..]);
            forall i :: 0 <= i < end ==> !IsRegexSpace(s[i])
  {
    var p := DefaultNamePattern;
    forall i | 0 <= i < |p| ensures !IsRegexSpace(s[i]) {
      assert s[i] == s[..|p|][i] == p[i];
    }
    forall i | |p| <= i < |p| + NonSpaceRun(s[|p|..]) ensures !IsRegexSpace(s[i]) {
      assert s[i] == s[|p|..][i - |p|];
    }
  }

  /** `re.sub(r'name=Bigmler_[^\s]+', "", s)`: leftmost, non-overlapping,
      greedy deletion of every match. Only text free of whitespace is
      deleted, so the whitespace separating the words survives in order. */
  function StripDefaultNames(s: string): (r: string)
    ensures |r| <= |s|
    ensures SpacesOf(r) == SpacesOf(s)
    decreases |s|
  {
    var p := DefaultNamePattern;
    if StartsWith(s, p) && |s| > |p| && !IsRegexSpace(s[|p|]) then
      var end := |p| + NonSpaceRun(s[|p|..]);
      MatchHasNoSpace(s);
      SkipNonSpace(s, end);
      StripDefaultNames(s[end..])
    else if |s| == 0 then ""
    else
      assert ([s[0]] + StripDefaultNames(s[1..]))[1..] == StripDefaultNames(s[1..]);
      [s[0]] + StripDefaultNames(s[1..])
  }

  /** Text with no match of the pattern is left as it is. */
  lemma {:induction false} StripWithoutPattern(s: string)
    requires !Contains(s, DefaultNamePattern)
    ensures StripDefaultNames(s) == s
    decreases |s|
  {
    if |s| > 0 {
      assert !StartsWith(s, DefaultNamePattern);
      StripWithoutPattern(s[1..]);
    }
  }

  /** `different_command(next_command, command)` as written. Despite its
      name it answers true for two lines that differ ONLY in the text the
      pattern deletes: such a line is not identical, carries the guard, and
      at least one of the two carries the lower-case default name. */
  function DifferentCommand(next: string, command: string): (r: bool)
    ensures r ==> next != command
    ensures r ==> Contains(command, DefaultNameGuard)
    ensures r ==> SpacesOf(next) == SpacesOf(command)
    ensures r ==> Contains(next, DefaultNamePattern) || Contains(command, DefaultNamePattern)
  {
    assert !Contains(next, DefaultNamePattern) && !Contains(command, DefaultNamePattern) ==>
             StripDefaultNames(next) == next && StripDefaultNames(command) == command by {
      if !Contains(next, DefaultNamePattern) && !Contains(command, DefaultNamePattern) {
        StripWithoutPattern(next);
        StripWithoutPattern(command);
      }
    }
    if next == command then false
    else if Contains(command, DefaultNameGuard) then
      StripDefaultNames(next) == StripDefaultNames(command)
    else false
  }

  /** Because the guard and the pattern are spelled differently, two lines
      that carry no lower-case default name are never reported different,
      however much they differ. */
  lemma DifferentCommandBlind(next: string, command: string)
    requires !Contains(next, DefaultNamePattern)
    requires !Contains(command, DefaultNamePattern)
    ensures !DifferentCommand(next, command)
  {
    StripWithoutPattern(next);
    StripWithoutPattern(command);
  }

  /** The run of non-space characters after the pattern stops at the
      first whitespace. */
  lemma {:induction false} NonSpaceRunOf(w: string, rest: string)
    requires forall i :: 0 <= i < |w| ==> !IsRegexSpace(w[i])
    requires |rest| == 0 || IsRegexSpace(rest[0])
    ensures NonSpaceRun(w + rest) == |w|
    decreases |w|
  {
    if |w| > 0 {
      assert (w + rest)[1..] == w[1..] + rest;
      NonSpaceRunOf(w[1..], rest);
    } else {
      assert w + rest == rest;
    }
  }

  /** A match of the pattern whose non-space run `w` ends at whitespace or
      at the end of the text is deleted whole. */
  lemma StripMatch(w: string, rest: string)
    requires |w| > 0 && forall i :: 0 <= i < |w| ==> !IsRegexSpace(w[i])
    requires |rest| == 0 || IsRegexSpace(rest[0])
    ensures StripDefaultNames(DefaultNamePattern + w + rest) == StripDefaultNames(rest)
  {
    var p := DefaultNamePattern;
    var s := p + w + rest;
    assert s[..|p|] == p;
    assert s[|p|..] == w + rest;
    NonSpaceRunOf(w, rest);
    assert s[|p| + |w|..] == rest;
  }

  /** A character that cannot begin a match is kept. */
  lemma StripKeeps(c: char, rest: string)
    requires c != DefaultNamePattern[0]
    ensures StripDefaultNames([c] + rest) == [c] + StripDefaultNames(rest)
  {
    assert ([c] + rest)[1..] == rest;
  }

  /** The pattern holds no whitespace. */
  lemma PatternHasNoSpace()
    ensures forall i :: 0 <= i < |DefaultNamePattern| ==> !IsRegexSpace(DefaultNamePattern[i])
  {
    MatchHasNoSpace(DefaultNamePattern);
  }

  /** No match of the pattern starts at the head of text that holds no
      default name and ends at a word boundary: it would have to lie inside
      that text or run across its final whitespace. */
  lemma NoMatchAcross(p: string, s: string)
    requires !Contains(p, DefaultNamePattern)
    requires |p| > 0 && IsRegexSpace(p[|p| - 1])
    ensures !StartsWith(p + s, DefaultNamePattern)
  {
    var pat, ps := DefaultNamePattern, p + s;
    if |p| >= |pat| {
      assert ps[..|pat|] == p[..|pat|];
    } else if |pat| <= |ps| {
      PatternHasNoSpace();
      assert ps[..|pat|][|p| - 1] == p[|p| - 1];
    }
  }

  /** Text that holds no default name and ends at a word boundary passes
      through the deletion unchanged, whatever follows it. */
  lemma {:induction false} StripPrefix(p: string, s: string)
    requires !Contains(p, DefaultNamePattern)
    requires |p| == 0 || IsRegexSpace(p[|p| - 1])
    ensures StripDefaultNames(p + s) == p + StripDefaultNames(s)
    decreases |p|
  {
    if |p| > 0 {
      assert StripDefaultNames(p + s) == [p[0]] + StripDefaultNames(p[1..] + s) by {
        NoMatchAcross(p, s);
        StripKeepsFirst(p + s);
        assert (p + s)[1..] == p[1..] + s;
      }
      assert StripDefaultNames(p[1..] + s) == p[1..] + StripDefaultNames(s) by {
        assert !Contains(p[1..], DefaultNamePattern);
        StripPrefix(p[1..], s);
      }
      ConsAppend(p, StripDefaultNames(s));
    } else {
      assert p + s == s;
    }
  }

  lemma ConsAppend<T>(p: seq<T>, x: seq<T>)
    requires |p| > 0
    ensures [p[0]] + (p[1..] + x) == p + x
  {
    assert p == [p[0]] + p[1..];
  }

  /** Text that does not start with a default name keeps its first
      character. */
  lemma StripKeepsFirst(s: string)
    requires |s| > 0 && !StartsWith(s, DefaultNamePattern)
    ensures StripDefaultNames(s) == [s[0]] + StripDefaultNames(s[1..])
  {
  }

  /** Two lines that differ only in the word after one default name, each
      word a run of non-space characters, are judged "different" when the
      guard is present: the all-inputs form of the inverted sense. */
  lemma DifferentCommandOnDefaultNames(p: string, w1: string, w2: string, t: string)
    requires !Contains(p, DefaultNamePattern) && (|p| == 0 || IsRegexSpace(p[|p| - 1]))
    requires |w1| > 0 && forall i :: 0 <= i < |w1| ==> !IsRegexSpace(w1[i])
    requires |w2| > 0 && forall i :: 0 <= i < |w2| ==> !IsRegexSpace(w2[i])
    requires w1 != w2
    requires |t| == 0 || IsRegexSpace(t[0])
    requires Contains(p + (DefaultNamePattern + w2 + t), DefaultNameGuard)
    ensures DifferentCommand(p + (DefaultNamePattern + w1 + t), p + (DefaultNamePattern + w2 + t))
  {
    StripPrefix(p, DefaultNamePattern + w1 + t);
    StripPrefix(p, DefaultNamePattern + w2 + t);
    StripMatch(w1, t);
    StripMatch(w2, t);
    DistinctMiddles(p, DefaultNamePattern, w1, w2, t);
  }

  lemma DistinctMiddles<T>(a: seq<T>, b: seq<T>, w1: seq<T>, w2: seq<T>, t: seq<T>)
    requires w1 != w2
    ensures a + (b + w1 + t) != a + (b + w2 + t)
  {
    if |w1| != |w2| {
      assert |a + (b + w1 + t)| != |a + (b + w2 + t)|;
    } else {
      var i :| 0 <= i < |w1| && w1[i] != w2[i];
      assert (a + (b + w1 + t))[|a| + |b| + i] == w1[i];
      assert (a + (b + w2 + t))[|a| + |b| + i] == w2[i];
    }
  }

  lemma DistinctPrefixes<T>(p1: seq<T>, p2: seq<T>, y: seq<T>)
    requires p1 != p2
    ensures p1 + y != p2 + y
  {
    if |p1| == |p2| {
      var i :| 0 <= i < |p1| && p1[i] != p2[i];
      assert (p1 + y)[i] == p1[i] && (p2 + y)[i] == p2[i];
    }
  }

  /** The converse side: lines that differ in the text before any default
      name are never judged "different", whatever follows. */
  lemma DifferentCommandSeesPrefix(p1: string, p2: string, x: string)
    requires !Contains(p1, DefaultNamePattern) && (|p1| == 0 || IsRegexSpace(p1[|p1| - 1]))
    requires !Contains(p2, DefaultNamePattern) && (|p2| == 0 || IsRegexSpace(p2[|p2| - 1]))
    requires p1 != p2
    ensures !DifferentCommand(p1 + x, p2 + x)
  {
    StripPrefix(p1, x);
    StripPrefix(p2, x);
    DistinctPrefixes(p1, p2, StripDefaultNames(x));
  }

  /** `"a name=Bigmler_" + d + " name=BigMLer_\n"`: a command line whose
      lower-case default name ends in `d`, followed by the guard. */
  function ExampleLine(d: char): string {
    ['a'] + ([' '] + (DefaultNamePattern + [d] + ExampleTail))
  }

  const ExampleTail: string := " " + DefaultNameGuard + "\n"

  /** The tail spells the guard with an upper-case `L`, so the pattern's
      lower-case `l` never matches in it and nothing is deleted. */
  lemma ExampleTailUnmatched()
    ensures StripDefaultNames(ExampleTail) == ExampleTail
  {
    assert DefaultNamePattern[9] == 'l';
    assert forall i :: 0 <= i < |ExampleTail| ==> ExampleTail[i] != 'l';
    MissingCharNotContained(ExampleTail, DefaultNamePattern, 'l');
    StripWithoutPattern(ExampleTail);
  }

  /** A line of two kept characters, a default name and an unmatched
      tail loses exactly the name. */
  lemma StripNameBefore(c: char, d: char, tail: string)
    requires c != DefaultNamePattern[0] && ' ' != DefaultNamePattern[0] && !IsRegexSpace(d)
    requires |tail| > 0 && IsRegexSpace(tail[0]) && StripDefaultNames(tail) == tail
    ensures StripDefaultNames([c] + ([' '] + (DefaultNamePattern + [d] + tail))) == [c] + ([' '] + tail)
  {
    var t := DefaultNamePattern + [d] + tail;
    StripMatch([d], tail);
    StripKeeps(' ', t);
    StripKeeps(c, [' '] + t);
  }

  /** Deleting the lower-case name leaves the same text whatever it ends in. */
  lemma StripExampleLine(d: char)
    requires !IsRegexSpace(d)
    ensures StripDefaultNames(ExampleLine(d)) == ['a'] + ([' '] + ExampleTail)
  {
    ExampleTailUnmatched();
    StripNameBefore('a', d, ExampleTail);
  }

  /** Two command lines that differ only in the lower-case default name,
      the second carrying the guard, are reported different. */
  lemma DifferentCommandExample()
    ensures DifferentCommand(ExampleLine('1'), ExampleLine('2'))
  {
    var b := ExampleLine('2');
    assert ExampleLine('1')[|DefaultNamePattern| + 2] != b[|DefaultNamePattern| + 2];
    var k := |DefaultNamePattern| + 4;
    assert b[k..k + |DefaultNameGuard|] == DefaultNameGuard;
    ContainsAt(b, DefaultNameGuard, k);
    StripExampleLine('1');
    StripExampleLine('2');
  }

  /** The name wrapped `k` times in the affix. */
  function Wrap(name: string, affix: string, k: nat): string
    decreases k
  {
    if k == 0 then name else Wrap(affix + name + affix, affix, k - 1)
  }

  function MaxLength(names: seq<string>): (m: nat)
    ensures forall i :: 0 <= i < |names| ==> |names[i]| <= m
    decreases |names|
  {
    if |names| == 0 then 0
    else var rest := MaxLength(names[1..]);
    if |names[0]| > rest then |names[0]| else rest
  }

  /** `avoid_duplicates`: the name wrapped in the affix as few times as
      makes it differ from every existing field name. */
  function AvoidDuplicates(name: string, existing: seq<string>, affix: string): (r: string)
    requires |affix| > 0
    ensures r !in existing
    ensures exists k: nat :: r == Wrap(name, affix, k)
                             && forall j: nat :: j < k ==> Wrap(name, affix, j) in existing
    decreases if |name| <= MaxLength(existing) then MaxLength(existing) + 1 - |name| else 0
  {
    if name in existing then
      var r := AvoidDuplicates(affix + name + affix, existing, affix);
      var k': nat :| r == Wrap(affix + name + affix, affix, k')
                     && forall j: nat :: j < k' ==> Wrap(affix + name + affix, affix, j) in existing;
      assert r == Wrap(name, affix, k' + 1);
      assert forall j: nat :: j < k' + 1 ==> Wrap(name, affix, j) in existing by {
        forall j: nat | j < k' + 1 ensures Wrap(name, affix, j) in existing {
          if j > 0 {
            assert Wrap(name, affix, j) == Wrap(affix + name + affix, affix, j - 1);
          }
        }
      }
      r
    else
      assert name == Wrap(name, affix, 0);
      name
  }

  const NameMaxLength: int := 127

  /** Python's `s[0:end]` for an end that may be negative. */
  function SliceTo(s: string, end: int): (r: string)
    ensures |r| <= |s| && r == s[..|r|]
    ensures end >= 0 ==> |r| == if end < |s| then end else |s|
  {
    if end >= 0 then (if end < |s| then s[..end] else s)
    else if |s| + end > 0 then s[..|s| + end]
    else ""
  }

  /** The evaluation name: the user's name cut so that, with the suffix
      `_subset_<counter>` appended, it fits the 127-character limit. */
  function EvaluationName(name: string, counter: nat): (r: string)
    ensures var suffix := "_subset_" + NatToString(counter);
            var kept := |r| - |suffix|;
            && 0 <= kept <= |name|
            && r == name[..kept] + suffix
            && (|suffix| <= NameMaxLength ==> |r| <= NameMaxLength)
            && (|name| + |suffix| <= NameMaxLength ==> r == name + suffix)
            && (|name| + |suffix| > NameMaxLength && |suffix| <= NameMaxLength ==> |r| == NameMaxLength)
  {
    var suffix := "_subset_" + NatToString(counter);
    var kept := SliceTo(name, NameMaxLength - |suffix|);
    kept + suffix
  }

  /** The settings `add_model_options` reads from the parsed arguments.
      An empty string or zero stands for Python's falsy `None`/`""`/`0`;
      `sampleRateText` is `str(sample_rate)`. */
  datatype ModelOptions = ModelOptions(
    balance: bool, missingSplits: bool, pruning: string, weightField: string,
    objectiveWeights: string, tlp: int, modelAttributes: string,
    numberOfModels: int, sampleRate: real, sampleRateText: string,
    replacement: bool, randomize: bool, ensembleAttributes: string)

  function Switch(on: bool, flag: string): seq<string> {
    if on then [flag] else []
  }

  function Pair(on: bool, flag: string, value: string): seq<string> {
    if on then [flag, value] else []
  }

  /** The options `add_model_options` appends, in the order it appends them;
      the ensemble options only follow a model count above one. */
  function ModelOptionArgs(o: ModelOptions): seq<string> {
    Switch(o.balance, "--balance")
    + (Switch(o.missingSplits, "--missing-splits")
    + (Pair(o.pruning != "", "--pruning", o.pruning)
    + (Pair(o.weightField != "", "--weight-field", o.weightField)
    + TreeArgs(o))))
  }

  function TreeArgs(o: ModelOptions): seq<string> {
    Pair(o.objectiveWeights != "", "--objective-weights", o.objectiveWeights)
    + (Pair(o.tlp != 0, "--tlp", IntToString(o.tlp))
    + (Pair(o.modelAttributes != "", "--model-attributes", o.modelAttributes)
    + (if o.numberOfModels > 1 then EnsembleArgs(o) else [])))
  }

  function EnsembleArgs(o: ModelOptions): seq<string> {
    ["--number-of-models", IntToString(o.numberOfModels)]
    + (Pair(o.sampleRate < 1.0, "--sample-rate", o.sampleRateText)
    + (Switch(o.replacement, "--replacement")
    + (Switch(o.randomize, "--randomize")
    + Pair(o.ensembleAttributes != "", "--ensemble-attributes", o.ensembleAttributes))))
  }

  /** `add_model_options`: the given arguments, untouched, followed by the
      model and ensemble options. */
  function AddModelOptions(commandArgs: seq<string>, o: ModelOptions): (r: seq<string>)
    ensures |r| >= |commandArgs| && r[..|commandArgs|] == commandArgs
  {
    commandArgs + ModelOptionArgs(o)
  }

  /** What a reader of the option list learns: which switches are on and
      the text given to each valued option ("" when absent). */
  datatype OptionsView = OptionsView(
    balance: bool, missingSplits: bool, pruning: string, weightField: string,
    objectiveWeights: string, tlp: string, modelAttributes: string,
    numberOfModels: string, sampleRate: string, replacement: bool,
    randomize: bool, ensembleAttributes: string)

  const NoOptions: OptionsView := OptionsView(false, false, "", "", "", "", "", "", "", false, false, "")

  predicate IsSwitch(t: string) {
    t == "--balance" || t == "--missing-splits" || t == "--replacement" || t == "--randomize"
  }

  predicate IsValued(t: string) {
    || t == "--pruning" || t == "--weight-field" || t == "--objective-weights" || t == "--tlp"
    || t == "--model-attributes" || t == "--number-of-models" || t == "--sample-rate"
    || t == "--ensemble-attributes"
  }

  function SetSwitch(v: OptionsView, t: string): OptionsView
    requires IsSwitch(t)
  {
    if t == "--balance" then v.(balance := true)
    else if t == "--missing-splits" then v.(missingSplits := true)
    else if t == "--replacement" then v.(replacement := true)
    else v.(randomize := true)
  }

  function SetValue(v: OptionsView, t: string, x: string): OptionsView
    requires IsValued(t)
  {
    if t == "--pruning" then v.(pruning := x)
    else if t == "--weight-field" then v.(weightField := x)
    else if t == "--objective-weights" then v.(objectiveWeights := x)
    else if t == "--tlp" then v.(tlp := x)
    else if t == "--model-attributes" then v.(modelAttributes := x)
    else if t == "--number-of-models" then v.(numberOfModels := x)
    else if t == "--sample-rate" then v.(sampleRate := x)
    else v.(ensembleAttributes := x)
  }

  /** Reads an option list left to right; a valued option takes the next
      token as its value, whatever it looks like. */
  function ReadModelOptions(tokens: seq<string>, v: OptionsView): OptionsView
    decreases |tokens|
  {
    if |tokens| == 0 then v
    else if IsSwitch(tokens[0]) then ReadModelOptions(tokens[1..], SetSwitch(v, tokens[0]))
    else if IsValued(tokens[0]) && |tokens| >= 2 then
      ReadModelOptions(tokens[2..], SetValue(v, tokens[0], tokens[1]))
    else ReadModelOptions(tokens[1..], v)
  }

  /** The view of the settings that the appended options should convey. */
  function IntendedView(o: ModelOptions): OptionsView {
    var ensemble := o.numberOfModels > 1;
    OptionsView(
      o.balance, o.missingSplits, o.pruning, o.weightField, o.objectiveWeights,
      if o.tlp != 0 then IntToString(o.tlp) else "",
      o.modelAttributes,
      if ensemble then IntToString(o.numberOfModels) else "",
      if ensemble && o.sampleRate < 1.0 then o.sampleRateText else "",
      ensemble && o.replacement, ensemble && o.randomize,
      if ensemble then o.ensembleAttributes else "")
  }

  /** How the reader classifies each option `add_model_options` emits. */
  lemma SwitchFlags()
    ensures IsSwitch("--balance") && IsSwitch("--missing-splits")
    ensures IsSwitch("--replacement") && IsSwitch("--randomize")
  {
  }

  lemma ValuedFlags()
    ensures IsValued("--pruning") && !IsSwitch("--pruning")
    ensures IsValued("--weight-field") && !IsSwitch("--weight-field")
    ensures IsValued("--objective-weights") && !IsSwitch("--objective-weights")
    ensures IsValued("--tlp") && !IsSwitch("--tlp")
    ensures IsValued("--model-attributes") && !IsSwitch("--model-attributes")
    ensures IsValued("--number-of-models") && !IsSwitch("--number-of-models")
    ensures IsValued("--sample-rate") && !IsSwitch("--sample-rate")
    ensures IsValued("--ensemble-attributes") && !IsSwitch("--ensemble-attributes")
  {
  }

  lemma ReadSwitch(on: bool, t: string, rest: seq<string>, v: OptionsView)
    requires IsSwitch(t)
    ensures ReadModelOptions(Switch(on, t) + rest, v)
            == ReadModelOptions(rest, if on then SetSwitch(v, t) else v)
  {
    if on {
      assert (Switch(on, t) + rest)[1..] == rest;
    } else {
      assert Switch(on, t) + rest == rest;
    }
  }

  lemma ReadPair(on: bool, t: string, x: string, rest: seq<string>, v: OptionsView)
    requires IsValued(t) && !IsSwitch(t)
    ensures ReadModelOptions(Pair(on, t, x) + rest, v)
            == ReadModelOptions(rest, if on then SetValue(v, t, x) else v)
  {
    if on {
      assert (Pair(on, t, x) + rest)[2..] == rest;
    } else {
      assert Pair(on, t, x) + rest == rest;
    }
  }

  lemma ReadEnsemble(o: ModelOptions, v: OptionsView)
    requires v.numberOfModels == "" && v.sampleRate == "" && !v.replacement
    requires !v.randomize && v.ensembleAttributes == ""
    ensures ReadModelOptions(EnsembleArgs(o), v)
            == v.(numberOfModels := IntToString(o.numberOfModels),
                  sampleRate := if o.sampleRate < 1.0 then o.sampleRateText else "",
                  replacement := o.replacement, randomize := o.randomize,
                  ensembleAttributes := o.ensembleAttributes)
  {
    ValuedFlags();
    SwitchFlags();
    var e5 := Pair(o.ensembleAttributes != "", "--ensemble-attributes", o.ensembleAttributes);
    var e4 := Switch(o.randomize, "--randomize") + e5;
    var e3 := Switch(o.replacement, "--replacement") + e4;
    var e2 := Pair(o.sampleRate < 1.0, "--sample-rate", o.sampleRateText) + e3;
    ReadPair(true, "--number-of-models", IntToString(o.numberOfModels), e2, v);
    assert EnsembleArgs(o) == Pair(true, "--number-of-models", IntToString(o.numberOfModels)) + e2;
    var w1 := SetValue(v, "--number-of-models", IntToString(o.numberOfModels));
    ReadPair(o.sampleRate < 1.0, "--sample-rate", o.sampleRateText, e3, w1);
    var w2 := if o.sampleRate < 1.0 then SetValue(w1, "--sample-rate", o.sampleRateText) else w1;
    ReadSwitch(o.replacement, "--replacement", e4, w2);
    var w3 := if o.replacement then SetSwitch(w2, "--replacement") else w2;
    ReadSwitch(o.randomize, "--randomize", e5, w3);
    var w4 := if o.randomize then SetSwitch(w3, "--randomize") else w3;
    ReadPair(o.ensembleAttributes != "", "--ensemble-attributes", o.ensembleAttributes, [], w4);
    assert e5 == e5 + [];
  }

  /** Round trip: reading back the options `add_model_options` appended
      recovers every setting it was asked to convey, and shows no ensemble
      option unless more than one model is requested. */
  lemma {:induction false} ModelOptionsRoundTrip(commandArgs: seq<string>, o: ModelOptions)
    ensures ReadModelOptions(AddModelOptions(commandArgs, o)[|commandArgs|..], NoOptions)
            == IntendedView(o)
  {
    var r := AddModelOptions(commandArgs, o);
    assert r[|commandArgs|..] == ModelOptionArgs(o);
    ReadAll(o);
  }

  /** The ensemble options, when a model count above one asks for them. */
  function EnsembleTail(o: ModelOptions): seq<string> {
    if o.numberOfModels > 1 then EnsembleArgs(o) else []
  }

  lemma ReadTreeHead(o: ModelOptions, v: OptionsView)
    requires v.objectiveWeights == "" && v.tlp == "" && v.modelAttributes == ""
    ensures ReadModelOptions(TreeArgs(o), v)
            == ReadModelOptions(EnsembleTail(o),
                                v.(objectiveWeights := o.objectiveWeights,
                                   tlp := if o.tlp != 0 then IntToString(o.tlp) else "",
                                   modelAttributes := o.modelAttributes))
  {
    ValuedFlags();
    var tail := EnsembleTail(o);
    var a7 := Pair(o.modelAttributes != "", "--model-attributes", o.modelAttributes) + tail;
    var a6 := Pair(o.tlp != 0, "--tlp", IntToString(o.tlp)) + a7;
    assert TreeArgs(o) == Pair(o.objectiveWeights != "", "--objective-weights", o.objectiveWeights) + a6;
    ReadPair(o.objectiveWeights != "", "--objective-weights", o.objectiveWeights, a6, v);
    var v1 := v.(objectiveWeights := o.objectiveWeights);
    ReadPair(o.tlp != 0, "--tlp", IntToString(o.tlp), a7, v1);
    var v2 := v1.(tlp := if o.tlp != 0 then IntToString(o.tlp) else "");
    ReadPair(o.modelAttributes != "", "--model-attributes", o.modelAttributes, tail, v2);
  }

  lemma ReadTree(o: ModelOptions, v: OptionsView)
    requires v.objectiveWeights == "" && v.tlp == "" && v.modelAttributes == ""
    requires v.numberOfModels == "" && v.sampleRate == "" && !v.replacement
    requires !v.randomize && v.ensembleAttributes == ""
    ensures var ensemble := o.numberOfModels > 1;
            ReadModelOptions(TreeArgs(o), v)
            == v.(objectiveWeights := o.objectiveWeights,
                  tlp := if o.tlp != 0 then IntToString(o.tlp) else "",
                  modelAttributes := o.modelAttributes,
                  numberOfModels := if ensemble then IntToString(o.numberOfModels) else "",
                  sampleRate := if ensemble && o.sampleRate < 1.0 then o.sampleRateText else "",
                  replacement := ensemble && o.replacement, randomize := ensemble && o.randomize,
                  ensembleAttributes := if ensemble then o.ensembleAttributes else "")
  {
    ReadTreeHead(o, v);
    var v3 := v.(objectiveWeights := o.objectiveWeights,
                 tlp := if o.tlp != 0 then IntToString(o.tlp) else "",
                 modelAttributes := o.modelAttributes);
    if o.numberOfModels > 1 {
      ReadEnsemble(o, v3);
    }
  }

  lemma ReadAll(o: ModelOptions)
    ensures ReadModelOptions(ModelOptionArgs(o), NoOptions) == IntendedView(o)
  {
    ValuedFlags();
    SwitchFlags();
    var a4 := Pair(o.weightField != "", "--weight-field", o.weightField) + TreeArgs(o);
    var a3 := Pair(o.pruning != "", "--pruning", o.pruning) + a4;
    var a2 := Switch(o.missingSplits, "--missing-splits") + a3;
    var v0 := NoOptions;
    ReadSwitch(o.balance, "--balance", a2, v0);
    var v1 := v0.(balance := o.balance);
    ReadSwitch(o.missingSplits, "--missing-splits", a3, v1);
    var v2 := v1.(missingSplits := o.missingSplits);
    ReadPair(o.pruning != "", "--pruning", o.pruning, a4, v2);
    var v3 := v2.(pruning := o.pruning);
    ReadPair(o.weightField != "", "--weight-field", o.weightField, TreeArgs(o), v3);
    var v4 := v3.(weightField := o.weightField);
    ReadTree(o, v4);
  }
}

=== FILE: extended_reals.dfy ===
/** Scores are floats that start at minus infinity. The model keeps exact
    reals plus one explicit constructor for minus infinity. */
module ExtendedReals {

  datatype ExtReal = NegInf | Fin(value: real)

  /** `a < b` on floats, minus infinity below every finite value. */
  predicate Less(a: ExtReal, b: ExtReal) {
    b.Fin? && (a.NegInf? || a.value < b.value)
  }

  /** `a <= b` on floats. */
  predicate LessEq(a: ExtReal, b: ExtReal) {
    a.NegInf? || (b.Fin? && a.value <= b.value)
  }

  lemma LessEqTransitive(a: ExtReal, b: ExtReal, c: ExtReal)
    requires LessEq(a, b) && LessEq(b, c)
    ensures LessEq(a, c)
  {
  }

  /** The margin a score must clear to replace the best one (`EPSILON`). */
  const Epsilon: real := 0.001

  /** `(score - EPSILON) > best`: minus infinity minus anything is still
      minus infinity, which exceeds nothing. */
  predicate Improves(score: ExtReal, best: ExtReal) {
    score.Fin? && (best.NegInf? || score.value - Epsilon > best.value)
  }

  /** An improvement is strictly above the old best, by more than the margin. */
  lemma ImprovesIsAboveMargin(score: ExtReal, best: ExtReal)
    requires Improves(score, best)
    ensures Less(best, score)
    ensures best.Fin? ==> score.value > best.value + Epsilon
  {
  }
}

=== FILE: feature_search.dfy ===
/** `best_first_search`: a best-first walk over feature-inclusion masks
    with an open list of scored candidates and a closed list of expanded
    ones, stopped by the staleness rule. */
module FeatureSearch {
  import opened Results
  import opened Text
  import opened ExtendedReals
  import opened Masks
  import opened Scorer
  import opened Ledger
  import opened Progress

  const DefaultStaleness: int := 5
  const DefaultPenalty: real := 0.001

  /** An entry of the open or closed list: a mask, its score and the raw
      metric value it scored. */
  datatype ScoredState = ScoredState(state: Mask, score: ExtReal, metricValue: ExtReal)

  /** What `find_max_state` returns: no state at all for an empty list. */
  datatype MaxState = MaxState(state: Option<Mask>, score: ExtReal, metricValue: ExtReal)

  function Chosen(s: ScoredState): MaxState {
    MaxState(Some(s.state), s.score, s.metricValue)
  }

  /** The state the search starts from: no field, scored minus infinity. */
  function Initial(n: nat): ScoredState {
    ScoredState(AllFalse(n), NegInf, NegInf)
  }

  /** Entry k has a score at least every other score, and strictly above
      the scores of the entries before it. */
  predicate EarliestMax(states: seq<ScoredState>, k: int) {
    && 0 <= k < |states|
    && (forall j :: 0 <= j < |states| ==> LessEq(states[j].score, states[k].score))
    && (forall j :: 0 <= j < k ==> Less(states[j].score, states[k].score))
  }

  /** `find_max_state`: a later entry replaces the current pick only with a
      strictly higher score, so ties keep the earlier entry. */
  method FindMaxState(states: seq<ScoredState>) returns (m: MaxState)
    ensures |states| == 0 ==> m == MaxState(None, NegInf, NegInf)
    ensures |states| > 0 ==> exists k :: EarliestMax(states, k) && m == Chosen(states[k])
  {
    m := MaxState(None, NegInf, NegInf);
    ghost var k := 0;
    for i := 0 to |states|
      invariant i == 0 ==> m == MaxState(None, NegInf, NegInf)
      invariant i > 0 ==> EarliestMax(states[..i], k) && m == Chosen(states[k])
    {
      var s := states[i];
      if Less(m.score, s.score) || (m.state.None? && m.score == s.score) {
        m := Chosen(s);
        k := i;
      }
    }
    assert states[..|states|] == states;
  }

  /** `list.remove`: drops the first entry equal to `x`. */
  function RemoveFirst<T(==)>(xs: seq<T>, x: T): (r: seq<T>)
    requires x in xs
    ensures |r| == |xs| - 1
    ensures multiset(r) + multiset{x} == multiset(xs)
  {
    if xs[0] == x then
      assert xs == [xs[0]] + xs[1..];
      xs[1..]
    else
      assert xs == [xs[0]] + xs[1..];
      [xs[0]] + RemoveFirst(xs[1..], x)
  }

  /** Removing the entry at k, when no earlier entry equals it, cuts
      exactly position k. */
  lemma {:induction false} RemoveFirstAt<T>(xs: seq<T>, k: nat)
    requires k < |xs|
    requires forall j :: 0 <= j < k ==> xs[j] != xs[k]
    ensures RemoveFirst(xs, xs[k]) == xs[..k] + xs[k + 1..]
    decreases k
  {
    if k > 0 {
      var tail := xs[1..];
      assert tail[k - 1] == xs[k];
      RemoveFirstAt(tail, k - 1);
      assert xs[..k] + xs[k + 1..] == [xs[0]] + (tail[..k - 1] + tail[k..]);
    }
  }

  /** The masks of a list of scored states, in order. */
  function MasksOf(xs: seq<ScoredState>): (ms: seq<Mask>)
    ensures |ms| == |xs|
    ensures forall i :: 0 <= i < |xs| ==> ms[i] == xs[i].state
  {
    seq(|xs|, i requires 0 <= i < |xs| => xs[i].state)
  }

  lemma MasksOfAppend(xs: seq<ScoredState>, x: ScoredState)
    ensures MasksOf(xs + [x]) == MasksOf(xs) + [x.state]
  {
  }

  /** The names of the fields a mask includes, in field order. */
  function Selected(mask: Mask, names: seq<string>): (r: seq<string>)
    requires |mask| == |names|
    ensures |r| <= |names|
    ensures forall x :: x in r ==> x in names
    decreases |mask|
  {
    if |mask| == 0 then []
    else (if mask[0] then [names[0]] else []) + Selected(mask[1..], names[1..])
  }

  /** The mask with no field included is the one that selects no names,
      and the mask with every field included selects all of them, in
      order. */
  lemma {:induction false} SelectedCount(mask: Mask, names: seq<string>)
    requires |mask| == |names|
    ensures (forall i :: 0 <= i < |mask| ==> !mask[i]) <==> Selected(mask, names) == []
    ensures (forall i :: 0 <= i < |mask| ==> mask[i]) ==> Selected(mask, names) == names
    decreases |mask|
  {
    if |mask| > 0 {
      SelectedCount(mask[1..], names[1..]);
      assert names == [names[0]] + names[1..];
      if forall i :: 0 <= i < |mask[1..]| ==> !mask[1..][i] {
        assert (forall i :: 0 <= i < |mask| ==> !mask[i]) <==> !mask[0];
      }
    }
  }

  /** What the search is given: the candidate fields (the objective and
      excluded fields already removed), the separator `model_fields` is
      joined with, the category to optimise, the metrics to minimise, the
      command dispatched for each evaluation (an opaque function of the
      counter and the mask), and the evaluation read back for a mask. */
  datatype FeatureConfig = FeatureConfig(
    fieldNames: seq<string>,
    separator: string,
    category: string,
    minimize: set<string>,
    commandFor: (nat, Mask) -> seq<string>,
    oracle: Mask -> Evaluation)

  /** One evaluated child: its entry for the open list, the session after
      its command went through the ledger, and the metric name to ask for
      next. */
  datatype Evaluated = Evaluated(scored: ScoredState, session: Session, metric: string)

  /** `kfold_evaluate` for one child: the ledger step for its command, then
      the score of the evaluation it reads back. */
  function EvaluateSubset(cfg: FeatureConfig, penalty: real, counter: nat, child: Mask,
                          s: Session, metric: string): (r: Result<Evaluated, SearchError>)
    requires |child| == |cfg.fieldNames|
    ensures Consistent(s.ledger) && r.Failure? ==> r.error.ScoreFailure?
    ensures r.Success? ==>
              && r.value.scored.state == child
              && r.value.scored.score.Fin? && r.value.scored.metricValue.Fin?
              && Step(s, cfg.commandFor(counter, child)) == Success(r.value.session)
              && |s.dispatched| <= |r.value.session.dispatched| <= |s.dispatched| + 1
              && (r.value.session.ledger.resume ==> s.ledger.resume)
              && Consistent(r.value.session.ledger)
    ensures r.Success? ==>
              var k := KfoldScore(cfg.oracle(child), cfg.category, metric, cfg.minimize, penalty,
                                  Join(Selected(child, cfg.fieldNames), cfg.separator), cfg.separator);
              && k.Success?
              && r.value.scored.score == Fin(k.value.score)
              && r.value.scored.metricValue == Fin(k.value.value)
              && r.value.metric == k.value.metric
    ensures r.Success? ==> r.value.metric == metric || r.value.metric == RSquared
  {
    match Step(s, cfg.commandFor(counter, child))
    case Failure(e) => Failure(LedgerFailure(e))
    case Success(s') =>
      var modelFields := Join(Selected(child, cfg.fieldNames), cfg.separator);
      match KfoldScore(cfg.oracle(child), cfg.category, metric, cfg.minimize, penalty, modelFields, cfg.separator)
      case Failure(e) => Failure(ScoreFailure(e))
      case Success(k) => Success(Evaluated(ScoredState(child, Fin(k.score), Fin(k.value)), s', k.metric))
  }

  /** Entry `e` holds what `kfold_evaluate` returns for its mask when
      metric `m` is asked for: the k-fold score of the oracle's evaluation,
      penalised by the fields the mask selects, and the raw metric value. */
  predicate ScoredAs(cfg: FeatureConfig, penalty: real, e: ScoredState, m: string) {
    && |e.state| == |cfg.fieldNames|
    && var k := KfoldScore(cfg.oracle(e.state), cfg.category, m, cfg.minimize, penalty,
                           Join(Selected(e.state, cfg.fieldNames), cfg.separator), cfg.separator);
       k.Success? && e.score == Fin(k.value.score) && e.metricValue == Fin(k.value.value)
  }

  /** The metric name asked for after the entries of `log` were evaluated
      in order, starting from `metric`: each evaluation hands back the name
      it resolved. */
  function NameAfter(cfg: FeatureConfig, metric: string, log: seq<ScoredState>): (r: string)
    ensures FedBack(metric, r)
    decreases |log|
  {
    if |log| == 0 then metric
    else
      var last := log[|log| - 1];
      FedName(cfg.oracle(last.state), cfg.category, NameAfter(cfg, metric, log[..|log| - 1]))
  }

  /** Every logged entry holds the k-fold score of its mask under the name
      fed back by the entries evaluated before it. */
  predicate PinnedLog(cfg: FeatureConfig, penalty: real, metric: string, log: seq<ScoredState>) {
    forall i :: 0 <= i < |log| ==> ScoredAs(cfg, penalty, log[i], NameAfter(cfg, metric, log[..i]))
  }

  /** The log holds exactly the scored entries of the two lists. */
  predicate LogsLists(open: seq<ScoredState>, closed: seq<ScoredState>, log: seq<ScoredState>) {
    && (forall e :: e in open && e.score.Fin? ==> e in log)
    && (forall e :: e in closed && e.score.Fin? ==> e in log)
    && (forall e :: e in log ==> e in open || e in closed)
  }

  /** The log of evaluations agrees with the lists: it holds exactly the
      entries of open and closed other than the unscored initial one, each
      scored under its pinned name, and `current` is the name fed back
      last. */
  predicate LogMatches(cfg: FeatureConfig, penalty: real, metric: string, open: seq<ScoredState>,
                       closed: seq<ScoredState>, log: seq<ScoredState>, current: string) {
    && PinnedLog(cfg, penalty, metric, log)
    && current == NameAfter(cfg, metric, log)
    && LogsLists(open, closed, log)
  }

  /** An entry scored under the name the log fed back extends the log, and
      hands back the name its own evaluation resolved. */
  lemma PinnedSnoc(cfg: FeatureConfig, penalty: real, metric: string, log: seq<ScoredState>, x: ScoredState)
    requires PinnedLog(cfg, penalty, metric, log)
    requires ScoredAs(cfg, penalty, x, NameAfter(cfg, metric, log))
    ensures PinnedLog(cfg, penalty, metric, log + [x])
    ensures NameAfter(cfg, metric, log + [x]) == FedName(cfg.oracle(x.state), cfg.category, NameAfter(cfg, metric, log))
  {
    var log' := log + [x];
    assert log'[..|log|] == log;
    forall i | 0 <= i < |log|
      ensures ScoredAs(cfg, penalty, log'[i], NameAfter(cfg, metric, log'[..i]))
    {
      assert log'[i] == log[i] && log'[..i] == log[..i];
    }
  }

  /** A child evaluated under the name the log fed back is scored under its
      pinned name, and the name handed back is the one that follows it. */
  lemma EvaluatedPinned(cfg: FeatureConfig, penalty: real, counter: nat, child: Mask, s: Session,
                        request: string, log: seq<ScoredState>)
    requires |child| == |cfg.fieldNames|
    requires EvaluateSubset(cfg, penalty, counter, child, s, NameAfter(cfg, request, log)).Success?
    requires PinnedLog(cfg, penalty, request, log)
    ensures var ev := EvaluateSubset(cfg, penalty, counter, child, s, NameAfter(cfg, request, log)).value;
            && PinnedLog(cfg, penalty, request, log + [ev.scored])
            && ev.metric == NameAfter(cfg, request, log + [ev.scored])
  {
    var ev := EvaluateSubset(cfg, penalty, counter, child, s, NameAfter(cfg, request, log)).value;
    assert ScoredAs(cfg, penalty, ev.scored, NameAfter(cfg, request, log));
    PinnedSnoc(cfg, penalty, request, log, ev.scored);
  }

  /** The commands of the evaluations in `xs`, numbered from `base + 1`
      on, as the counter numbers them. */
  function Calls(cfg: FeatureConfig, base: nat, xs: seq<ScoredState>): (calls: seq<seq<string>>)
    ensures |calls| == |xs|
    ensures forall i :: 0 <= i < |xs| ==> calls[i] == cfg.commandFor(base + i + 1, xs[i].state)
  {
    seq(|xs|, i requires 0 <= i < |xs| => cfg.commandFor(base + i + 1, xs[i].state))
  }

  lemma CallsAppend(cfg: FeatureConfig, base: nat, xs: seq<ScoredState>, ys: seq<ScoredState>)
    ensures Calls(cfg, base, xs + ys) == Calls(cfg, base, xs) + Calls(cfg, base + |xs|, ys)
  {
  }

  /** Every mask in the list has length n. */
  predicate Sized(xs: seq<ScoredState>, n: nat) {
    forall i :: 0 <= i < |xs| ==> |xs[i].state| == n
  }

  /** The invariant the search keeps over its two lists: masks of the right
      length, none twice across both lists, every entry other than the
      initial one scored, and the initial state first to be closed. */
  predicate ListsInvariant(open: seq<ScoredState>, closed: seq<ScoredState>, n: nat) {
    && Sized(open, n) && Sized(closed, n)
    && NoDuplicates(MasksOf(open) + MasksOf(closed))
    && (forall i :: 0 <= i < |open| ==> open[i].score.Fin? || open[i] == Initial(n))
    && (forall i :: 0 <= i < |closed| ==> closed[i].score.Fin? || closed[i] == Initial(n))
    && (|closed| == 0 ==> open == [Initial(n)])
    && (|closed| > 0 ==> closed[0] == Initial(n))
  }

  /** The first `upTo` closed states have had all their children put on
      one of the lists. */
  predicate Expanded(open: seq<ScoredState>, closed: seq<ScoredState>, upTo: nat)
    requires upTo <= |closed|
  {
    forall i, j :: 0 <= i < upTo && 0 <= j < |closed[i].state| ==>
      Flip(closed[i].state, j) in MasksOf(open) + MasksOf(closed)
  }

  lemma ListsBound(open: seq<ScoredState>, closed: seq<ScoredState>, n: nat)
    requires ListsInvariant(open, closed, n)
    ensures |open| + |closed| <= Pow2(n)
  {
    DistinctBound(MasksOf(open) + MasksOf(closed), n);
  }

  /** An index-free statement of "no mask twice". */
  lemma {:induction false} NoDuplicatesCounts(ms: seq<Mask>)
    ensures NoDuplicates(ms) <==> forall m :: multiset(ms)[m] <= 1
    decreases |ms|
  {
    if |ms| > 0 {
      var init := ms[..|ms| - 1];
      var last := ms[|ms| - 1];
      assert ms == init + [last];
      assert multiset(ms) == multiset(init) + multiset{last};
      NoDuplicatesCounts(init);
      if NoDuplicates(ms) {
        assert NoDuplicates(init);
        assert last !in init;
      }
      if forall m :: multiset(ms)[m] <= 1 {
        assert forall m :: multiset(init)[m] <= 1 by {
          forall m ensures multiset(init)[m] <= 1 {
            assert multiset(init)[m] <= multiset(ms)[m];
          }
        }
        assert multiset(ms)[last] == multiset(init)[last] + 1;
        assert last !in init;
      }
    }
  }

  /** Moving the chosen entry from open to closed rearranges the masks
      without adding or losing any. */
  lemma CloseEntry(open: seq<ScoredState>, closed: seq<ScoredState>, k: nat)
    requires k < |open|
    ensures multiset(MasksOf(open[..k] + open[k + 1..]) + MasksOf(closed + [open[k]]))
         == multiset(MasksOf(open) + MasksOf(closed))
  {
    var a := MasksOf(open);
    assert MasksOf(open[..k] + open[k + 1..]) == a[..k] + a[k + 1..];
    MasksOfAppend(closed, open[k]);
    assert a == a[..k] + [a[k]] + a[k + 1..];
  }

  /** Closing keeps the set of masks on the lists, and so keeps them
      free of duplicates. */
  lemma CloseKeepsMasks(open: seq<ScoredState>, closed: seq<ScoredState>, k: nat)
    requires k < |open|
    requires NoDuplicates(MasksOf(open) + MasksOf(closed))
    ensures var after := MasksOf(open[..k] + open[k + 1..]) + MasksOf(closed + [open[k]]);
            && NoDuplicates(after)
            && (forall m :: m in after <==> m in MasksOf(open) + MasksOf(closed))
  {
    var before := MasksOf(open) + MasksOf(closed);
    var after := MasksOf(open[..k] + open[k + 1..]) + MasksOf(closed + [open[k]]);
    CloseEntry(open, closed, k);
    NoDuplicatesCounts(before);
    NoDuplicatesCounts(after);
    forall m ensures m in after <==> m in before {
      assert m in after <==> multiset(after)[m] > 0;
      assert m in before <==> multiset(before)[m] > 0;
    }
  }

  /** The per-entry parts of the invariant survive closing entry k. */
  lemma CloseKeepsEntries(open: seq<ScoredState>, closed: seq<ScoredState>, n: nat, k: nat)
    requires ListsInvariant(open, closed, n)
    requires k < |open|
    ensures var open' := open[..k] + open[k + 1..];
            var closed' := closed + [open[k]];
            && Sized(open', n) && Sized(closed', n)
            && (forall i :: 0 <= i < |open'| ==> open'[i].score.Fin? || open'[i] == Initial(n))
            && (forall i :: 0 <= i < |closed'| ==> closed'[i].score.Fin? || closed'[i] == Initial(n))
            && closed'[0] == Initial(n)
  {
    var open' := open[..k] + open[k + 1..];
    assert forall i :: 0 <= i < |open'| ==> open'[i] == (if i < k then open[i] else open[i + 1]);
  }

  /** The invariant survives closing the earliest maximum of open. */
  lemma CloseKeepsInvariant(open: seq<ScoredState>, closed: seq<ScoredState>, n: nat, k: nat)
    requires ListsInvariant(open, closed, n) && Expanded(open, closed, |closed|)
    requires k < |open|
    ensures var open' := open[..k] + open[k + 1..];
            var closed' := closed + [open[k]];
            && ListsInvariant(open', closed', n)
            && Expanded(open', closed', |closed|)
  {
    var open' := open[..k] + open[k + 1..];
    var closed' := closed + [open[k]];
    CloseKeepsMasks(open, closed, k);
    CloseKeepsEntries(open, closed, n, k);
    forall i, j | 0 <= i < |closed| && 0 <= j < |closed'[i].state|
      ensures Flip(closed'[i].state, j) in MasksOf(open') + MasksOf(closed')
    {
      assert closed'[i] == closed[i];
    }
  }

  /** The result of expanding one state: the longer open list, the
      counter, the session, the metric name to ask for next and the log of
      evaluations with the new children appended. */
  datatype Frontier = Frontier(open: seq<ScoredState>, counter: nat, session: Session, metric: string,
                               log: seq<ScoredState>)

  /** What expanding `parent` guarantees: open only grows, by the scored
      children of the parent that were on neither list, in field order,
      one counter tick per child; no mask is repeated; every child of the
      parent is now on a list; the children's commands, numbered by the
      counter, went through the ledger in that order, with at most one
      call dispatched per evaluation. */
  predicate Grows(cfg: FeatureConfig, parent: Mask, open: seq<ScoredState>, closed: seq<ScoredState>,
                  counter: nat, session: Session, f: Frontier)
    requires |parent| == |cfg.fieldNames|
  {
    var n := |cfg.fieldNames|;
    && |f.open| >= |open| && f.open[..|open|] == open
    && Sized(f.open, n)
    && NoDuplicates(MasksOf(f.open) + MasksOf(closed))
    && f.counter == counter + (|f.open| - |open|)
    && (forall t :: |open| <= t < |f.open| ==>
          f.open[t].score.Fin? && f.open[t].state in ExpandState(parent))
    && MasksOf(f.open[|open|..]) == FreshChildren(parent, MasksOf(open) + MasksOf(closed), |parent|)
    && (forall j :: 0 <= j < |parent| ==> Flip(parent, j) in MasksOf(f.open) + MasksOf(closed))
    && Run(session, Calls(cfg, counter, f.open[|open|..])) == Success(f.session)
    && |session.dispatched| <= |f.session.dispatched| <= |session.dispatched| + (f.counter - counter)
    && (f.session.ledger.resume ==> session.ledger.resume)
    && (Consistent(session.ledger) ==> Consistent(f.session.ledger))
  }

  lemma AppendFresh(open: seq<ScoredState>, closed: seq<ScoredState>, x: ScoredState)
    requires NoDuplicates(MasksOf(open) + MasksOf(closed))
    requires x.state !in MasksOf(open) && x.state !in MasksOf(closed)
    ensures NoDuplicates(MasksOf(open + [x]) + MasksOf(closed))
    ensures forall m :: m in MasksOf(open) + MasksOf(closed) ==> m in MasksOf(open + [x]) + MasksOf(closed)
  {
    MasksOfAppend(open, x);
    var before := MasksOf(open) + MasksOf(closed);
    var after := MasksOf(open + [x]) + MasksOf(closed);
    assert multiset(after) == multiset(before) + multiset{x.state};
    NoDuplicatesCounts(before);
    NoDuplicatesCounts(after);
    assert multiset(before)[x.state] == 0;
  }

  /** What the inner loop of `best_first_search` keeps about the lists
      after the first `done` children of `parent`: `f` extends open with
      the scored children so far that were on neither list, in field
      order. */
  ghost predicate PartialLists(parent: Mask, open: seq<ScoredState>, closed: seq<ScoredState>,
                               counter: nat, session: Session, f: Frontier, done: nat)
  {
    && |f.open| >= |open| && f.open[..|open|] == open
    && Sized(f.open, |parent|)
    && NoDuplicates(MasksOf(f.open) + MasksOf(closed))
    && f.counter == counter + (|f.open| - |open|)
    && (forall t :: |open| <= t < |f.open| ==> f.open[t].score.Fin?)
    && done <= |parent|
    && MasksOf(f.open[|open|..]) == FreshChildren(parent, MasksOf(open) + MasksOf(closed), done)
  }

  /** What the inner loop keeps about the log: it grows with open, and
      when `pinned` (the log was pinned to `request` on entry) it stays so. */
  ghost predicate PartialLog(cfg: FeatureConfig, penalty: real, open: seq<ScoredState>, metric: string,
                             log: seq<ScoredState>, request: string, pinned: bool, f: Frontier)
  {
    && |f.open| >= |open|
    && (FedBack(request, metric) ==> FedBack(request, f.metric))
    && f.log == log + f.open[|open|..]
    && (pinned ==> f.metric == NameAfter(cfg, request, f.log) && PinnedLog(cfg, penalty, request, f.log))
  }

  /** What the inner loop keeps about the ledger: the commands of the
      children appended so far, numbered on from `counter`, went through
      it in order. */
  ghost predicate PartialRun(cfg: FeatureConfig, open: seq<ScoredState>, counter: nat, session: Session,
                             f: Frontier) {
    |f.open| >= |open| && Run(session, Calls(cfg, counter, f.open[|open|..])) == Success(f.session)
  }

  /** Appending one more child whose command went through the ledger. */
  lemma RunAppendChild(cfg: FeatureConfig, open: seq<ScoredState>, counter: nat, session: Session,
                       f: Frontier, x: ScoredState, c: nat, s: Session, m: string, l: seq<ScoredState>)
    requires PartialRun(cfg, open, counter, session, f)
    requires c == counter + (|f.open| - |open|) + 1
    requires Step(f.session, cfg.commandFor(c, x.state)) == Success(s)
    ensures PartialRun(cfg, open, counter, session, Frontier(f.open + [x], c, s, m, l))
  {
    var added := f.open[|open|..];
    assert (f.open + [x])[|open|..] == added + [x];
    CallsAppend(cfg, counter, added, [x]);
    assert Calls(cfg, counter + |added|, [x]) == [cfg.commandFor(c, x.state)];
    RunAppend(session, Calls(cfg, counter, added), [cfg.commandFor(c, x.state)]);
  }

  /** The child at `done` is on a list after the earlier children were
      handled exactly when it was on one before: the children appended so
      far are other flips of the parent. */
  lemma SeenBefore(parent: Mask, open: seq<ScoredState>, closed: seq<ScoredState>, counter: nat,
                   session: Session, f: Frontier, done: nat)
    requires PartialLists(parent, open, closed, counter, session, f, done)
    requires done < |parent|
    ensures Flip(parent, done) in MasksOf(f.open) + MasksOf(closed)
            <==> Flip(parent, done) in MasksOf(open) + MasksOf(closed)
  {
    var child := Flip(parent, done);
    var added := MasksOf(f.open[|open|..]);
    FreshChildrenSound(parent, MasksOf(open) + MasksOf(closed), done);
    assert MasksOf(f.open) == MasksOf(open) + added by {
      assert f.open == open + f.open[|open|..];
    }
    forall t | 0 <= t < |added| ensures added[t] != child {
      var j :| 0 <= j < done && added[t] == Flip(parent, j);
      assert added[t][done] != child[done];
    }
  }

  /** A child already on a list is skipped. */
  lemma ListsSkip(parent: Mask, open: seq<ScoredState>, closed: seq<ScoredState>, counter: nat,
                  session: Session, f: Frontier, done: nat)
    requires PartialLists(parent, open, closed, counter, session, f, done)
    requires done < |parent| && Flip(parent, done) in MasksOf(f.open) + MasksOf(closed)
    ensures PartialLists(parent, open, closed, counter, session, f, done + 1)
  {
    SeenBefore(parent, open, closed, counter, session, f, done);
  }

  /** Appending a fresh scored child, with the session one step on. */
  lemma ListsAppend(parent: Mask, open: seq<ScoredState>, closed: seq<ScoredState>, counter: nat,
                    session: Session, f: Frontier, done: nat, x: ScoredState, s: Session,
                    m: string, l: seq<ScoredState>)
    requires PartialLists(parent, open, closed, counter, session, f, done)
    requires done < |parent| && x.state == Flip(parent, done) && x.score.Fin?
    requires x.state !in MasksOf(f.open) && x.state !in MasksOf(closed)
    ensures PartialLists(parent, open, closed, counter, session, Frontier(f.open + [x], f.counter + 1, s, m, l), done + 1)
  {
    assert x.state == ExpandState(parent)[done];
    SeenBefore(parent, open, closed, counter, session, f, done);
    AppendFresh(f.open, closed, x);
    MasksOfAppend(f.open, x);
    var o := f.open + [x];
    assert o[..|open|] == f.open[..|open|];
    assert o[|open|..] == f.open[|open|..] + [x];
    MasksOfAppend(f.open[|open|..], x);
  }

  /** Appending a child evaluated under the name fed back so far. */
  lemma LogAppend(cfg: FeatureConfig, penalty: real, open: seq<ScoredState>, metric: string,
                  log: seq<ScoredState>, request: string, pinned: bool, f: Frontier,
                  counter: nat, child: Mask, ev: Evaluated, c: nat, s: Session)
    requires PartialLog(cfg, penalty, open, metric, log, request, pinned, f)
    requires |child| == |cfg.fieldNames|
    requires EvaluateSubset(cfg, penalty, counter, child, f.session, f.metric) == Success(ev)
    ensures PartialLog(cfg, penalty, open, metric, log, request, pinned,
                       Frontier(f.open + [ev.scored], c, s, ev.metric, f.log + [ev.scored]))
  {
    if pinned {
      EvaluatedPinned(cfg, penalty, counter, child, f.session, request, f.log);
    }
    assert (f.open + [ev.scored])[|open|..] == f.open[|open|..] + [ev.scored];
  }

  /** The whole invariant of the inner loop, after the first `done`
      children of `parent`. */
  ghost predicate Partial(cfg: FeatureConfig, penalty: real, parent: Mask, open: seq<ScoredState>,
                          closed: seq<ScoredState>, counter: nat, session: Session, metric: string,
                          log: seq<ScoredState>, request: string, pinned: bool, f: Frontier, done: nat) {
    && PartialLists(parent, open, closed, counter, session, f, done)
    && PartialLog(cfg, penalty, open, metric, log, request, pinned, f)
    && PartialRun(cfg, open, counter, session, f)
  }

  /** Before the first child nothing is appended, logged or stepped. */
  lemma PartialStart(cfg: FeatureConfig, penalty: real, parent: Mask, open: seq<ScoredState>,
                     closed: seq<ScoredState>, counter: nat, session: Session, metric: string,
                     log: seq<ScoredState>, request: string)
    requires Sized(open, |parent|) && NoDuplicates(MasksOf(open) + MasksOf(closed))
    ensures var pinned := metric == NameAfter(cfg, request, log) && PinnedLog(cfg, penalty, request, log);
            Partial(cfg, penalty, parent, open, closed, counter, session, metric, log, request, pinned,
                    Frontier(open, counter, session, metric, log), 0)
  {
    assert open[|open|..] == [];
    assert MasksOf([]) == [];
  }

  /** A child on neither list, evaluated with the next counter value and
      the name fed back so far, is appended. */
  lemma ChildAppended(cfg: FeatureConfig, penalty: real, parent: Mask, open: seq<ScoredState>,
                      closed: seq<ScoredState>, counter: nat, session: Session, metric: string,
                      log: seq<ScoredState>, request: string, pinned: bool, f: Frontier, done: nat,
                      ev: Evaluated)
    requires |parent| == |cfg.fieldNames|
    requires Partial(cfg, penalty, parent, open, closed, counter, session, metric, log, request, pinned, f, done)
    requires done < |parent|
    requires Flip(parent, done) !in MasksOf(f.open) && Flip(parent, done) !in MasksOf(closed)
    requires EvaluateSubset(cfg, penalty, f.counter + 1, Flip(parent, done), f.session, f.metric) == Success(ev)
    ensures Partial(cfg, penalty, parent, open, closed, counter, session, metric, log, request, pinned,
                    Frontier(f.open + [ev.scored], f.counter + 1, ev.session, ev.metric, f.log + [ev.scored]),
                    done + 1)
  {
    var child, c := Flip(parent, done), f.counter + 1;
    ListsAppend(parent, open, closed, counter, session, f, done, ev.scored, ev.session,
                ev.metric, f.log + [ev.scored]);
    LogAppend(cfg, penalty, open, metric, log, request, pinned, f, c, child, ev, c, ev.session);
    RunAppendChild(cfg, open, counter, session, f, ev.scored, c, ev.session, ev.metric, f.log + [ev.scored]);
  }

  /** A child already on a list is skipped. */
  lemma ChildSkipped(cfg: FeatureConfig, penalty: real, parent: Mask, open: seq<ScoredState>,
                     closed: seq<ScoredState>, counter: nat, session: Session, metric: string,
                     log: seq<ScoredState>, request: string, pinned: bool, f: Frontier, done: nat)
    requires Partial(cfg, penalty, parent, open, closed, counter, session, metric, log, request, pinned, f, done)
    requires done < |parent| && Flip(parent, done) in MasksOf(f.open) + MasksOf(closed)
    ensures Partial(cfg, penalty, parent, open, closed, counter, session, metric, log, request, pinned, f, done + 1)
  {
    ListsSkip(parent, open, closed, counter, session, f, done);
  }

  /** Once every child has been visited, the lists have grown as `Grows`
      says and the log as `ExpandFrontier` promises. */
  lemma PartialDone(cfg: FeatureConfig, penalty: real, parent: Mask, open: seq<ScoredState>,
                    closed: seq<ScoredState>, counter: nat, session: Session, metric: string,
                    log: seq<ScoredState>, request: string, pinned: bool, f: Frontier)
    requires |parent| == |cfg.fieldNames|
    requires Partial(cfg, penalty, parent, open, closed, counter, session, metric, log, request, pinned, f, |parent|)
    ensures Grows(cfg, parent, open, closed, counter, session, f)
    ensures FedBack(request, metric) ==> FedBack(request, f.metric)
    ensures f.log == log + f.open[|open|..]
    ensures pinned ==> f.metric == NameAfter(cfg, request, f.log) && PinnedLog(cfg, penalty, request, f.log)
  {
    FreshAppended(parent, open, closed, f.open);
  }

  /** Once the fresh children of `parent` are appended, every appended
      entry is a child of `parent` and every child is on a list. */
  lemma FreshAppended(parent: Mask, open: seq<ScoredState>, closed: seq<ScoredState>, open': seq<ScoredState>)
    requires |open'| >= |open| && open'[..|open|] == open
    requires MasksOf(open'[|open|..]) == FreshChildren(parent, MasksOf(open) + MasksOf(closed), |parent|)
    ensures forall t :: |open| <= t < |open'| ==> open'[t].state in ExpandState(parent)
    ensures forall j :: 0 <= j < |parent| ==> Flip(parent, j) in MasksOf(open') + MasksOf(closed)
  {
    FreshAreChildren(parent, MasksOf(open) + MasksOf(closed), open'[|open|..]);
    FreshCoverChildren(parent, open, closed, open');
  }

  lemma FreshAreChildren(parent: Mask, seen: seq<Mask>, added: seq<ScoredState>)
    requires MasksOf(added) == FreshChildren(parent, seen, |parent|)
    ensures forall t :: 0 <= t < |added| ==> added[t].state in ExpandState(parent)
  {
    FreshChildrenSound(parent, seen, |parent|);
    forall t | 0 <= t < |added| ensures added[t].state in ExpandState(parent) {
      var j :| 0 <= j < |parent| && MasksOf(added)[t] == Flip(parent, j);
      FlipIsChild(parent, j);
    }
  }

  lemma FreshCoverChildren(parent: Mask, open: seq<ScoredState>, closed: seq<ScoredState>, open': seq<ScoredState>)
    requires |open'| >= |open| && open'[..|open|] == open
    requires MasksOf(open'[|open|..]) == FreshChildren(parent, MasksOf(open) + MasksOf(closed), |parent|)
    ensures forall j :: 0 <= j < |parent| ==> Flip(parent, j) in MasksOf(open') + MasksOf(closed)
  {
    FreshChildrenComplete(parent, MasksOf(open) + MasksOf(closed), |parent|);
    forall j | 0 <= j < |parent| ensures Flip(parent, j) in MasksOf(open') + MasksOf(closed) {
      StillListed(Flip(parent, j), open, closed, open');
    }
  }

  /** A mask on the lists before children were appended, or among the
      appended ones, is on the lists after. */
  lemma StillListed(c: Mask, open: seq<ScoredState>, closed: seq<ScoredState>, open': seq<ScoredState>)
    requires |open'| >= |open| && open'[..|open|] == open
    requires c in MasksOf(open) + MasksOf(closed) || c in MasksOf(open'[|open|..])
    ensures c in MasksOf(open') + MasksOf(closed)
  {
    if c in MasksOf(closed) {
    } else if c in MasksOf(open) {
      var t :| 0 <= t < |open| && MasksOf(open)[t] == c;
      assert open'[t] == open[t];
      assert MasksOf(open')[t] == c;
    } else {
      var added := MasksOf(open'[|open|..]);
      var t :| 0 <= t < |added| && added[t] == c;
      assert open'[|open| + t] == open'[|open|..][t];
      assert MasksOf(open')[|open| + t] == c;
    }
  }

  /** One pass of the inner loop of `best_first_search`: child `done` of
      `parent`, if it is on neither list, is counted, evaluated and
      appended to open. */
  method ExpandChild(cfg: FeatureConfig, penalty: real, parent: Mask, open: seq<ScoredState>,
                     closed: seq<ScoredState>, counter: nat, session: Session, metric: string,
                     log: seq<ScoredState>, ghost request: string, ghost pinned: bool, f: Frontier, done: nat)
    returns (r: Result<Frontier, SearchError>)
    requires |parent| == |cfg.fieldNames| && done < |parent|
    requires Partial(cfg, penalty, parent, open, closed, counter, session, metric, log, request, pinned, f, done)
    ensures r.Success? ==>
              Partial(cfg, penalty, parent, open, closed, counter, session, metric, log, request, pinned, r.value, done + 1)
    ensures Consistent(session.ledger) && r.Failure? ==> r.error.ScoreFailure?
  {
    var child := Flip(parent, done);
    if child in MasksOf(f.open) || child in MasksOf(closed) {
      ChildSkipped(cfg, penalty, parent, open, closed, counter, session, metric, log, request, pinned, f, done);
      return Success(f);
    }
    r := AppendChild(cfg, penalty, parent, open, closed, counter, session, metric, log, request, pinned, f, done);
  }

  /** A child on neither list is counted, evaluated with the new counter
      value and appended to open and to the log. */
  method AppendChild(cfg: FeatureConfig, penalty: real, parent: Mask, open: seq<ScoredState>,
                     closed: seq<ScoredState>, counter: nat, session: Session, metric: string,
                     log: seq<ScoredState>, ghost request: string, ghost pinned: bool, f: Frontier, done: nat)
    returns (r: Result<Frontier, SearchError>)
    requires |parent| == |cfg.fieldNames| && done < |parent|
    requires Flip(parent, done) !in MasksOf(f.open) && Flip(parent, done) !in MasksOf(closed)
    requires Partial(cfg, penalty, parent, open, closed, counter, session, metric, log, request, pinned, f, done)
    ensures r.Success? ==> r.value.counter == f.counter + 1 && |r.value.open| == |f.open| + 1 && r.value.open[..|f.open|] == f.open
    ensures r.Success? ==>
              Partial(cfg, penalty, parent, open, closed, counter, session, metric, log, request, pinned, r.value, done + 1)
    ensures Consistent(session.ledger) && r.Failure? ==> r.error.ScoreFailure?
  {
    var c := f.counter + 1;
    var ev := EvaluateSubset(cfg, penalty, c, Flip(parent, done), f.session, f.metric);
    if ev.Failure? {
      return Failure(ev.error);
    }
    ChildAppended(cfg, penalty, parent, open, closed, counter, session, metric, log, request, pinned, f, done, ev.value);
    r := Success(Frontier(f.open + [ev.value.scored], c, ev.value.session, ev.value.metric, f.log + [ev.value.scored]));
  }

  /** The inner loop of `best_first_search`: each child of `parent` not
      already on a list is counted, evaluated and appended to open. */
  method ExpandFrontier(cfg: FeatureConfig, penalty: real, parent: Mask,
                        open: seq<ScoredState>, closed: seq<ScoredState>,
                        counter: nat, session: Session, metric: string, log: seq<ScoredState>,
                        ghost request: string)
    returns (r: Result<Frontier, SearchError>)
    requires |parent| == |cfg.fieldNames|
    requires Sized(open, |parent|) && Sized(closed, |parent|)
    requires NoDuplicates(MasksOf(open) + MasksOf(closed))
    ensures r.Success? ==> Grows(cfg, parent, open, closed, counter, session, r.value)
    ensures r.Success? && FedBack(request, metric) ==> FedBack(request, r.value.metric)
    ensures r.Success? ==> r.value.log == log + r.value.open[|open|..]
    ensures r.Success? && metric == NameAfter(cfg, request, log) && PinnedLog(cfg, penalty, request, log) ==>
              r.value.metric == NameAfter(cfg, request, r.value.log) && PinnedLog(cfg, penalty, request, r.value.log)
    ensures Consistent(session.ledger) && r.Failure? ==> r.error.ScoreFailure?
  {
    ghost var pinned := metric == NameAfter(cfg, request, log) && PinnedLog(cfg, penalty, request, log);
    var f := Frontier(open, counter, session, metric, log);
    PartialStart(cfg, penalty, parent, open, closed, counter, session, metric, log, request);
    for i := 0 to |parent|
      invariant Partial(cfg, penalty, parent, open, closed, counter, session, metric, log, request, pinned, f, i)
    {
      var next := ExpandChild(cfg, penalty, parent, open, closed, counter, session, metric, log, request,
                              pinned, f, i);
      if next.Failure? {
        return Failure(next.error);
      }
      f := next.value;
    }
    PartialDone(cfg, penalty, parent, open, closed, counter, session, metric, log, request, pinned, f);
    r := Success(f);
  }

  /** Entries of open are pairwise distinct when no mask is repeated. */
  lemma OpenDistinct(open: seq<ScoredState>, closed: seq<ScoredState>)
    requires NoDuplicates(MasksOf(open) + MasksOf(closed))
    ensures forall i, j :: 0 <= i < j < |open| ==> open[i] != open[j]
  {
    var ms := MasksOf(open) + MasksOf(closed);
    forall i, j | 0 <= i < j < |open| ensures open[i] != open[j] {
      assert ms[i] == open[i].state && ms[j] == open[j].state;
    }
  }

  /** Expanding the state just closed re-establishes the invariant, with
      every closed state now expanded. */
  lemma ExpandKeepsInvariant(cfg: FeatureConfig, open: seq<ScoredState>, closed: seq<ScoredState>,
                             counter: nat, session: Session, f: Frontier)
    requires |closed| > 0 && |closed[|closed| - 1].state| == |cfg.fieldNames|
    requires ListsInvariant(open, closed, |cfg.fieldNames|)
    requires Expanded(open, closed, |closed| - 1)
    requires Grows(cfg, closed[|closed| - 1].state, open, closed, counter, session, f)
    ensures ListsInvariant(f.open, closed, |cfg.fieldNames|)
    ensures Expanded(f.open, closed, |closed|)
  {
    var n := |cfg.fieldNames|;
    forall i | 0 <= i < |f.open| ensures f.open[i].score.Fin? || f.open[i] == Initial(n) {
      if i < |open| {
        assert f.open[i] == f.open[..|open|][i];
      }
    }
    forall x | x in MasksOf(open) ensures x in MasksOf(f.open) {
      var i :| 0 <= i < |open| && MasksOf(open)[i] == x;
      assert f.open[i] == f.open[..|open|][i];
    }
  }

  /** A scored best state is never the initial mask: that mask stays on
      the lists with its minus-infinity score. */
  lemma ScoredBestIsNotInitial(closed: seq<ScoredState>, n: nat, best: ScoredState)
    requires |closed| > 0 && closed[0] == Initial(n)
    requires NoDuplicates(MasksOf(closed))
    requires best in closed && best.score.Fin?
    ensures best.state != AllFalse(n)
  {
    var i :| 0 <= i < |closed| && closed[i] == best;
    assert MasksOf(closed)[0] == AllFalse(n) && MasksOf(closed)[i] == best.state;
  }

  lemma NoDuplicatesRight(a: seq<Mask>, b: seq<Mask>)
    requires NoDuplicates(a + b)
    ensures NoDuplicates(b)
  {
    forall i, j | 0 <= i < j < |b| ensures b[i] != b[j] {
      assert (a + b)[|a| + i] == b[i] && (a + b)[|a| + j] == b[j];
    }
  }

  /** With open empty, the closed masks hold the empty mask and are closed
      under toggling any field, so they are all 2^n masks. */
  lemma ExhaustedMeansEverything(closed: seq<ScoredState>, n: nat)
    requires ListsInvariant([], closed, n) && Expanded([], closed, |closed|)
    ensures |closed| == Pow2(n)
  {
    var ms := MasksOf(closed);
    assert MasksOf([]) + ms == ms;
    assert ms[0] == AllFalse(n);
    FlipClosed(closed, n);
    ClosedUnderFlipIsEverything(ms, n);
  }

  lemma FlipClosed(closed: seq<ScoredState>, n: nat)
    requires Sized(closed, n)
    requires forall i, j :: 0 <= i < |closed| && 0 <= j < |closed[i].state| ==>
               Flip(closed[i].state, j) in MasksOf([]) + MasksOf(closed)
    ensures forall c, i :: c in MasksOf(closed) && |c| == n && 0 <= i < n ==> Flip(c, i) in MasksOf(closed)
  {
    var ms := MasksOf(closed);
    assert MasksOf([]) + ms == ms;
    forall c, i | c in ms && |c| == n && 0 <= i < n ensures Flip(c, i) in ms {
      var t :| 0 <= t < |closed| && ms[t] == c;
      assert Flip(closed[t].state, i) in ms;
    }
  }

  /** Each row records the closed entry of its step. */
  predicate RowsMatch(rows: seq<Row<Mask>>, closed: seq<ScoredState>) {
    && |rows| == |closed|
    && forall i :: 0 <= i < |rows| ==>
         rows[i].key == closed[i].state && rows[i].score == closed[i].score
         && rows[i].metricValue == closed[i].metricValue
  }

  /** Recording the row of a step also records its closed entry. */
  lemma RecordRow(rows: seq<Row<Mask>>, closed: seq<ScoredState>, best: ExtReal, entry: ScoredState,
                  staleCount: nat, stale: int)
    requires RowsMatch(rows, closed)
    requires Chained(rows) && best == BestAfter(rows)
    requires staleCount == StaleRun(rows) && staleCount < stale && RanBelow(rows, stale)
    ensures var rows' := rows + [Row(|rows| + 1, entry.state, entry.score, entry.metricValue, best)];
            && RowsMatch(rows', closed + [entry])
            && Chained(rows') && BestAfter(rows') == NextBest(best, entry.score)
            && StaleRun(rows') == (if Improves(entry.score, best) then 0 else staleCount + 1)
            && RanBelow(rows', stale)
  {
    AppendRow(rows, entry.state, entry.score, entry.metricValue, stale);
  }

  /** Entry `e` is the earliest maximum of `xs`: what `find_max_state`
      picks. */
  ghost predicate ClosedMax(xs: seq<ScoredState>, e: ScoredState) {
    exists k :: EarliestMax(xs, k) && xs[k] == e
  }

  /** `after` is the open list that closing `picked` out of `before` and
      expanding it leaves, with `closed` the closed list after the close:
      `picked` is removed, and its children that are on neither list are
      appended in field order. */
  predicate Follows(before: seq<ScoredState>, picked: ScoredState, after: seq<ScoredState>,
                    closed: seq<ScoredState>) {
    && picked in before
    && |after| >= |before| - 1
    && after[..|before| - 1] == RemoveFirst(before, picked)
    && MasksOf(after[|before| - 1..])
       == FreshChildren(picked.state, MasksOf(RemoveFirst(before, picked)) + MasksOf(closed), |picked.state|)
  }

  /** Step i closed the earliest maximum of `history[i]`, and the open list
      of step i + 1 follows from that close. */
  ghost predicate ClosedInOrder(history: seq<seq<ScoredState>>, closed: seq<ScoredState>) {
    && |history| == |closed|
    && (forall i :: 0 <= i < |closed| ==> ClosedMax(history[i], closed[i]))
    && (forall i :: 0 <= i < |history| - 1 ==> Follows(history[i], closed[i], history[i + 1], closed[..i + 1]))
  }

  /** Every entry other than the initial one is a child of a closed entry. */
  ghost predicate Derived(n: nat, open: seq<ScoredState>, closed: seq<ScoredState>) {
    forall e :: (e in open || e in closed) && e != Initial(n) ==>
      exists j :: 0 <= j < |closed| && e.state in ExpandState(closed[j].state)
  }

  /** The search is best-first: `history[i]` is the open list step i
      closed from, starting from the initial state alone; step i closed its
      earliest maximum; each open list follows from the one before by that
      close and the expansion of the closed entry; and every entry other
      than the initial one is a child of a closed entry. */
  ghost predicate BestFirstOrder(n: nat, open: seq<ScoredState>, closed: seq<ScoredState>,
                                 history: seq<seq<ScoredState>>) {
    && ClosedInOrder(history, closed)
    && (if |history| == 0 then open == [Initial(n)]
        else history[0] == [Initial(n)] && Follows(history[|history| - 1], closed[|closed| - 1], open, closed))
    && Derived(n, open, closed)
  }

  /** Between closing and expanding: the record is best-first up to the
      step just taken, which removed its entry from the open list and has
      not appended anything yet. */
  ghost predicate ClosingOrder(n: nat, open: seq<ScoredState>, closed: seq<ScoredState>,
                               history: seq<seq<ScoredState>>) {
    && ClosedInOrder(history, closed)
    && |history| > 0 && history[0] == [Initial(n)]
    && closed[|closed| - 1] in history[|history| - 1]
    && open == RemoveFirst(history[|history| - 1], closed[|closed| - 1])
    && Derived(n, open, closed)
  }

  /** A step that closes the earliest maximum of the current open list
      extends the record of steps. */
  lemma ClosedInOrderSnoc(history: seq<seq<ScoredState>>, closed: seq<ScoredState>,
                          open: seq<ScoredState>, k: nat)
    requires ClosedInOrder(history, closed) && EarliestMax(open, k)
    requires |history| > 0 ==> Follows(history[|history| - 1], closed[|closed| - 1], open, closed)
    ensures ClosedInOrder(history + [open], closed + [open[k]])
  {
    var history', closed' := history + [open], closed + [open[k]];
    forall i | 0 <= i < |closed'| ensures ClosedMax(history'[i], closed'[i]) {
      if i < |closed| {
        assert history'[i] == history[i] && closed'[i] == closed[i];
      } else {
        assert EarliestMax(history'[i], k) && history'[i][k] == closed'[i];
      }
    }
    forall i | 0 <= i < |history'| - 1 ensures Follows(history'[i], closed'[i], history'[i + 1], closed'[..i + 1]) {
      assert history'[i] == history[i] && closed'[i] == closed[i];
      assert closed'[..i + 1] == closed[..i + 1];
      if i == |history| - 1 {
        assert closed[..i + 1] == closed;
      } else {
        assert history'[i + 1] == history[i + 1];
      }
    }
  }

  lemma CloseDerived(n: nat, open: seq<ScoredState>, closed: seq<ScoredState>, entry: ScoredState)
    requires Derived(n, open, closed) && entry in open
    ensures Derived(n, RemoveFirst(open, entry), closed + [entry])
  {
    var open', closed' := RemoveFirst(open, entry), closed + [entry];
    forall e | (e in open' || e in closed') && e != Initial(n)
      ensures exists j :: 0 <= j < |closed'| && e.state in ExpandState(closed'[j].state)
    {
      if e in open' {
        assert e in multiset(open');
        assert e in multiset(open') + multiset{entry};
      }
      var j :| 0 <= j < |closed| && e.state in ExpandState(closed[j].state);
      assert closed'[j] == closed[j];
    }
  }

  /** Appending the fresh children of the entry just closed, in field
      order, completes `Follows`. */
  lemma FollowsExtend(before: seq<ScoredState>, picked: ScoredState, open: seq<ScoredState>,
                      closed: seq<ScoredState>, open': seq<ScoredState>)
    requires picked in before && open == RemoveFirst(before, picked)
    requires |open'| >= |open| && open'[..|open|] == open
    requires MasksOf(open'[|open|..]) == FreshChildren(picked.state, MasksOf(open) + MasksOf(closed), |picked.state|)
    ensures Follows(before, picked, open', closed)
  {
  }

  /** Appending children of a closed entry keeps `Derived`. */
  lemma DerivedExtend(n: nat, open: seq<ScoredState>, closed: seq<ScoredState>, open': seq<ScoredState>, j: nat)
    requires Derived(n, open, closed) && j < |closed|
    requires |open'| >= |open| && open'[..|open|] == open
    requires forall t :: |open| <= t < |open'| ==> open'[t].state in ExpandState(closed[j].state)
    ensures Derived(n, open', closed)
  {
  }

  /** What `best_first_search` ends with: the best entry and its field
      names, both lists, the progress rows, the count of steps without
      improvement, the "Evaluated x/y feature subsets" figures, the session
      and the metric name last asked for; `history` and `log` are the
      bookkeeping of `SearchState`. */
  datatype FeatureReport = FeatureReport(
    best: ScoredState, bestFields: seq<string>,
    open: seq<ScoredState>, closed: seq<ScoredState>,
    rows: seq<Row<Mask>>, staleCount: nat,
    evaluated: int, subsets: nat,
    session: Session, metric: string,
    history: seq<seq<ScoredState>>, log: seq<ScoredState>)

  /** What a completed search promises about its report. */
  ghost predicate Reported(cfg: FeatureConfig, stale: int, penalty: real, metric: string, session: Session,
                     rep: FeatureReport) {
    var n := |cfg.fieldNames|;
    // the lists: right-sized masks, none twice, so at most 2^n of them
    && ListsInvariant(rep.open, rep.closed, n)
    && |rep.open| + |rep.closed| <= Pow2(n)
    && rep.evaluated == |rep.open| + |rep.closed| - 1
    && rep.subsets == Pow2(n) - 1
    // the rows: one per closed entry, best scores chained by the margin rule
    && RowsMatch(rep.rows, rep.closed)
    && Chained(rep.rows) && rep.best.score == BestAfter(rep.rows)
    && rep.staleCount == StaleRun(rep.rows)
    // each step ran while the count was below staleness; the loop stopped
    // on staleness or an empty open list
    && RanBelow(rep.rows, stale)
    && (rep.staleCount >= stale || rep.open == [])
    // best-first: each step closed the earliest maximum of the open list
    && BestFirstOrder(n, rep.open, rep.closed, rep.history)
    // every evaluation is logged in order, with the oracle's k-fold score
    // under the name the evaluations before it fed back
    && LogMatches(cfg, penalty, metric, rep.open, rep.closed, rep.log, rep.metric)
    && |rep.log| == rep.evaluated
    // the evaluations' commands, numbered 1, 2, ... by the counter, went
    // through the ledger in the same order
    && Run(session, Calls(cfg, 0, rep.log)) == Success(rep.session)
    // the best: the initial state until some step improves, then the
    // entry closed by the last improving step, never the initial state
    && (rep.best.score.NegInf? ==> rep.best == Initial(n))
    && (rep.best.score.NegInf? ==>
          forall j :: 0 <= j < |rep.rows| ==> !Improves(rep.rows[j].score, rep.rows[j].bestScore))
    && (rep.best.score.Fin? ==>
          exists i :: 0 <= i < |rep.closed| && LastImprovement(rep.rows, i) && rep.best == rep.closed[i])
    && (rep.best.score.Fin? ==> rep.best.state != AllFalse(n))
    && |rep.best.state| == n
    && rep.bestFields == Selected(rep.best.state, cfg.fieldNames)
    // an exhausted search has seen every subset; a staleness of 2^n or
    // more always exhausts it
    && (rep.open == [] ==> |rep.closed| == Pow2(n))
    && (stale >= Pow2(n) ==> rep.open == [])
    // at most one dispatched call per evaluation; resuming is one-way
    && |session.dispatched| <= |rep.session.dispatched| <= |session.dispatched| + rep.evaluated
    && (rep.session.ledger.resume ==> session.ledger.resume)
    && FedBack(metric, rep.metric)
  }

  /** The loop state of `best_first_search`. `bestIndex`, `history` and
      `log` have no counterpart in the source: they record the step at
      which `best` was adopted, the open list each step closed from, and
      the evaluations in the order they ran, so that the report can state
      them. */
  datatype SearchState = SearchState(
    open: seq<ScoredState>, closed: seq<ScoredState>,
    best: ScoredState, bestIndex: nat, staleCount: nat, counter: nat,
    rows: seq<Row<Mask>>, session: Session, metric: string,
    history: seq<seq<ScoredState>>, log: seq<ScoredState>)

  /** The state before the first step. */
  function Start(n: nat, metric: string, session: Session): SearchState {
    SearchState([Initial(n)], [], Initial(n), 0, 0, 0, [], session, metric, [], [])
  }

  /** What holds at every loop head (with `upTo` the number of closed
      states already expanded, one short between closing and expanding). */
  predicate SearchInvariant(n: nat, stale: int, metric: string, session: Session, st: SearchState, upTo: nat) {
    && upTo <= |st.closed|
    && ListsInvariant(st.open, st.closed, n)
    && Expanded(st.open, st.closed, upTo)
    && |st.open| + |st.closed| <= Pow2(n)
    && st.counter == |st.open| + |st.closed| - 1
    && RowsMatch(st.rows, st.closed)
    && Chained(st.rows) && st.best.score == BestAfter(st.rows)
    && st.staleCount == StaleRun(st.rows)
    && RanBelow(st.rows, stale)
    && (st.best.score.NegInf? ==> st.best == Initial(n))
    && BestFrom(st.rows, st.best.score, st.bestIndex)
    && (st.best.score.Fin? ==> st.bestIndex < |st.closed| && st.best == st.closed[st.bestIndex])
    && |st.best.state| == n
    && |session.dispatched| <= |st.session.dispatched| <= |session.dispatched| + st.counter
    && (st.session.ledger.resume ==> session.ledger.resume)
    && (Consistent(session.ledger) ==> Consistent(st.session.ledger))
    && FedBack(metric, st.metric)
  }

  /** The parts of the loop invariant about the order of the steps and the
      log of evaluations. */
  ghost predicate SearchOrder(n: nat, st: SearchState) {
    BestFirstOrder(n, st.open, st.closed, st.history)
  }

  predicate SearchPinned(cfg: FeatureConfig, penalty: real, metric: string, st: SearchState) {
    LogMatches(cfg, penalty, metric, st.open, st.closed, st.log, st.metric) && |st.log| == st.counter
  }

  /** The commands of the logged evaluations, numbered 1, 2, ... by the
      counter, went through the ledger in order, from the session the
      search started with. */
  predicate SearchLedger(cfg: FeatureConfig, session: Session, st: SearchState) {
    Run(session, Calls(cfg, 0, st.log)) == Success(st.session)
  }

  /** The whole loop invariant of the search. */
  ghost predicate Ready(cfg: FeatureConfig, stale: int, pen: real, metric: string, session: Session,
                        st: SearchState) {
    && SearchInvariant(|cfg.fieldNames|, stale, metric, session, st, |st.closed|)
    && SearchOrder(|cfg.fieldNames|, st)
    && SearchPinned(cfg, pen, metric, st)
    && SearchLedger(cfg, session, st)
  }

  lemma StartInvariant(n: nat, stale: int, metric: string, session: Session)
    ensures SearchInvariant(n, stale, metric, session, Start(n, metric, session), 0)
  {
    assert MasksOf([Initial(n)]) + MasksOf([]) == [AllFalse(n)];
  }

  /** The first half of a step: write the row, move the chosen entry from
      open to closed, and judge it against the best. */
  function CloseBest(st: SearchState, entry: ScoredState): SearchState
    requires entry in st.open
  {
    var improved := Improves(entry.score, st.best.score);
    st.(open := RemoveFirst(st.open, entry),
        closed := st.closed + [entry],
        rows := st.rows + [Row(|st.rows| + 1, entry.state, entry.score, entry.metricValue, st.best.score)],
        best := if improved then entry else st.best,
        bestIndex := if improved then |st.rows| else st.bestIndex,
        staleCount := if improved then 0 else st.staleCount + 1,
        history := st.history + [st.open])
  }

  /** Closing the earliest maximum keeps the invariant, with the state just
      closed not yet expanded. */
  lemma CloseStep(n: nat, stale: int, metric: string, session: Session, st: SearchState, k: nat)
    requires SearchInvariant(n, stale, metric, session, st, |st.closed|)
    requires st.staleCount < stale && EarliestMax(st.open, k)
    ensures SearchInvariant(n, stale, metric, session, CloseBest(st, st.open[k]), |st.closed|)
  {
    var entry := st.open[k];
    OpenDistinct(st.open, st.closed);
    RemoveFirstAt(st.open, k);
    CloseKeepsInvariant(st.open, st.closed, n, k);
    RecordRow(st.rows, st.closed, st.best.score, entry, st.staleCount, stale);
    BestFromSnoc(st.rows, st.best.score, st.bestIndex,
                 Row(|st.rows| + 1, entry.state, entry.score, entry.metricValue, st.best.score));
  }

  /** Closing moves an entry between the lists, so the log still holds
      exactly the scored entries. */
  lemma ClosePinned(cfg: FeatureConfig, penalty: real, metric: string, st: SearchState, entry: ScoredState)
    requires SearchPinned(cfg, penalty, metric, st) && entry in st.open
    ensures SearchPinned(cfg, penalty, metric, CloseBest(st, entry))
  {
    var open' := RemoveFirst(st.open, entry);
    forall e | e in open' ensures e in st.open {
      assert e in multiset(open');
      assert e in multiset(open') + multiset{entry};
    }
    forall e | e in st.open && e != entry ensures e in open' {
      assert e in multiset(st.open);
    }
  }

  /** Closing the earliest maximum records the open list it was taken from
      and keeps the search best-first up to that step. */
  lemma CloseOrder(n: nat, st: SearchState, k: nat)
    requires SearchOrder(n, st) && EarliestMax(st.open, k)
    ensures var c := CloseBest(st, st.open[k]); ClosingOrder(n, c.open, c.closed, c.history)
  {
    ClosedInOrderSnoc(st.history, st.closed, st.open, k);
    CloseDerived(n, st.open, st.closed, st.open[k]);
  }

  /** The second half of a step: take over what expanding produced. */
  function AfterExpand(st: SearchState, f: Frontier): SearchState {
    st.(open := f.open, counter := f.counter, session := f.session, metric := f.metric, log := f.log)
  }

  /** Expanding the state just closed restores the invariant. */
  lemma ExpandStep(cfg: FeatureConfig, stale: int, metric: string, session: Session, st: SearchState, f: Frontier)
    requires |st.closed| > 0
    requires SearchInvariant(|cfg.fieldNames|, stale, metric, session, st, |st.closed| - 1)
    requires Grows(cfg, st.closed[|st.closed| - 1].state, st.open, st.closed, st.counter, st.session, f)
    requires FedBack(metric, f.metric)
    ensures SearchInvariant(|cfg.fieldNames|, stale, metric, session, AfterExpand(st, f), |st.closed|)
  {
    ExpandKeepsInvariant(cfg, st.open, st.closed, st.counter, st.session, f);
    ListsBound(f.open, st.closed, |cfg.fieldNames|);
  }

  /** Appending entries to open and the same entries to the log keeps
      `LogsLists`. */
  lemma LogsListsExtend(open: seq<ScoredState>, closed: seq<ScoredState>, log: seq<ScoredState>,
                        open': seq<ScoredState>)
    requires LogsLists(open, closed, log)
    requires |open'| >= |open| && open'[..|open|] == open
    ensures LogsLists(open', closed, log + open'[|open|..])
  {
  }

  /** Expanding logs exactly the children it appends to open. */
  lemma ExpandPinned(cfg: FeatureConfig, penalty: real, metric: string, st: SearchState, f: Frontier)
    requires SearchPinned(cfg, penalty, metric, st)
    requires |f.open| >= |st.open| && f.open[..|st.open|] == st.open
    requires f.counter == st.counter + (|f.open| - |st.open|)
    requires f.log == st.log + f.open[|st.open|..]
    requires f.metric == NameAfter(cfg, metric, f.log) && PinnedLog(cfg, penalty, metric, f.log)
    ensures SearchPinned(cfg, penalty, metric, AfterExpand(st, f))
  {
    LogsListsExtend(st.open, st.closed, st.log, f.open);
  }

  /** Appending the fresh children of the entry just closed, in field
      order, turns the record between closing and expanding into a
      best-first record. */
  lemma OrderAfterExpand(n: nat, open: seq<ScoredState>, closed: seq<ScoredState>,
                         history: seq<seq<ScoredState>>, open': seq<ScoredState>)
    requires ClosingOrder(n, open, closed, history)
    requires var parent := closed[|closed| - 1].state;
             && |open'| >= |open| && open'[..|open|] == open
             && (forall t :: |open| <= t < |open'| ==> open'[t].state in ExpandState(parent))
             && MasksOf(open'[|open|..]) == FreshChildren(parent, MasksOf(open) + MasksOf(closed), |parent|)
    ensures BestFirstOrder(n, open', closed, history)
  {
    var last := |closed| - 1;
    FollowsExtend(history[last], closed[last], open, closed, open');
    DerivedExtend(n, open, closed, open', last);
  }

  /** Expanding the state just closed appends its fresh children in field
      order, so the search is best-first again. */
  lemma ExpandOrder(cfg: FeatureConfig, st: SearchState, f: Frontier)
    requires |st.closed| > 0 && |st.closed[|st.closed| - 1].state| == |cfg.fieldNames|
    requires ClosingOrder(|cfg.fieldNames|, st.open, st.closed, st.history)
    requires var parent := st.closed[|st.closed| - 1].state;
             && |f.open| >= |st.open| && f.open[..|st.open|] == st.open
             && (forall t :: |st.open| <= t < |f.open| ==> f.open[t].state in ExpandState(parent))
             && MasksOf(f.open[|st.open|..]) == FreshChildren(parent, MasksOf(st.open) + MasksOf(st.closed), |parent|)
    ensures SearchOrder(|cfg.fieldNames|, AfterExpand(st, f))
  {
    OrderAfterExpand(|cfg.fieldNames|, st.open, st.closed, st.history, f.open);
  }

  /** Expanding steps the children's commands through the ledger after the
      earlier ones, numbered on from the counter. */
  lemma ExpandLedger(cfg: FeatureConfig, session: Session, st: SearchState, f: Frontier)
    requires SearchLedger(cfg, session, st) && |st.log| == st.counter
    requires |f.open| >= |st.open| && f.log == st.log + f.open[|st.open|..]
    requires Run(st.session, Calls(cfg, st.counter, f.open[|st.open|..])) == Success(f.session)
    ensures SearchLedger(cfg, session, AfterExpand(st, f))
  {
    CallsAppend(cfg, 0, st.log, f.open[|st.open|..]);
    RunAppend(session, Calls(cfg, 0, st.log), Calls(cfg, st.counter, f.open[|st.open|..]));
  }

  /** The report built from the final state. */
  function Report(cfg: FeatureConfig, st: SearchState): FeatureReport
    requires |st.best.state| == |cfg.fieldNames|
  {
    FeatureReport(st.best, Selected(st.best.state, cfg.fieldNames), st.open, st.closed, st.rows,
                  st.staleCount, |st.open| + |st.closed| - 1, Pow2(|cfg.fieldNames|) - 1,
                  st.session, st.metric, st.history, st.log)
  }

  /** Once the loop condition fails, the report says what it promises. */
  lemma FinishSearch(cfg: FeatureConfig, stale: int, penalty: real, metric: string, session: Session,
                     st: SearchState)
    requires Ready(cfg, stale, penalty, metric, session, st)
    requires st.staleCount >= stale || |st.open| == 0
    ensures Reported(cfg, stale, penalty, metric, session, Report(cfg, st))
  {
    var n := |cfg.fieldNames|;
    if |st.closed| > 0 && st.best.score.Fin? {
      assert LastImprovement(st.rows, st.bestIndex) && st.best == st.closed[st.bestIndex];
      NoDuplicatesRight(MasksOf(st.open), MasksOf(st.closed));
      ScoredBestIsNotInitial(st.closed, n, st.best);
    }
    if st.open == [] {
      ExhaustedMeansEverything(st.closed, n);
    }
  }

  /** The first half of a step keeps all three parts of the loop
      invariant. */
  lemma ClosePhase(cfg: FeatureConfig, stale: int, pen: real, metric: string, session: Session,
                   st: SearchState, k: nat)
    requires Ready(cfg, stale, pen, metric, session, st)
    requires st.staleCount < stale && EarliestMax(st.open, k)
    ensures SearchInvariant(|cfg.fieldNames|, stale, metric, session, CloseBest(st, st.open[k]), |st.closed|)
    ensures var c := CloseBest(st, st.open[k]); ClosingOrder(|cfg.fieldNames|, c.open, c.closed, c.history)
    ensures SearchPinned(cfg, pen, metric, CloseBest(st, st.open[k]))
    ensures SearchLedger(cfg, session, CloseBest(st, st.open[k]))
  {
    CloseStep(|cfg.fieldNames|, stale, metric, session, st, k);
    CloseOrder(|cfg.fieldNames|, st, k);
    ClosePinned(cfg, pen, metric, st, st.open[k]);
  }

  /** The second half of a step, expanding the state just closed, restores
      all three parts of the loop invariant. */
  lemma ExpandPhase(cfg: FeatureConfig, stale: int, pen: real, metric: string, session: Session,
                    st: SearchState, f: Frontier)
    requires |st.closed| > 0 && |st.closed[|st.closed| - 1].state| == |cfg.fieldNames|
    requires SearchInvariant(|cfg.fieldNames|, stale, metric, session, st, |st.closed| - 1)
    requires ClosingOrder(|cfg.fieldNames|, st.open, st.closed, st.history)
    requires SearchPinned(cfg, pen, metric, st) && SearchLedger(cfg, session, st)
    requires Grows(cfg, st.closed[|st.closed| - 1].state, st.open, st.closed, st.counter, st.session, f)
    requires FedBack(metric, f.metric)
    requires f.log == st.log + f.open[|st.open|..]
    requires f.metric == NameAfter(cfg, metric, f.log) && PinnedLog(cfg, pen, metric, f.log)
    ensures Ready(cfg, stale, pen, metric, session, AfterExpand(st, f))
  {
    ExpandStep(cfg, stale, metric, session, st, f);
    ExpandOrder(cfg, st, f);
    ExpandPinned(cfg, pen, metric, st, f);
    ExpandLedger(cfg, session, st, f);
  }

  /** What expanding needs of the state just closed. */
  lemma ClosePrepares(cfg: FeatureConfig, stale: int, pen: real, metric: string, session: Session,
                      st: SearchState, k: nat)
    requires Ready(cfg, stale, pen, metric, session, st)
    requires st.staleCount < stale && EarliestMax(st.open, k)
    ensures var c := CloseBest(st, st.open[k]);
            && |st.open[k].state| == |cfg.fieldNames|
            && Sized(c.open, |cfg.fieldNames|) && Sized(c.closed, |cfg.fieldNames|)
            && NoDuplicates(MasksOf(c.open) + MasksOf(c.closed))
            && c.metric == NameAfter(cfg, metric, c.log) && PinnedLog(cfg, pen, metric, c.log)
  {
    ClosePhase(cfg, stale, pen, metric, session, st, k);
  }

  /** A whole step, closing the earliest maximum and expanding it as
      `ExpandFrontier` promises, keeps the loop invariant. */
  lemma StepPhase(cfg: FeatureConfig, stale: int, pen: real, metric: string, session: Session,
                  st: SearchState, k: nat, f: Frontier)
    requires Ready(cfg, stale, pen, metric, session, st)
    requires st.staleCount < stale && EarliestMax(st.open, k)
    requires |st.open[k].state| == |cfg.fieldNames|
    requires var c := CloseBest(st, st.open[k]);
             && Grows(cfg, st.open[k].state, c.open, c.closed, c.counter, c.session, f)
             && (FedBack(metric, c.metric) ==> FedBack(metric, f.metric))
             && f.log == c.log + f.open[|c.open|..]
             && (c.metric == NameAfter(cfg, metric, c.log) && PinnedLog(cfg, pen, metric, c.log) ==>
                   f.metric == NameAfter(cfg, metric, f.log) && PinnedLog(cfg, pen, metric, f.log))
    ensures Ready(cfg, stale, pen, metric, session, AfterExpand(CloseBest(st, st.open[k]), f))
  {
    ClosePhase(cfg, stale, pen, metric, session, st, k);
    ExpandPhase(cfg, stale, pen, metric, session, CloseBest(st, st.open[k]), f);
  }

  /** One pass of the search loop: close the earliest best open state,
      then score its children; one more state is closed and the invariant
      is back in place. */
  method Iterate(cfg: FeatureConfig, stale: int, pen: real, metric: string, session: Session, st: SearchState)
    returns (r: Result<SearchState, SearchError>)
    requires Ready(cfg, stale, pen, metric, session, st)
    requires st.staleCount < stale && |st.open| > 0
    ensures r.Success? ==> exists k :: EarliestMax(st.open, k) && r.value.closed == st.closed + [st.open[k]]
    ensures r.Success? ==> r.value.history == st.history + [st.open]
    ensures r.Success? ==> Ready(cfg, stale, pen, metric, session, r.value)
    ensures Consistent(session.ledger) && r.Failure? ==> r.error.ScoreFailure?
  {
    var n := |cfg.fieldNames|;
    var picked := FindMaxState(st.open);
    ghost var k :| EarliestMax(st.open, k) && picked == Chosen(st.open[k]);
    var entry := ScoredState(picked.state.value, picked.score, picked.metricValue);
    assert entry == st.open[k];
    ClosePrepares(cfg, stale, pen, metric, session, st, k);
    var closing := CloseBest(st, entry);
    var ex := ExpandFrontier(cfg, pen, entry.state, closing.open, closing.closed, closing.counter,
                             closing.session, closing.metric, closing.log, metric);
    if ex.Failure? {
      return Failure(ex.error);
    }
    StepPhase(cfg, stale, pen, metric, session, st, k, ex.value);
    r := Success(AfterExpand(closing, ex.value));
  }

  /** The search loop of `best_first_search` on resolved settings: it runs
      while fewer than `stale` consecutive closed states failed to improve
      the best and some subset is still open. */
  method Search(cfg: FeatureConfig, stale: int, pen: real, metric: string, session: Session)
    returns (r: Result<FeatureReport, SearchError>)
    ensures Consistent(session.ledger) && r.Failure? ==> r.error.ScoreFailure?
    ensures r.Success? ==> Reported(cfg, stale, pen, metric, session, r.value)
  {
    var n := |cfg.fieldNames|;
    var st := Start(n, metric, session);
    StartInvariant(n, stale, metric, session);
    while st.staleCount < stale && |st.open| > 0
      invariant Ready(cfg, stale, pen, metric, session, st)
      decreases Pow2(n) - |st.closed|
    {
      var next := Iterate(cfg, stale, pen, metric, session, st);
      if next.Failure? {
        return Failure(next.error);
      }
      st := next.value;
    }
    FinishSearch(cfg, stale, pen, metric, session, st);
    r := Success(Report(cfg, st));
  }

  /** `best_first_search`: the defaults for the unset staleness and
      penalty, then the search: repeatedly close the best open entry, judge
      it against the best so far, and score its unseen children, until the
      best has not changed for `staleness` steps or open is empty. */
  method BestFirstSearch(cfg: FeatureConfig, staleness: Option<int>, penalty: Option<real>,
                         metric: string, session: Session)
    returns (r: Result<FeatureReport, SearchError>)
    ensures Consistent(session.ledger) && r.Failure? ==> r.error.ScoreFailure?
    ensures r.Success? ==>
              Reported(cfg, if staleness.None? then DefaultStaleness else staleness.value,
                       if penalty.None? then DefaultPenalty else penalty.value, metric, session, r.value)
  {
    var stale := if staleness.None? then DefaultStaleness else staleness.value;
    var pen := if penalty.None? then DefaultPenalty else penalty.value;
    r := Search(cfg, stale, pen, metric, session);
  }
}

=== FILE: ledger.dfy ===
/** The resume ledger: the log of sub-commands already issued, replayed on
    a restarted run so that finished (and costly) calls are not issued
    again. The module-level `subcommand_list` of the original is threaded
    explicitly as a `Session`. */
module Ledger {
  import opened Results
  import opened Text
  import opened Commands

  /** Whether the run is still replaying, and the replay stack: its last
      element is the next entry `pop()` yields. */
  datatype LedgerState = LedgerState(resume: bool, pending: seq<string>)

  /** The ledger together with what the run has produced so far: the lines
      appended to the ledger file and the argument lists handed to the
      dispatcher, both oldest first. */
  datatype Session = Session(ledger: LedgerState, logged: seq<string>, dispatched: seq<seq<string>>)

  /** `pop()` on an empty list raises `IndexError`. */
  datatype LedgerError = PopFromEmptyLedger

  /** The catch-up call issued when the replay has consumed the ledger. */
  const ResumeCall: seq<string> := ["main", "--resume"]

  function Reverse<T>(xs: seq<T>): (r: seq<T>)
    ensures |r| == |xs|
    ensures forall i :: 0 <= i < |xs| ==> r[i] == xs[|xs| - 1 - i]
    decreases |xs|
  {
    if |xs| == 0 then [] else Reverse(xs[1..]) + [xs[0]]
  }

  /** The text of a file made of the given lines. */
  function Concat(lines: seq<string>): string
    decreases |lines|
  {
    if |lines| == 0 then "" else lines[0] + Concat(lines[1..])
  }

  function FirstNewline(s: string): (n: nat)
    ensures n <= |s|
    ensures n < |s| ==> s[n] == '\n'
    ensures forall i :: 0 <= i < n ==> s[i] != '\n'
    decreases |s|
  {
    if |s| == 0 || s[0] == '\n' then 0 else 1 + FirstNewline(s[1..])
  }

  /** `file.readlines()`: the text cut after every newline; each line keeps
      its newline and only the last may lack one. */
  function ReadLines(text: string): (lines: seq<string>)
    ensures Concat(lines) == text
    ensures forall i :: 0 <= i < |lines| - 1 ==> IsLine(lines[i])
    ensures forall i :: 0 <= i < |lines| ==> |lines[i]| > 0
    decreases |text|
  {
    if |text| == 0 then []
    else
      var n := FirstNewline(text);
      if n < |text| then
        var rest := ReadLines(text[n + 1..]);
        assert text == text[..n + 1] + text[n + 1..];
        assert text[..n + 1][..n] == text[..n];
        [text[..n + 1]] + rest
      else [text]
  }

  lemma FirstNewlineOfLine(l: string, rest: string)
    requires IsLine(l)
    ensures FirstNewline(l + rest) == |l| - 1
  {
    var s := l + rest;
    assert s[|l| - 1] == '\n';
    assert forall i :: 0 <= i < |l| - 1 ==> s[i] == l[..|l| - 1][i];
  }

  /** Reading back a file written one line at a time yields those lines. */
  lemma {:induction false} ReadLinesConcat(lines: seq<string>)
    requires forall i :: 0 <= i < |lines| ==> IsLine(lines[i])
    ensures ReadLines(Concat(lines)) == lines
    decreases |lines|
  {
    if |lines| > 0 {
      var l := lines[0];
      var text := Concat(lines);
      assert text == l + Concat(lines[1..]);
      FirstNewlineOfLine(l, Concat(lines[1..]));
      assert text[..|l|] == l;
      assert text[|l|..] == Concat(lines[1..]);
      ReadLinesConcat(lines[1..]);
    }
  }

  /** `retrieve_subcommands`: the ledger file's lines reversed, so that the
      k-th `pop()` yields the k-th line written. */
  function RetrieveSubcommands(lines: seq<string>): (pending: seq<string>)
    ensures |pending| == |lines|
    ensures forall k :: 0 <= k < |lines| ==> pending[|pending| - 1 - k] == lines[k]
  {
    Reverse(lines)
  }

  /** The per-call step repeated by `create_kfold_datasets`,
      `create_kfold_evaluations` and `create_node_th_evaluations`. */
  function Step(s: Session, args: seq<string>): (r: Result<Session, LedgerError>)
    // popping an empty ledger is the only failure
    ensures r.Failure? <==> s.ledger.resume && |s.ledger.pending| == 0
    // not resuming: the line is logged and the call dispatched, the ledger untouched
    ensures !s.ledger.resume ==>
              r == Success(Session(s.ledger, s.logged + [RebuildCommand(args)], s.dispatched + [args]))
    // resuming: exactly one entry is popped, then one of three outcomes
    ensures s.ledger.resume && |s.ledger.pending| > 0 ==>
              var p := s.ledger.pending;
              var next := p[|p| - 1];
              && r.Success?
              && r.value.ledger.pending == p[..|p| - 1]
              && (DifferentCommand(next, RebuildCommand(args)) ==>
                    r.value == Session(LedgerState(false, p[..|p| - 1]),
                                       s.logged + [RebuildCommand(args)], s.dispatched + [args]))
              && (!DifferentCommand(next, RebuildCommand(args)) && |p| == 1 ==>
                    r.value == Session(LedgerState(false, []), s.logged, s.dispatched + [ResumeCall]))
              && (!DifferentCommand(next, RebuildCommand(args)) && |p| > 1 ==>
                    r.value == Session(LedgerState(true, p[..|p| - 1]), s.logged, s.dispatched))
    // resuming is never re-entered, and a resuming ledger is never empty afterwards
    ensures r.Success? ==> (r.value.ledger.resume ==> s.ledger.resume)
    ensures r.Success? ==> (r.value.ledger.resume ==> |r.value.ledger.pending| > 0)
  {
    var command := RebuildCommand(args);
    if !s.ledger.resume then
      Success(Session(s.ledger, s.logged + [command], s.dispatched + [args]))
    else if |s.ledger.pending| == 0 then
      Failure(PopFromEmptyLedger)
    else
      var next := s.ledger.pending[|s.ledger.pending| - 1];
      var rest := s.ledger.pending[..|s.ledger.pending| - 1];
      if DifferentCommand(next, command) then
        Success(Session(LedgerState(false, rest), s.logged + [command], s.dispatched + [args]))
      else if |rest| == 0 then
        Success(Session(LedgerState(false, rest), s.logged, s.dispatched + [ResumeCall]))
      else
        Success(Session(LedgerState(true, rest), s.logged, s.dispatched))
  }

  /** A ledger that is consistent: replaying only while entries remain. */
  predicate Consistent(l: LedgerState) {
    l.resume ==> |l.pending| > 0
  }

  /** A sequence of calls, each going through `Step`. */
  function Run(s: Session, calls: seq<seq<string>>): (r: Result<Session, LedgerError>)
    ensures Consistent(s.ledger) ==> r.Success?
    ensures r.Success? ==> (r.value.ledger.resume ==> s.ledger.resume)
    ensures r.Success? && Consistent(s.ledger) ==> Consistent(r.value.ledger)
    ensures r.Success? ==> |s.dispatched| <= |r.value.dispatched| <= |s.dispatched| + |calls|
    ensures r.Success? ==> r.value.dispatched[..|s.dispatched|] == s.dispatched
    ensures r.Success? ==> |s.logged| <= |r.value.logged| && r.value.logged[..|s.logged|] == s.logged
    decreases |calls|
  {
    if |calls| == 0 then Success(s)
    else
      match Step(s, calls[0])
      case Failure(e) => Failure(e)
      case Success(s') =>
        var r := Run(s', calls[1..]);
        if r.Success? then
          assert r.value.dispatched[..|s.dispatched|] == r.value.dispatched[..|s'.dispatched|][..|s.dispatched|];
          assert r.value.logged[..|s.logged|] == r.value.logged[..|s'.logged|][..|s.logged|];
          r
        else r
  }

  /** Running two batches of calls one after the other is running them
      together: a loop that steps each call in turn keeps `Run` of the
      calls so far. */
  lemma {:induction false} RunAppend(s: Session, a: seq<seq<string>>, b: seq<seq<string>>)
    requires Run(s, a).Success?
    ensures Run(s, a + b) == Run(Run(s, a).value, b)
    ensures |b| == 1 ==> Run(s, a + b) == Step(Run(s, a).value, b[0])
    decreases |a|
  {
    if |a| == 0 {
      assert a + b == b;
    } else {
      assert (a + b)[0] == a[0] && (a + b)[1..] == a[1..] + b;
      RunAppend(Step(s, a[0]).value, a[1..], b);
    }
  }

  /** The ledger lines of a sequence of calls. */
  function Rebuilt(calls: seq<seq<string>>): (lines: seq<string>)
    ensures |lines| == |calls|
    ensures forall i :: 0 <= i < |calls| ==> lines[i] == RebuildCommand(calls[i])
    decreases |calls|
  {
    if |calls| == 0 then [] else [RebuildCommand(calls[0])] + Rebuilt(calls[1..])
  }

  /** Once resuming is off, every call is logged and dispatched, in order. */
  lemma {:induction false} FreshRun(s: Session, calls: seq<seq<string>>)
    requires !s.ledger.resume
    ensures Run(s, calls) == Success(Session(s.ledger, s.logged + Rebuilt(calls), s.dispatched + calls))
    decreases |calls|
  {
    if |calls| == 0 {
      assert s.logged + Rebuilt(calls) == s.logged;
      assert s.dispatched + calls == s.dispatched;
    } else {
      var line := RebuildCommand(calls[0]);
      var s' := Session(s.ledger, s.logged + [line], s.dispatched + [calls[0]]);
      FreshStep(s, calls);
      FreshRun(s', calls[1..]);
      PrependCall(s, calls);
    }
  }

  lemma FreshStep(s: Session, calls: seq<seq<string>>)
    requires !s.ledger.resume && |calls| > 0
    ensures Run(s, calls)
            == Run(Session(s.ledger, s.logged + [RebuildCommand(calls[0])], s.dispatched + [calls[0]]), calls[1..])
  {
  }

  lemma PrependCall(s: Session, calls: seq<seq<string>>)
    requires |calls| > 0
    ensures s.logged + [RebuildCommand(calls[0])] + Rebuilt(calls[1..]) == s.logged + Rebuilt(calls)
    ensures s.dispatched + [calls[0]] + calls[1..] == s.dispatched + calls
  {
    PrependLine(s.logged, calls);
    PrependArgs(s.dispatched, calls);
  }

  lemma PrependArgs(dispatched: seq<seq<string>>, calls: seq<seq<string>>)
    requires |calls| > 0
    ensures dispatched + [calls[0]] + calls[1..] == dispatched + calls
  {
    assert calls == [calls[0]] + calls[1..];
  }

  lemma PrependLine(logged: seq<string>, calls: seq<seq<string>>)
    requires |calls| > 0
    ensures logged + [RebuildCommand(calls[0])] + Rebuilt(calls[1..]) == logged + Rebuilt(calls)
  {
    RebuiltCons(calls);
  }

  lemma RebuiltCons(calls: seq<seq<string>>)
    requires |calls| > 0
    ensures Rebuilt(calls) == [RebuildCommand(calls[0])] + Rebuilt(calls[1..])
  {
  }

  /** Replay: while no popped entry is reported different from the call it
      is compared with, nothing is logged or dispatched until the ledger is
      exhausted; then the catch-up call is dispatched once and every later
      call is issued afresh. */
  lemma {:induction false} ReplayWithoutDivergence(s: Session, calls: seq<seq<string>>)
    requires s.ledger.resume
    requires 0 < |s.ledger.pending| <= |calls|
    requires forall i :: 0 <= i < |s.ledger.pending| ==>
               !DifferentCommand(s.ledger.pending[|s.ledger.pending| - 1 - i], RebuildCommand(calls[i]))
    ensures var p := |s.ledger.pending|;
            Run(s, calls) == Success(Session(LedgerState(false, []),
                                             s.logged + Rebuilt(calls[p..]),
                                             s.dispatched + [ResumeCall] + calls[p..]))
    decreases |calls|
  {
    var p := s.ledger.pending;
    assert !DifferentCommand(p[|p| - 1], RebuildCommand(calls[0]));
    var s' := Step(s, calls[0]).value;
    if |p| == 1 {
      assert s' == Session(LedgerState(false, []), s.logged, s.dispatched + [ResumeCall]);
      FreshRun(s', calls[1..]);
    } else {
      assert s' == Session(LedgerState(true, p[..|p| - 1]), s.logged, s.dispatched);
      forall i | 0 <= i < |p| - 1
        ensures !DifferentCommand(s'.ledger.pending[|p| - 2 - i], RebuildCommand(calls[1..][i]))
      {
        assert s'.ledger.pending[|p| - 2 - i] == p[|p| - 1 - (i + 1)];
      }
      ReplayWithoutDivergence(s', calls[1..]);
      assert calls[1..][|p| - 1..] == calls[|p|..];
    }
  }

  /** Divergence: when the first popped entry is reported different, the
      run leaves replay for good and issues every call afresh. */
  lemma DivergenceAbandonsResume(s: Session, calls: seq<seq<string>>)
    requires s.ledger.resume && |s.ledger.pending| > 0 && |calls| > 0
    requires DifferentCommand(s.ledger.pending[|s.ledger.pending| - 1], RebuildCommand(calls[0]))
    ensures var p := s.ledger.pending;
            Run(s, calls) == Success(Session(LedgerState(false, p[..|p| - 1]),
                                             s.logged + Rebuilt(calls), s.dispatched + calls))
  {
    var p := s.ledger.pending;
    var s' := Session(LedgerState(false, p[..|p| - 1]),
                      s.logged + [RebuildCommand(calls[0])], s.dispatched + [calls[0]]);
    DivergentStep(s, calls);
    FreshRun(s', calls[1..]);
    PrependCall(s, calls);
  }

  lemma DivergentStep(s: Session, calls: seq<seq<string>>)
    requires s.ledger.resume && |s.ledger.pending| > 0 && |calls| > 0
    requires DifferentCommand(s.ledger.pending[|s.ledger.pending| - 1], RebuildCommand(calls[0]))
    ensures var p := s.ledger.pending;
            Run(s, calls)
            == Run(Session(LedgerState(false, p[..|p| - 1]),
                           s.logged + [RebuildCommand(calls[0])], s.dispatched + [calls[0]]), calls[1..])
  {
  }

  /** Resuming after an interruption: a run restarted on the ledger file
      written by the calls `done` issues none of them again; it dispatches
      the catch-up call once and then exactly the calls not yet made. */
  lemma ResumeFromLedgerFile(done: seq<seq<string>>, rest: seq<seq<string>>,
                             logged: seq<string>, dispatched: seq<seq<string>>)
    requires |done| > 0
    requires forall i, j :: 0 <= i < |done| && 0 <= j < |done[i]| ==> '\n' !in done[i][j]
    ensures var pending := RetrieveSubcommands(ReadLines(Concat(Rebuilt(done))));
            Run(Session(LedgerState(true, pending), logged, dispatched), done + rest)
            == Success(Session(LedgerState(false, []), logged + Rebuilt(rest),
                               dispatched + [ResumeCall] + rest))
  {
    LedgerFileReadsBack(done);
    var pending := RetrieveSubcommands(Rebuilt(done));
    ReplayMatches(done, rest);
    ReplayWithoutDivergence(Session(LedgerState(true, pending), logged, dispatched), done + rest);
    ResumeTail(done, rest);
  }

  lemma LedgerFileReadsBack(done: seq<seq<string>>)
    requires forall i, j :: 0 <= i < |done| && 0 <= j < |done[i]| ==> '\n' !in done[i][j]
    ensures ReadLines(Concat(Rebuilt(done))) == Rebuilt(done)
  {
    var lines := Rebuilt(done);
    forall i | 0 <= i < |done| ensures IsLine(lines[i]) {
      RebuiltIsLine(done[i]);
    }
    ReadLinesConcat(lines);
  }

  lemma ReplayMatches(done: seq<seq<string>>, rest: seq<seq<string>>)
    ensures var pending := RetrieveSubcommands(Rebuilt(done));
            forall i :: 0 <= i < |pending| ==>
              !DifferentCommand(pending[|pending| - 1 - i], RebuildCommand((done + rest)[i]))
  {
    var pending := RetrieveSubcommands(Rebuilt(done));
    forall i | 0 <= i < |pending|
      ensures !DifferentCommand(pending[|pending| - 1 - i], RebuildCommand((done + rest)[i]))
    {
      assert pending[|pending| - 1 - i] == RebuildCommand(done[i]);
      assert (done + rest)[i] == done[i];
    }
  }

  lemma ResumeTail(done: seq<seq<string>>, rest: seq<seq<string>>)
    ensures (done + rest)[|done|..] == rest
  {
  }

  /** As written, a resumed run whose calls carry no lower-case default name
      never detects that they differ from the ledger: it issues nothing but
      the catch-up call until the ledger is used up. */
  lemma ReplayIgnoresUnnamedChanges(s: Session, calls: seq<seq<string>>)
    requires s.ledger.resume
    requires 0 < |s.ledger.pending| <= |calls|
    requires forall i :: 0 <= i < |s.ledger.pending| ==> !Contains(s.ledger.pending[i], DefaultNamePattern)
    requires forall i :: 0 <= i < |calls| ==> !Contains(RebuildCommand(calls[i]), DefaultNamePattern)
    ensures var p := |s.ledger.pending|;
            Run(s, calls) == Success(Session(LedgerState(false, []),
                                             s.logged + Rebuilt(calls[p..]),
                                             s.dispatched + [ResumeCall] + calls[p..]))
  {
    var p := s.ledger.pending;
    forall i | 0 <= i < |p|
      ensures !DifferentCommand(p[|p| - 1 - i], RebuildCommand(calls[i]))
    {
      DifferentCommandBlind(p[|p| - 1 - i], RebuildCommand(calls[i]));
    }
    ReplayWithoutDivergence(s, calls);
  }
}

=== FILE: masks.dfy ===
/** Feature-inclusion masks: `expand_state`, and the counting facts behind
    the bound on how many masks a search can hold. */
module Masks {

  /** `state[i]` is true when the i-th candidate field is included. */
  type Mask = seq<bool>

  /** The initial state of the search: no field included. */
  function AllFalse(n: nat): (m: Mask)
    ensures |m| == n
    ensures forall i :: 0 <= i < n ==> !m[i]
  {
    seq(n, i => false)
  }

  /** The mask with field `i` toggled. */
  function Flip(m: Mask, i: nat): (r: Mask)
    requires i < |m|
    ensures |r| == |m| && r[i] == !m[i]
    ensures forall j :: 0 <= j < |m| && j != i ==> r[j] == m[j]
  {
    m[i := !m[i]]
  }

  /** `expand_state`: one child per field; child i has the parent's length
      and differs from the parent exactly at position i. The parent, a
      value, is left as it was. */
  function ExpandState(parent: Mask): (children: seq<Mask>)
    ensures |children| == |parent|
    ensures forall i :: 0 <= i < |parent| ==> |children[i]| == |parent|
    ensures forall i, j :: 0 <= i < |parent| && 0 <= j < |parent| ==>
              (children[i][j] == parent[j] <==> i != j)
  {
    seq(|parent|, i requires 0 <= i < |parent| => Flip(parent, i))
  }

  /** The children are pairwise distinct, none equals the parent, and the
      parent is a child of each of its children. */
  lemma ExpandStateNeighbours(parent: Mask)
    ensures var cs := ExpandState(parent);
            && (forall i, j :: 0 <= i < j < |cs| ==> cs[i] != cs[j])
            && (forall i :: 0 <= i < |cs| ==> cs[i] != parent && ExpandState(cs[i])[i] == parent)
  {
    var cs := ExpandState(parent);
    forall i, j | 0 <= i < j < |cs| ensures cs[i] != cs[j] {
      assert cs[i][i] != cs[j][i];
    }
    forall i | 0 <= i < |cs| ensures cs[i] != parent && ExpandState(cs[i])[i] == parent {
      assert cs[i][i] != parent[i];
    }
  }

  lemma FlipIsChild(parent: Mask, j: nat)
    requires j < |parent|
    ensures Flip(parent, j) in ExpandState(parent)
  {
    assert ExpandState(parent)[j] == Flip(parent, j);
  }

  /** The children of `p` among the first `upTo` that are not in `seen`,
      in field order: the ones the search appends to its open list. */
  function FreshChildren(p: Mask, seen: seq<Mask>, upTo: nat): (r: seq<Mask>)
    requires upTo <= |p|
    decreases upTo
  {
    if upTo == 0 then []
    else FreshChildren(p, seen, upTo - 1) + (if Flip(p, upTo - 1) in seen then [] else [Flip(p, upTo - 1)])
  }

  /** Every fresh child is a child among the first `upTo` and is not in
      `seen`. */
  lemma {:induction false} FreshChildrenSound(p: Mask, seen: seq<Mask>, upTo: nat)
    requires upTo <= |p|
    ensures forall t :: 0 <= t < |FreshChildren(p, seen, upTo)| ==>
              FreshChildren(p, seen, upTo)[t] !in seen
              && exists j :: 0 <= j < upTo && FreshChildren(p, seen, upTo)[t] == Flip(p, j)
    decreases upTo
  {
    if upTo > 0 {
      FreshChildrenSound(p, seen, upTo - 1);
      var r := FreshChildren(p, seen, upTo - 1);
      var last := Flip(p, upTo - 1);
      var r' := FreshChildren(p, seen, upTo);
      assert r' == r + (if last in seen then [] else [last]);
      forall t | 0 <= t < |r'| ensures r'[t] !in seen && exists j :: 0 <= j < upTo && r'[t] == Flip(p, j) {
        if t < |r| {
          assert r'[t] == r[t];
        } else {
          assert r'[t] == Flip(p, upTo - 1);
        }
      }
    }
  }

  /** Every child of `p` among the first `upTo` that is not in `seen` is
      one of the fresh children. */
  lemma {:induction false} FreshChildrenComplete(p: Mask, seen: seq<Mask>, upTo: nat)
    requires upTo <= |p|
    ensures forall j :: 0 <= j < upTo && Flip(p, j) !in seen ==> Flip(p, j) in FreshChildren(p, seen, upTo)
    decreases upTo
  {
    if upTo > 0 {
      FreshChildrenComplete(p, seen, upTo - 1);
      var r := FreshChildren(p, seen, upTo - 1);
      var last := Flip(p, upTo - 1);
      assert FreshChildren(p, seen, upTo) == r + (if last in seen then [] else [last]);
    }
  }

  /** No two fresh children are equal. */
  lemma {:induction false} FreshChildrenDistinct(p: Mask, seen: seq<Mask>, upTo: nat)
    requires upTo <= |p|
    ensures NoDuplicates(FreshChildren(p, seen, upTo))
    decreases upTo
  {
    if upTo > 0 {
      FreshChildrenDistinct(p, seen, upTo - 1);
      FreshChildrenSound(p, seen, upTo - 1);
      var r := FreshChildren(p, seen, upTo - 1);
      var last := Flip(p, upTo - 1);
      forall t | 0 <= t < |r| ensures r[t] != last {
        var j :| 0 <= j < upTo - 1 && r[t] == Flip(p, j);
        assert r[t][upTo - 1] != last[upTo - 1];
      }
      assert FreshChildren(p, seen, upTo) == r + (if last in seen then [] else [last]);
    }
  }

  /** Every mask occurs at most once. */
  predicate NoDuplicates(ms: seq<Mask>) {
    forall i, j :: 0 <= i < j < |ms| ==> ms[i] != ms[j]
  }

  function Pow2(n: nat): (p: nat)
    ensures p >= 1
  {
    if n == 0 then 1 else 2 * Pow2(n - 1)
  }

  function Prefixed(b: bool, s: set<Mask>): set<Mask> {
    set m | m in s :: [b] + m
  }

  lemma {:induction false} PrefixedCard(b: bool, s: set<Mask>)
    ensures |Prefixed(b, s)| == |s|
    decreases s
  {
    if s != {} {
      var x :| x in s;
      var rest := s - {x};
      PrefixedCard(b, rest);
      assert Prefixed(b, s) == Prefixed(b, rest) + {[b] + x};
      forall y | y in rest ensures [b] + y != [b] + x {
        assert ([b] + y)[1..] == y && ([b] + x)[1..] == x;
      }
    }
  }

  /** Every mask of length n. */
  function AllMasks(n: nat): (r: set<Mask>)
    ensures forall m :: m in r ==> |m| == n
    decreases n
  {
    if n == 0 then {[]} else Prefixed(false, AllMasks(n - 1)) + Prefixed(true, AllMasks(n - 1))
  }

  lemma {:induction false} AllMasksCard(n: nat)
    ensures |AllMasks(n)| == Pow2(n)
    decreases n
  {
    if n > 0 {
      AllMasksCard(n - 1);
      PrefixedCard(false, AllMasks(n - 1));
      PrefixedCard(true, AllMasks(n - 1));
      var f := Prefixed(false, AllMasks(n - 1));
      var t := Prefixed(true, AllMasks(n - 1));
      assert f * t == {} by {
        forall m | m in f ensures m !in t {
          assert !m[0];
        }
      }
    }
  }

  lemma {:induction false} AllMasksComplete(m: Mask)
    ensures m in AllMasks(|m|)
    decreases |m|
  {
    if |m| > 0 {
      AllMasksComplete(m[1..]);
      assert m == [m[0]] + m[1..];
      assert m in Prefixed(m[0], AllMasks(|m| - 1));
    }
  }

  lemma SubsetCard<T>(a: set<T>, b: set<T>)
    requires a <= b
    ensures |a| <= |b|
  {
    assert b == a + (b - a);
  }

  lemma {:induction false} DistinctCard(ms: seq<Mask>)
    requires NoDuplicates(ms)
    ensures |set x | x in ms| == |ms|
    decreases |ms|
  {
    if |ms| > 0 {
      var init := ms[..|ms| - 1];
      var last := ms[|ms| - 1];
      assert ms == init + [last];
      assert last !in init;
      DistinctCard(init);
      assert (set x | x in ms) == (set x | x in init) + {last};
    }
  }

  /** A duplicate-free sequence of masks of length n has at most 2^n
      elements. */
  lemma DistinctBound(ms: seq<Mask>, n: nat)
    requires NoDuplicates(ms)
    requires forall i :: 0 <= i < |ms| ==> |ms[i]| == n
    ensures |ms| <= Pow2(n)
  {
    DistinctCard(ms);
    AllMasksCard(n);
    forall x | x in ms ensures x in AllMasks(n) {
      AllMasksComplete(x);
    }
    SubsetCard((set x | x in ms), AllMasks(n));
  }

  /** Toggling, from the empty mask, fields one by one reaches every mask:
      a collection holding the empty mask and closed under toggling holds
      every mask of length n. */
  lemma {:induction false} ClosedUnderFlipReaches(ms: seq<Mask>, n: nat, m: Mask, k: nat)
    requires AllFalse(n) in ms
    requires forall c, i :: c in ms && |c| == n && 0 <= i < n ==> Flip(c, i) in ms
    requires |m| == n && k <= n
    requires forall j :: k <= j < n ==> !m[j]
    ensures m in ms
    decreases k
  {
    if k == 0 {
      assert m == AllFalse(n);
    } else if !m[k - 1] {
      ClosedUnderFlipReaches(ms, n, m, k - 1);
    } else {
      var m' := Flip(m, k - 1);
      ClosedUnderFlipReaches(ms, n, m', k - 1);
      assert Flip(m', k - 1) == m;
    }
  }

  /** A duplicate-free collection of masks of length n that holds the empty
      mask and is closed under toggling has exactly 2^n elements. */
  lemma ClosedUnderFlipIsEverything(ms: seq<Mask>, n: nat)
    requires NoDuplicates(ms)
    requires forall i :: 0 <= i < |ms| ==> |ms[i]| == n
    requires AllFalse(n) in ms
    requires forall c, i :: c in ms && |c| == n && 0 <= i < n ==> Flip(c, i) in ms
    ensures |ms| == Pow2(n)
  {
    DistinctBound(ms, n);
    DistinctCard(ms);
    AllMasksCard(n);
    forall m | m in AllMasks(n) ensures m in (set x | x in ms) {
      ClosedUnderFlipReaches(ms, n, m, n);
    }
    SubsetCard(AllMasks(n), (set x | x in ms));
  }
}

=== FILE: progress.dfy ===
/** The progress rows both searches write, and the staleness rule that
    decides when a search stops: the best score moves only on an
    improvement by more than `Epsilon`, and the count of consecutive
    non-improving steps resets on every improvement. */
module Progress {
  import opened ExtendedReals
  import Ledger
  import Scorer

  /** One CSV progress row: the loop step (from 1), what was evaluated, its
      score and raw metric, and the best score before this step. */
  datatype Row<K> = Row(step: nat, key: K, score: ExtReal, metricValue: ExtReal, bestScore: ExtReal)

  /** How a search run can fail: the ledger, the scorer, or (in the sweep)
      a report on a threshold that was never set. */
  datatype SearchError =
    | LedgerFailure(ledgerError: Ledger.LedgerError)
    | ScoreFailure(scoreError: Scorer.ScoreError)
    | NoThresholdEvaluated

  /** The best score after a step scoring `score`. */
  function NextBest(best: ExtReal, score: ExtReal): (r: ExtReal)
    ensures LessEq(best, r)
    ensures r != best ==> Improves(score, best) && r == score
    ensures Improves(score, best) ==> r == score && Less(best, r)
  {
    if Improves(score, best) then score else best
  }

  /** Rows as the loops write them: the first shows minus infinity as the
      best, each later one the best left by the row before it. */
  predicate Chained<K>(rows: seq<Row<K>>) {
    && (forall i :: 0 <= i < |rows| ==> rows[i].step == i + 1)
    && (|rows| > 0 ==> rows[0].bestScore == NegInf)
    && (forall i :: 0 < i < |rows| ==> rows[i].bestScore == NextBest(rows[i - 1].bestScore, rows[i - 1].score))
  }

  /** The best score once every row has been judged. */
  function BestAfter<K>(rows: seq<Row<K>>): ExtReal {
    if |rows| == 0 then NegInf else NextBest(rows[|rows| - 1].bestScore, rows[|rows| - 1].score)
  }

  /** `best_unchanged_count`: the number of trailing rows that did not
      improve on the best. */
  function StaleRun<K>(rows: seq<Row<K>>): (n: nat)
    ensures n <= |rows|
    decreases |rows|
  {
    if |rows| == 0 then 0
    else if Improves(rows[|rows| - 1].score, rows[|rows| - 1].bestScore) then 0
    else StaleRun(rows[..|rows| - 1]) + 1
  }

  /** Extending chained rows by the next row keeps them chained. */
  lemma ChainedSnoc<K>(rows: seq<Row<K>>, key: K, score: ExtReal, metricValue: ExtReal)
    requires Chained(rows)
    ensures Chained(rows + [Row(|rows| + 1, key, score, metricValue, BestAfter(rows))])
  {
  }

  /** Every recorded step ran while the unchanged count was below `stale`. */
  predicate RanBelow<K>(rows: seq<Row<K>>, stale: int) {
    forall i :: 0 <= i < |rows| ==> StaleRun(rows[..i]) < stale
  }

  /** Appending the row of one more loop step, taken while the unchanged
      count was below `stale`: the rows stay chained, the best moves by the
      margin rule, the count resets or grows by one, and every step so far
      ran with the count below `stale`. */
  lemma AppendRow<K>(rows: seq<Row<K>>, key: K, score: ExtReal, metricValue: ExtReal, stale: int)
    requires Chained(rows) && StaleRun(rows) < stale && RanBelow(rows, stale)
    ensures var rows' := rows + [Row(|rows| + 1, key, score, metricValue, BestAfter(rows))];
            && Chained(rows') && BestAfter(rows') == NextBest(BestAfter(rows), score)
            && StaleRun(rows') == (if Improves(score, BestAfter(rows)) then 0 else StaleRun(rows) + 1)
            && RanBelow(rows', stale)
  {
    var rows' := rows + [Row(|rows| + 1, key, score, metricValue, BestAfter(rows))];
    ChainedSnoc(rows, key, score, metricValue);
    assert rows'[..|rows|] == rows;
    forall i | 0 <= i < |rows'| ensures StaleRun(rows'[..i]) < stale {
      if i < |rows| {
        assert rows'[..i] == rows[..i];
      }
    }
  }

  /** The index of the row that set the best: an improving row with no
      improving row after it. */
  predicate LastImprovement<K>(rows: seq<Row<K>>, i: int) {
    && 0 <= i < |rows|
    && Improves(rows[i].score, rows[i].bestScore)
    && forall j :: i < j < |rows| ==> !Improves(rows[j].score, rows[j].bestScore)
  }

  /** Where the best score `best` comes from: while it is minus infinity no
      row has improved, afterwards it is the score of row `bi`, the last
      one that did. */
  predicate BestFrom<K>(rows: seq<Row<K>>, best: ExtReal, bi: int) {
    && (best.NegInf? ==> forall j :: 0 <= j < |rows| ==> !Improves(rows[j].score, rows[j].bestScore))
    && (best.Fin? ==> LastImprovement(rows, bi) && rows[bi].score == best)
  }

  /** A row judged against the best moves the best to itself exactly when
      it improves on it; otherwise the row that set the best stays the last
      improving one. */
  lemma BestFromSnoc<K>(rows: seq<Row<K>>, best: ExtReal, bi: int, row: Row<K>)
    requires BestFrom(rows, best, bi) && row.bestScore == best
    ensures var improved := Improves(row.score, best);
            BestFrom(rows + [row], if improved then row.score else best, if improved then |rows| else bi)
  {
    var rows' := rows + [row];
    if !Improves(row.score, best) {
      assert forall j :: 0 <= j < |rows| ==> rows'[j] == rows[j];
    }
  }

  /** The best score never decreases: every row's best is at most every
      later row's, and at most the final best. */
  lemma {:induction false} ChainedMonotone<K>(rows: seq<Row<K>>)
    requires Chained(rows)
    ensures forall i, j :: 0 <= i <= j < |rows| ==> LessEq(rows[i].bestScore, rows[j].bestScore)
    ensures forall i :: 0 <= i < |rows| ==> LessEq(rows[i].bestScore, BestAfter(rows))
    decreases |rows|
  {
    if |rows| > 0 {
      var init := rows[..|rows| - 1];
      assert Chained(init);
      ChainedMonotone(init);
      var last := |rows| - 1;
      if last > 0 {
        assert BestAfter(init) == rows[last].bestScore;
      }
      forall i, j | 0 <= i <= j < |rows|
        ensures LessEq(rows[i].bestScore, rows[j].bestScore)
      {
        if j == last && i < last {
          assert LessEq(rows[i].bestScore, BestAfter(init));
        }
      }
      forall i | 0 <= i < |rows|
        ensures LessEq(rows[i].bestScore, BestAfter(rows))
      {
        assert LessEq(rows[i].bestScore, rows[last].bestScore);
        LessEqTransitive(rows[i].bestScore, rows[last].bestScore, BestAfter(rows));
      }
    }
  }

  /** After an improving row, the count of stale steps only covers the rows
      that follow it. */
  lemma {:induction false} StaleRunAfter<K>(rows: seq<Row<K>>, i: nat)
    requires i < |rows| && Improves(rows[i].score, rows[i].bestScore)
    ensures StaleRun(rows) <= |rows| - 1 - i
    decreases |rows|
  {
    if i < |rows| - 1 && !Improves(rows[|rows| - 1].score, rows[|rows| - 1].bestScore) {
      var init := rows[..|rows| - 1];
      assert init[i] == rows[i];
      StaleRunAfter(init, i);
    }
  }
}

=== FILE: results.dfy ===
/** Failure-compatible wrappers shared by every module of the model.
    A `Failure` stands for the places where the original program raises
    or calls `sys.exit`. */
module Results {

  datatype Option<+T> = None | Some(value: T)

  datatype Result<+T, +E> = Success(value: T) | Failure(error: E) {

    predicate IsFailure() {
      Failure?
    }

    function PropagateFailure<U>(): Result<U, E>
      requires Failure?
    {
      Failure(error)
    }

    function Extract(): T
      requires Success?
    {
      value
    }
  }
}

=== FILE: scorer.dfy ===
/** The scorer shared by the feature search and the node-threshold sweep:
    choose the per-class or aggregate metrics of an evaluation, resolve the
    averaged metric (falling back to R squared), and turn the raw value and
    a complexity into a penalised score. */
module Scorer {
  import opened Results
  import opened Text

  const AveragePrefix: string := "average_"
  const RSquared: string := "r_squared"

  /** One entry of the `per_class_statistics` list. */
  datatype ClassEvaluation = ClassEvaluation(className: string, metrics: map<string, real>)

  /** The `"model"` map of an evaluation: its numeric entries and, when
      present, the per-class breakdown. */
  datatype ModelEvaluation = ModelEvaluation(metrics: map<string, real>, perClass: Option<seq<ClassEvaluation>>)

  /** An evaluation result; `model` is absent when the `"model"` key is. */
  datatype Evaluation = Evaluation(model: Option<ModelEvaluation>)

  /** `MetricNotFound`: neither the averaged metric nor averaged R squared is
      present (a `sys.exit`). `EmptySeparator`: `str.split("")` raises. */
  datatype ScoreError = MetricNotFound(metric: string) | EmptySeparator

  datatype Resolved = Resolved(value: real, metric: string)

  /** What one scoring returns: the penalised score, the raw averaged metric
      and the name of the metric actually found. */
  datatype Scored = Scored(score: real, value: real, metric: string)

  /** Position of the first per-class entry named `category`, if any. */
  function FindClass(classes: seq<ClassEvaluation>, category: string): (r: Option<nat>)
    ensures r.Some? ==> r.value < |classes| && classes[r.value].className == category
    ensures r.Some? ==> forall j :: 0 <= j < r.value ==> classes[j].className != category
    ensures r.None? ==> forall j :: 0 <= j < |classes| ==> classes[j].className != category
    decreases |classes|
  {
    if |classes| == 0 then None
    else if classes[0].className == category then Some(0)
    else match FindClass(classes[1..], category)
      case None => None
      case Some(i) => Some(i + 1)
  }

  /** `extract_evaluation_info`: the metrics of the first class entry named
      by a non-empty category, else those of the `"model"` map (empty when
      the map is missing). */
  function ExtractEvaluationInfo(e: Evaluation, category: string): (r: map<string, real>)
    ensures e.model.None? ==> r == map[]
    ensures e.model.Some? && (category == "" || e.model.value.perClass.None?) ==> r == e.model.value.metrics
    ensures e.model.Some? && category != "" && e.model.value.perClass.Some? ==>
              var cs := e.model.value.perClass.value;
              || (exists i :: 0 <= i < |cs| && cs[i].className == category && r == cs[i].metrics
                              && forall j :: 0 <= j < i ==> cs[j].className != category)
              || ((forall j :: 0 <= j < |cs| ==> cs[j].className != category) && r == e.model.value.metrics)
  {
    match e.model
    case None => map[]
    case Some(m) =>
      if category != "" && m.perClass.Some? then
        match FindClass(m.perClass.value, category)
        case Some(i) => m.perClass.value[i].metrics
        case None => m.metrics
      else m.metrics
  }

  /** The averaged form of the requested metric, else averaged R squared
      under the name `r_squared`; a failure when neither is present. */
  function ResolveMetric(metrics: map<string, real>, metric: string): (r: Result<Resolved, ScoreError>)
    ensures r.Failure? <==> AveragePrefix + metric !in metrics && AveragePrefix + RSquared !in metrics
    ensures r.Failure? ==> r.error == MetricNotFound(metric)
    ensures r.Success? ==> AveragePrefix + r.value.metric in metrics
                           && r.value.value == metrics[AveragePrefix + r.value.metric]
    ensures r.Success? ==> r.value.metric == metric
                           || (r.value.metric == RSquared && AveragePrefix + metric !in metrics)
    ensures AveragePrefix + metric in metrics ==> r.Success? && r.value.metric == metric
  {
    if AveragePrefix + metric in metrics then
      Success(Resolved(metrics[AveragePrefix + metric], metric))
    else if AveragePrefix + RSquared in metrics then
      Success(Resolved(metrics[AveragePrefix + RSquared], RSquared))
    else
      Failure(MetricNotFound(metric))
  }

  /** The resolved name is a fixed point: requesting it again from the same
      metrics resolves to the same value and name, which is why feeding it
      back as the next request is harmless. */
  lemma ResolveMetricIdempotent(metrics: map<string, real>, metric: string)
    requires ResolveMetric(metrics, metric).Success?
    ensures ResolveMetric(metrics, ResolveMetric(metrics, metric).value.metric)
            == ResolveMetric(metrics, metric)
  {
  }

  /** The metric name asked for after a run of evaluations: the one first
      requested, or `r_squared` once the fallback has been taken. */
  predicate FedBack(requested: string, current: string) {
    current == requested || current == RSquared
  }

  /** The raw value with its sign flipped when lower values are better. */
  function Oriented(value: real, minimizing: bool): real {
    if minimizing then -value else value
  }

  /** `invert * (v - invert * penalty * complexity)`, where `invert` is -1
      exactly when the requested metric is one to minimise. */
  function Score(value: real, requested: string, minimize: set<string>, penalty: real, complexity: int): (r: real)
    ensures r == Oriented(value, requested in minimize) - penalty * complexity as real
  {
    var invert: real := if requested in minimize then -1.0 else 1.0;
    invert * (value - invert * penalty * complexity as real)
  }

  /** A positive penalty makes every extra unit of complexity cost score,
      whichever way the metric is optimised. */
  lemma PenaltyLowersScore(value: real, requested: string, minimize: set<string>, penalty: real, c1: int, c2: int)
    requires penalty > 0.0 && c1 < c2
    ensures Score(value, requested, minimize, penalty, c1) > Score(value, requested, minimize, penalty, c2)
  {
    assert penalty * c2 as real - penalty * c1 as real == penalty * (c2 - c1) as real;
    assert penalty * (c2 - c1) as real > 0.0;
  }

  /** The orientation: at equal complexity, a higher raw value scores higher
      for a metric to maximise and lower for one to minimise. */
  lemma ScoreOrientation(v1: real, v2: real, requested: string, minimize: set<string>, penalty: real, c: int)
    requires v1 < v2
    ensures requested !in minimize ==> Score(v1, requested, minimize, penalty, c) < Score(v2, requested, minimize, penalty, c)
    ensures requested in minimize ==> Score(v1, requested, minimize, penalty, c) > Score(v2, requested, minimize, penalty, c)
  {
  }

  /** `len(model_fields.split(sep))`: one more than the number of
      separators found; `split` refuses an empty separator. */
  function FieldCount(modelFields: string, sep: string): (r: Result<nat, ScoreError>)
    ensures r.Failure? <==> |sep| == 0
    ensures r.Success? ==> r.value >= 1
    ensures |sep| > 0 && modelFields == "" ==> r == Success(1)
  {
    if |sep| == 0 then Failure(EmptySeparator) else Success(CountOccurrences(modelFields, sep) + 1)
  }

  /** For field names free of a one-character separator, the count is the
      number of names joined; an empty selection still counts as one. */
  lemma FieldCountOfJoin(names: seq<string>, sep: string)
    requires |sep| == 1
    requires forall i :: 0 <= i < |names| ==> sep[0] !in names[i]
    ensures FieldCount(Join(names, sep), sep) == Success(if |names| == 0 then 1 else |names|)
  {
    if |names| > 0 {
      assert sep == [sep[0]];
      CountJoinSingle(names, sep[0]);
    }
  }

  /** Metric resolution on the metrics `ExtractEvaluationInfo` selects. */
  function Resolve(e: Evaluation, category: string, metric: string): Result<Resolved, ScoreError> {
    ResolveMetric(ExtractEvaluationInfo(e, category), metric)
  }

  /** The metric name a scoring hands back to be asked for next: the name
      resolution found, or the name asked for when resolution fails (the
      run stops there). */
  function FedName(e: Evaluation, category: string, metric: string): (r: string)
    ensures FedBack(metric, r)
    ensures Resolve(e, category, metric).Success? ==> r == Resolve(e, category, metric).value.metric
    ensures r != metric ==> AveragePrefix + metric !in ExtractEvaluationInfo(e, category)
  {
    match Resolve(e, category, metric)
    case Success(resolved) => resolved.metric
    case Failure(_) => metric
  }

  /** Once `r_squared` is fed back it stays: asking for it again hands back
      `r_squared` whatever the evaluation holds. */
  lemma FedNameStaysRSquared(e: Evaluation, category: string)
    ensures FedName(e, category, RSquared) == RSquared
  {
  }

  /** The scoring tail of `kfold_evaluate`: the complexity is the number
      of pieces the model-fields text splits into. */
  function KfoldScore(e: Evaluation, category: string, metric: string, minimize: set<string>,
                      penalty: real, modelFields: string, sep: string): (r: Result<Scored, ScoreError>)
    ensures r.Failure? <==> Resolve(e, category, metric).Failure? || |sep| == 0
    ensures Resolve(e, category, metric).Failure? ==> r == Failure(MetricNotFound(metric))
    ensures r.Success? ==>
              var m := ExtractEvaluationInfo(e, category);
              && AveragePrefix + r.value.metric in m
              && r.value.value == m[AveragePrefix + r.value.metric]
              && (r.value.metric == metric || r.value.metric == RSquared)
              && r.value.score == Oriented(r.value.value, metric in minimize)
                                  - penalty * (CountOccurrences(modelFields, sep) + 1) as real
    ensures r.Success? ==> r.value.metric == FedName(e, category, metric)
  {
    var resolved :- Resolve(e, category, metric);
    var complexity :- FieldCount(modelFields, sep);
    Success(Scored(Score(resolved.value, metric, minimize, penalty, complexity), resolved.value, resolved.metric))
  }

  /** The scoring tail of `node_threshold_evaluate`: the complexity is the
      threshold itself. */
  function NodeThresholdScore(e: Evaluation, category: string, metric: string, minimize: set<string>,
                              penalty: real, threshold: int): (r: Result<Scored, ScoreError>)
    ensures r.Failure? <==> Resolve(e, category, metric).Failure?
    ensures r.Failure? ==> r.error == MetricNotFound(metric)
    ensures r.Success? ==>
              var m := ExtractEvaluationInfo(e, category);
              && AveragePrefix + r.value.metric in m
              && r.value.value == m[AveragePrefix + r.value.metric]
              && (r.value.metric == metric || r.value.metric == RSquared)
              && r.value.score == Oriented(r.value.value, metric in minimize) - penalty * threshold as real
    ensures r.Success? ==> r.value.metric == FedName(e, category, metric)
  {
    var resolved :- Resolve(e, category, metric);
    Success(Scored(Score(resolved.value, metric, minimize, penalty, threshold), resolved.value, resolved.metric))
  }

  /** The orientation follows the name asked for, not the name found. When
      a minimised metric is asked for and only R squared is present, R
      squared is scored negated; once `r_squared` is fed back, the next
      scoring of the same evaluation keeps its sign. */
  lemma FallbackKeepsRequestedOrientation(e: Evaluation, category: string, metric: string,
                                          minimize: set<string>, penalty: real, threshold: int)
    requires metric in minimize && RSquared !in minimize
    requires AveragePrefix + metric !in ExtractEvaluationInfo(e, category)
    requires AveragePrefix + RSquared in ExtractEvaluationInfo(e, category)
    ensures var v := ExtractEvaluationInfo(e, category)[AveragePrefix + RSquared];
            && NodeThresholdScore(e, category, metric, minimize, penalty, threshold)
               == Success(Scored(-v - penalty * threshold as real, v, RSquared))
            && NodeThresholdScore(e, category, RSquared, minimize, penalty, threshold)
               == Success(Scored(v - penalty * threshold as real, v, RSquared))
  {
  }
}

=== FILE: text.dfy ===
/** String helpers with the meaning of the Python built-ins the
    analysis code relies on (`in`, `join`, `split`, `replace`, `str`). */
module Text {

  /** `s` begins with `p`. */
  predicate StartsWith(s: string, p: string) {
    |p| <= |s| && s[..|p|] == p
  }

  /** Python's `sub in s`. */
  predicate Contains(s: string, sub: string)
    decreases |s|
  {
    StartsWith(s, sub) || (|s| > 0 && Contains(s[1..], sub))
  }

  /** An occurrence at position k is found. */
  lemma {:induction false} ContainsAt(s: string, sub: string, k: nat)
    requires k + |sub| <= |s| && s[k..k + |sub|] == sub
    ensures Contains(s, sub)
    decreases k
  {
    if k > 0 {
      assert s[1..][k - 1..k - 1 + |sub|] == s[k..k + |sub|];
      ContainsAt(s[1..], sub, k - 1);
    }
  }

  /** Text lacking one of the characters of `sub` does not contain it. */
  lemma {:induction false} MissingCharNotContained(s: string, sub: string, c: char)
    requires c in sub && c !in s
    ensures !Contains(s, sub)
    decreases |s|
  {
    if |s| > 0 {
      assert c !in s[1..];
      MissingCharNotContained(s[1..], sub, c);
    }
  }

  /** Python's `sep.join(parts)`. */
  function Join(parts: seq<string>, sep: string): string
    decreases |parts|
  {
    if |parts| == 0 then ""
    else if |parts| == 1 then parts[0]
    else parts[0] + sep + Join(parts[1..], sep)
  }

  /** A character absent from every part and from the separator is absent
      from the joined text. */
  lemma {:induction false} JoinAvoids(parts: seq<string>, sep: string, c: char)
    requires c !in sep
    requires forall i :: 0 <= i < |parts| ==> c !in parts[i]
    ensures c !in Join(parts, sep)
    decreases |parts|
  {
    if |parts| > 1 {
      JoinAvoids(parts[1..], sep, c);
    }
  }

  /** Number of non-overlapping occurrences of `sep` in `s`, found left to
      right as `str.split` finds them. */
  function CountOccurrences(s: string, sep: string): nat
    requires |sep| > 0
    decreases |s|
  {
    if |s| < |sep| then 0
    else if s[..|sep|] == sep then 1 + CountOccurrences(s[|sep|..], sep)
    else CountOccurrences(s[1..], sep)
  }

  /** For a one-character separator the count is additive over concatenation. */
  lemma {:induction false} CountSingleAppend(a: string, b: string, c: char)
    ensures CountOccurrences(a + b, [c]) == CountOccurrences(a, [c]) + CountOccurrences(b, [c])
    decreases |a|
  {
    if |a| > 0 {
      assert (a + b)[1..] == a[1..] + b;
      assert (a + b)[..1] == a[..1];
      CountSingleAppend(a[1..], b, c);
    } else {
      assert a + b == b;
    }
  }

  /** Joining parts that never contain the one-character separator puts
      exactly one separator between consecutive parts. */
  lemma {:induction false} CountJoinSingle(parts: seq<string>, c: char)
    requires |parts| > 0
    requires forall i :: 0 <= i < |parts| ==> c !in parts[i]
    ensures CountOccurrences(Join(parts, [c]), [c]) == |parts| - 1
    decreases |parts|
  {
    if |parts| == 1 {
      CountAbsent(parts[0], c);
    } else {
      CountJoinSingle(parts[1..], c);
      CountAbsent(parts[0], c);
      CountSingleAppend(parts[0], [c] + Join(parts[1..], [c]), c);
      CountSingleAppend([c], Join(parts[1..], [c]), c);
      assert parts[0] + [c] + Join(parts[1..], [c]) == parts[0] + ([c] + Join(parts[1..], [c]));
    }
  }

  lemma {:induction false} CountAbsent(s: string, c: char)
    requires c !in s
    ensures CountOccurrences(s, [c]) == 0
    decreases |s|
  {
    if |s| > 0 {
      assert s[..1] == [s[0]];
      CountAbsent(s[1..], c);
    }
  }

  /** Python's `s.replace("\\", "\\\\")`: every backslash is doubled. */
  function EscapeBackslashes(s: string): (r: string)
    ensures forall c :: c in r <==> c in s
    decreases |s|
  {
    if |s| == 0 then ""
    else (if s[0] == '\\' then "\\\\" else [s[0]]) + EscapeBackslashes(s[1..])
  }

  /** Inverse of `EscapeBackslashes`: a doubled backslash reads as one. */
  function UnescapeBackslashes(s: string): string
    decreases |s|
  {
    if |s| == 0 then ""
    else if s[0] == '\\' && |s| >= 2 then "\\" + UnescapeBackslashes(s[2..])
    else [s[0]] + UnescapeBackslashes(s[1..])
  }

  lemma {:induction false} UnescapeEscape(s: string)
    ensures UnescapeBackslashes(EscapeBackslashes(s)) == s
    decreases |s|
  {
    if |s| > 0 {
      UnescapeEscape(s[1..]);
      var e := EscapeBackslashes(s);
      if s[0] == '\\' {
        assert e == "\\\\" + EscapeBackslashes(s[1..]);
        assert e[2..] == EscapeBackslashes(s[1..]);
      } else {
        assert e == [s[0]] + EscapeBackslashes(s[1..]);
        assert e[1..] == EscapeBackslashes(s[1..]);
      }
    }
  }

  predicate IsDigit(c: char) {
    '0' <= c <= '9'
  }

  function DigitChar(d: nat): (c: char)
    requires d < 10
    ensures IsDigit(c)
  {
    "0123456789"[d]
  }

  function DigitValue(c: char): (d: nat)
    requires IsDigit(c)
    ensures d < 10
  {
    (c as int - '0' as int) as nat
  }

  /** Python's `str(n)` for a non-negative integer. */
  function NatToString(n: nat): (r: string)
    ensures |r| > 0
    ensures forall i :: 0 <= i < |r| ==> IsDigit(r[i])
    decreases n
  {
    if n < 10 then [DigitChar(n)] else NatToString(n / 10) + [DigitChar(n % 10)]
  }

  /** Python's `str(i)`. */
  function IntToString(i: int): (r: string)
    ensures |r| > 0
  {
    if i < 0 then "-" + NatToString(-i) else NatToString(i)
  }

  /** Python's `int(s)` on a string of decimal digits. */
  function ParseNat(s: string): nat
    requires forall i :: 0 <= i < |s| ==> IsDigit(s[i])
    decreases |s|
  {
    if |s| == 0 then 0 else ParseNat(s[..|s| - 1]) * 10 + DigitValue(s[|s| - 1])
  }

  /** `str` on naturals loses nothing: `int(str(n)) == n`. */
  lemma {:induction false} ParseNatToString(n: nat)
    ensures ParseNat(NatToString(n)) == n
    decreases n
  {
    if n >= 10 {
      ParseNatToString(n / 10);
      var r := NatToString(n);
      assert r[..|r| - 1] == NatToString(n / 10);
    }
  }
}

=== FILE: threshold_sweep.dfy ===
/** `best_node_threshold`: a linear sweep of the node threshold from
    `min_nodes` upward by `nodes_step`, under the same margin and
    staleness rule as the feature search. */
module ThresholdSweep {
  import opened Results
  import opened ExtendedReals
  import opened Scorer
  import opened Ledger
  import opened Progress

  const DefaultMinNodes: int := 3
  const DefaultNodesStep: int := 100
  const DefaultStaleness: int := 5
  const DefaultNodesPenalty: real := 0.0

  /** What the sweep is given: the category to optimise, the metrics to
      minimise, the command dispatched for a threshold (opaque), and the
      evaluation read back for a threshold. */
  datatype SweepConfig = SweepConfig(
    category: string,
    minimize: set<string>,
    commandFor: int -> seq<string>,
    oracle: int -> Evaluation)

  /** One evaluated threshold: score, raw metric value, the session after
      its command went through the ledger, the metric name to ask for next. */
  datatype Evaluated = Evaluated(score: real, metricValue: real, session: Session, metric: string)

  /** `node_threshold_evaluate`: the ledger step for the threshold's
      command, then the score of its evaluation with the threshold itself
      as the complexity. */
  function EvaluateThreshold(cfg: SweepConfig, penalty: real, threshold: int, s: Session, metric: string)
    : (r: Result<Evaluated, SearchError>)
    ensures r.Failure? ==> r.error.LedgerFailure? || r.error.ScoreFailure?
    ensures Consistent(s.ledger) && r.Failure? ==> r.error.ScoreFailure?
    ensures r.Success? ==>
              && Step(s, cfg.commandFor(threshold)) == Success(r.value.session)
              && |s.dispatched| <= |r.value.session.dispatched| <= |s.dispatched| + 1
              && (r.value.session.ledger.resume ==> s.ledger.resume)
              && Consistent(r.value.session.ledger)
              && FedBack(metric, r.value.metric)
    ensures r.Success? ==>
              var k := NodeThresholdScore(cfg.oracle(threshold), cfg.category, metric, cfg.minimize,
                                          penalty, threshold);
              && k.Success?
              && r.value.score == k.value.score && r.value.metricValue == k.value.value
              && r.value.metric == k.value.metric
  {
    match Step(s, cfg.commandFor(threshold))
    case Failure(e) => Failure(LedgerFailure(e))
    case Success(s') =>
      match NodeThresholdScore(cfg.oracle(threshold), cfg.category, metric, cfg.minimize, penalty, threshold)
      case Failure(e) => Failure(ScoreFailure(e))
      case Success(k) => Success(Evaluated(k.score, k.value, s', k.metric))
  }

  /** The number of thresholds `lo, lo + step, ...` below `limit`. */
  function ThresholdCount(lo: int, limit: int, step: int): (c: nat)
    requires step > 0
    decreases limit - lo
  {
    if lo >= limit then 0 else 1 + ThresholdCount(lo + step, limit, step)
  }

  /** The first `ThresholdCount` thresholds are below the limit and the
      next one is not. */
  lemma {:induction false} ThresholdCountBounds(lo: int, limit: int, step: int)
    requires step > 0
    ensures forall i :: 0 <= i < ThresholdCount(lo, limit, step) ==> lo + i * step < limit
    ensures forall i :: i >= ThresholdCount(lo, limit, step) ==> lo + i * step >= limit
    decreases limit - lo
  {
    var c := ThresholdCount(lo, limit, step);
    if lo < limit {
      ThresholdCountBounds(lo + step, limit, step);
      forall i | 0 <= i < c ensures lo + i * step < limit {
        if i > 0 {
          ShiftStep(lo, i, step);
        }
      }
      forall i | i >= c ensures lo + i * step >= limit {
        ShiftStep(lo, i, step);
      }
    } else {
      forall i | i >= c ensures lo + i * step >= limit {
        MulNonNegative(i, step);
      }
    }
  }

  lemma ShiftStep(lo: int, i: int, step: int)
    ensures lo + i * step == (lo + step) + (i - 1) * step
  {
  }

  lemma MulNonNegative(i: int, step: int)
    requires i >= 0 && step >= 0
    ensures i * step >= 0
  {
  }

  /** Row i evaluated the threshold `lo + i * step`, below the limit. */
  predicate Stepped(lo: int, step: int, limit: int, rows: seq<Row<int>>) {
    forall i :: 0 <= i < |rows| ==> rows[i].key == lo + i * step && rows[i].key < limit
  }

  /** Every evaluated threshold has a finite score and metric value. */
  predicate AllScored(rows: seq<Row<int>>) {
    forall i :: 0 <= i < |rows| ==> rows[i].score.Fin? && rows[i].metricValue.Fin?
  }

  /** Row `row` holds what `node_threshold_evaluate` returns for its
      threshold when metric `m` is asked for: the node-threshold score of
      the oracle's evaluation and the raw metric value. */
  predicate ScoredAt(cfg: SweepConfig, penalty: real, row: Row<int>, m: string) {
    var k := NodeThresholdScore(cfg.oracle(row.key), cfg.category, m, cfg.minimize, penalty, row.key);
    k.Success? && row.score == Fin(k.value.score) && row.metricValue == Fin(k.value.value)
  }

  /** The metric name asked for after the thresholds of `rows` were
      evaluated in order, starting from `metric`: each evaluation hands
      back the name it resolved. */
  function NameAfter(cfg: SweepConfig, metric: string, rows: seq<Row<int>>): (r: string)
    ensures FedBack(metric, r)
    decreases |rows|
  {
    if |rows| == 0 then metric
    else
      var last := rows[|rows| - 1];
      FedName(cfg.oracle(last.key), cfg.category, NameAfter(cfg, metric, rows[..|rows| - 1]))
  }

  /** Every row was scored from the oracle under the name fed back by the
      rows before it: the requested metric for the first row. */
  predicate RatedRows(cfg: SweepConfig, penalty: real, metric: string, rows: seq<Row<int>>) {
    forall i :: 0 <= i < |rows| ==> ScoredAt(cfg, penalty, rows[i], NameAfter(cfg, metric, rows[..i]))
  }

  /** A row scored under the name the earlier rows fed back extends the
      rated rows, and hands back the name its own evaluation resolved. */
  lemma RatedRowsSnoc(cfg: SweepConfig, penalty: real, metric: string, rows: seq<Row<int>>, row: Row<int>)
    requires RatedRows(cfg, penalty, metric, rows)
    requires ScoredAt(cfg, penalty, row, NameAfter(cfg, metric, rows))
    ensures RatedRows(cfg, penalty, metric, rows + [row])
    ensures NameAfter(cfg, metric, rows + [row])
            == FedName(cfg.oracle(row.key), cfg.category, NameAfter(cfg, metric, rows))
  {
    var rows' := rows + [row];
    assert rows'[..|rows|] == rows;
    forall i | 0 <= i < |rows|
      ensures ScoredAt(cfg, penalty, rows'[i], NameAfter(cfg, metric, rows'[..i]))
    {
      assert rows'[i] == rows[i] && rows'[..i] == rows[..i];
    }
  }

  /** The command of each evaluated threshold, in sweep order. */
  function Calls(cfg: SweepConfig, rows: seq<Row<int>>): (calls: seq<seq<string>>)
    ensures |calls| == |rows|
    ensures forall i :: 0 <= i < |rows| ==> calls[i] == cfg.commandFor(rows[i].key)
  {
    seq(|rows|, i requires 0 <= i < |rows| => cfg.commandFor(rows[i].key))
  }

  /** The best threshold so far: none before the first row, afterwards the
      threshold of the last improving row, whose score is the best. */
  predicate BestAt(rows: seq<Row<int>>, best: ExtReal, bestThreshold: Option<int>, bi: int) {
    && (bestThreshold.None? <==> |rows| == 0)
    && (|rows| > 0 ==> LastImprovement(rows, bi) && rows[bi].key == bestThreshold.value
                       && rows[bi].score == best)
  }

  lemma SteppedSnoc(lo: int, step: int, limit: int, rows: seq<Row<int>>, row: Row<int>)
    requires Stepped(lo, step, limit, rows)
    requires row.key == lo + |rows| * step && row.key < limit
    ensures Stepped(lo, step, limit, rows + [row])
  {
  }

  lemma AllScoredSnoc(rows: seq<Row<int>>, row: Row<int>)
    requires AllScored(rows) && row.score.Fin? && row.metricValue.Fin?
    ensures AllScored(rows + [row])
  {
  }

  /** One more row moves the best threshold to its own threshold exactly
      when it improves on the best score. */
  lemma BestAtSnoc(rows: seq<Row<int>>, best: ExtReal, bestThreshold: Option<int>, bi: int, row: Row<int>)
    requires Chained(rows) && best == BestAfter(rows) && BestAt(rows, best, bestThreshold, bi)
    requires row.bestScore == best && row.score.Fin?
    ensures var improved := Improves(row.score, best);
            BestAt(rows + [row], if improved then row.score else best,
                   if improved then Some(row.key) else bestThreshold, if improved then |rows| else bi)
  {
  }

  /** What a completed sweep reports: the best threshold and score, the
      progress rows, the count of steps without improvement, the session
      and the metric name last asked for. */
  datatype SweepReport = SweepReport(
    bestThreshold: int, bestScore: ExtReal,
    rows: seq<Row<int>>, staleCount: nat,
    session: Session, metric: string)

  /** The trace of a sweep from `lo` by `step`, stopped by staleness `stale`
      or by reaching `limit`. */
  predicate SweepTrace(lo: int, step: int, limit: int, stale: int, rows: seq<Row<int>>, staleCount: nat) {
    // the thresholds are lo, lo + step, ..., each below the limit
    && Stepped(lo, step, limit, rows)
    && AllScored(rows)
    && Chained(rows)
    && staleCount == StaleRun(rows)
    // every step ran with the count below staleness, and the sweep stopped
    // on staleness or on the next threshold reaching the limit
    && RanBelow(rows, stale)
    && (staleCount >= stale || lo + |rows| * step >= limit)
  }

  /** What a completed sweep promises about its report. */
  predicate Reported(cfg: SweepConfig, penalty: real, lo: int, step: int, limit: int, stale: int,
                     metric: string, session: Session, rep: SweepReport) {
    && |rep.rows| > 0
    && SweepTrace(lo, step, limit, stale, rep.rows, rep.staleCount)
    && RatedRows(cfg, penalty, metric, rep.rows)
    && rep.metric == NameAfter(cfg, metric, rep.rows)
    && rep.bestScore == BestAfter(rep.rows)
    && (exists i :: 0 <= i < |rep.rows| && LastImprovement(rep.rows, i) && rep.rows[i].key == rep.bestThreshold
                    && rep.rows[i].score == rep.bestScore)
    // each threshold's command went through the ledger, in sweep order
    && Run(session, Calls(cfg, rep.rows)) == Success(rep.session)
    && |session.dispatched| <= |rep.session.dispatched| <= |session.dispatched| + |rep.rows|
    && (rep.session.ledger.resume ==> session.ledger.resume)
    && FedBack(metric, rep.metric)
  }

  /** The loop state of `best_node_threshold`. */
  datatype SweepState = SweepState(
    threshold: int, best: ExtReal, bestThreshold: Option<int>, staleCount: nat,
    rows: seq<Row<int>>, session: Session, metric: string)

  /** What the rows written so far keep at every loop head; `bi` is the
      row that set the best. */
  predicate SweepRows(lo: int, step: int, limit: int, stale: int, st: SweepState, bi: int) {
    && st.threshold == lo + |st.rows| * step
    && Stepped(lo, step, limit, st.rows) && AllScored(st.rows)
    && Chained(st.rows) && st.best == BestAfter(st.rows) && st.staleCount == StaleRun(st.rows)
    && RanBelow(st.rows, stale)
    && BestAt(st.rows, st.best, st.bestThreshold, bi)
    && (|st.rows| > 0 ==> lo < limit && 0 < stale)
  }

  /** What the evaluations keep at every loop head: every row scored from
      the oracle under the name fed back before it. */
  predicate SweepRated(cfg: SweepConfig, penalty: real, metric: string, st: SweepState) {
    && RatedRows(cfg, penalty, metric, st.rows)
    && st.metric == NameAfter(cfg, metric, st.rows)
    && FedBack(metric, st.metric)
  }

  /** What the ledger keeps at every loop head: the rows' commands stepped
      through it in order, at most one dispatch per row, no resume that was
      not there at the start. */
  predicate SweepLedger(cfg: SweepConfig, session: Session, st: SweepState) {
    && Run(session, Calls(cfg, st.rows)) == Success(st.session)
    && |session.dispatched| <= |st.session.dispatched| <= |session.dispatched| + |st.rows|
    && (st.session.ledger.resume ==> session.ledger.resume)
    && (Consistent(session.ledger) ==> Consistent(st.session.ledger))
  }

  predicate SweepSession(cfg: SweepConfig, penalty: real, metric: string, session: Session, st: SweepState) {
    SweepRated(cfg, penalty, metric, st) && SweepLedger(cfg, session, st)
  }

  predicate SweepInvariant(cfg: SweepConfig, penalty: real, lo: int, step: int, limit: int, stale: int,
                           metric: string, session: Session, st: SweepState, bi: int) {
    SweepRows(lo, step, limit, stale, st, bi) && SweepSession(cfg, penalty, metric, session, st)
  }

  /** One loop step after its evaluation: write the row, judge the score,
      and move to the next threshold. */
  function Record(st: SweepState, ev: Evaluated, step: int): SweepState {
    var score := Fin(ev.score);
    var improved := Improves(score, st.best);
    SweepState(
      st.threshold + step,
      if improved then score else st.best,
      if improved then Some(st.threshold) else st.bestThreshold,
      if improved then 0 else st.staleCount + 1,
      st.rows + [Row(|st.rows| + 1, st.threshold, score, Fin(ev.metricValue), st.best)],
      ev.session, ev.metric)
  }

  lemma RecordRows(lo: int, step: int, limit: int, stale: int, st: SweepState, bi: int, ev: Evaluated)
    requires SweepRows(lo, step, limit, stale, st, bi)
    requires st.staleCount < stale && st.threshold < limit
    ensures SweepRows(lo, step, limit, stale, Record(st, ev, step),
                      if Improves(Fin(ev.score), st.best) then |st.rows| else bi)
  {
    var row := Row(|st.rows| + 1, st.threshold, Fin(ev.score), Fin(ev.metricValue), st.best);
    AppendRow(st.rows, st.threshold, Fin(ev.score), Fin(ev.metricValue), stale);
    SteppedSnoc(lo, step, limit, st.rows, row);
    AllScoredSnoc(st.rows, row);
    BestAtSnoc(st.rows, st.best, st.bestThreshold, bi, row);
    NextThreshold(lo, |st.rows|, step);
  }

  lemma RecordSession(cfg: SweepConfig, penalty: real, step: int, metric: string, session: Session,
                      st: SweepState, ev: Evaluated)
    requires SweepSession(cfg, penalty, metric, session, st)
    requires EvaluateThreshold(cfg, penalty, st.threshold, st.session, st.metric) == Success(ev)
    ensures SweepSession(cfg, penalty, metric, session, Record(st, ev, step))
  {
    RecordRated(cfg, penalty, step, metric, st, ev);
    RecordLedger(cfg, step, session, st, ev);
  }

  lemma RecordRated(cfg: SweepConfig, penalty: real, step: int, metric: string, st: SweepState, ev: Evaluated)
    requires SweepRated(cfg, penalty, metric, st)
    requires var k := NodeThresholdScore(cfg.oracle(st.threshold), cfg.category, st.metric, cfg.minimize,
                                         penalty, st.threshold);
             && k.Success?
             && ev.score == k.value.score && ev.metricValue == k.value.value && ev.metric == k.value.metric
    ensures SweepRated(cfg, penalty, metric, Record(st, ev, step))
  {
    var row := Row(|st.rows| + 1, st.threshold, Fin(ev.score), Fin(ev.metricValue), st.best);
    RatedRowsSnoc(cfg, penalty, metric, st.rows, row);
  }

  lemma RecordLedger(cfg: SweepConfig, step: int, session: Session, st: SweepState, ev: Evaluated)
    requires SweepLedger(cfg, session, st)
    requires Step(st.session, cfg.commandFor(st.threshold)) == Success(ev.session)
    requires |st.session.dispatched| <= |ev.session.dispatched| <= |st.session.dispatched| + 1
    requires ev.session.ledger.resume ==> st.session.ledger.resume
    requires Consistent(ev.session.ledger)
    ensures SweepLedger(cfg, session, Record(st, ev, step))
  {
    var row := Row(|st.rows| + 1, st.threshold, Fin(ev.score), Fin(ev.metricValue), st.best);
    assert Calls(cfg, st.rows + [row]) == Calls(cfg, st.rows) + [cfg.commandFor(st.threshold)];
    RunAppend(session, Calls(cfg, st.rows), [cfg.commandFor(st.threshold)]);
  }

  lemma RecordStep(cfg: SweepConfig, penalty: real, lo: int, step: int, limit: int, stale: int,
                   metric: string, session: Session, st: SweepState, bi: int, ev: Evaluated)
    requires SweepInvariant(cfg, penalty, lo, step, limit, stale, metric, session, st, bi)
    requires st.staleCount < stale && st.threshold < limit
    requires EvaluateThreshold(cfg, penalty, st.threshold, st.session, st.metric) == Success(ev)
    ensures SweepInvariant(cfg, penalty, lo, step, limit, stale, metric, session, Record(st, ev, step),
                           if Improves(Fin(ev.score), st.best) then |st.rows| else bi)
  {
    RecordRows(lo, step, limit, stale, st, bi, ev);
    RecordSession(cfg, penalty, step, metric, session, st, ev);
  }

  /** Once the loop condition fails, a sweep that ran reports what it
      promises. */
  lemma FinishSweep(cfg: SweepConfig, penalty: real, lo: int, step: int, limit: int, stale: int,
                    metric: string, session: Session, st: SweepState, bi: int)
    requires SweepInvariant(cfg, penalty, lo, step, limit, stale, metric, session, st, bi)
    requires st.staleCount >= stale || st.threshold >= limit
    requires st.bestThreshold.Some?
    ensures Reported(cfg, penalty, lo, step, limit, stale, metric, session,
                     SweepReport(st.bestThreshold.value, st.best, st.rows, st.staleCount, st.session, st.metric))
  {
    assert LastImprovement(st.rows, bi);
  }

  /** The sweep loop of `best_node_threshold` on resolved settings: it
      runs while the unchanged count is below `stale` and the threshold is
      below `limit`; a sweep that evaluates nothing has no best threshold
      to report. */
  method Sweep(cfg: SweepConfig, lo: int, step: int, limit: int, stale: int, penalty: real,
               metric: string, session: Session)
    returns (r: Result<SweepReport, SearchError>)
    requires step > 0
    ensures r == Failure(NoThresholdEvaluated) <==> lo >= limit || stale <= 0
    ensures Consistent(session.ledger) && r.Failure? ==> r.error.ScoreFailure? || r.error.NoThresholdEvaluated?
    ensures r.Success? ==> Reported(cfg, penalty, lo, step, limit, stale, metric, session, r.value)
  {
    var st := SweepState(lo, NegInf, None, 0, [], session, metric);
    ghost var bi := 0;
    while st.staleCount < stale && st.threshold < limit
      invariant SweepInvariant(cfg, penalty, lo, step, limit, stale, metric, session, st, bi)
      decreases limit - st.threshold
    {
      var ev := EvaluateThreshold(cfg, penalty, st.threshold, st.session, st.metric);
      if ev.Failure? {
        return Failure(ev.error);
      }
      RecordStep(cfg, penalty, lo, step, limit, stale, metric, session, st, bi, ev.value);
      bi := if Improves(Fin(ev.value.score), st.best) then |st.rows| else bi;
      st := Record(st, ev.value, step);
    }
    if st.bestThreshold.None? {
      return Failure(NoThresholdEvaluated);
    }
    FinishSweep(cfg, penalty, lo, step, limit, stale, metric, session, st, bi);
    r := Success(SweepReport(st.bestThreshold.value, st.best, st.rows, st.staleCount, st.session, st.metric));
  }

  /** `best_node_threshold`: the defaults for the unset settings, then the
      sweep up to `max_nodes + 1`. */
  method BestNodeThreshold(cfg: SweepConfig, minNodes: Option<int>, maxNodes: int, nodesStep: Option<int>,
                           staleness: Option<int>, penalty: Option<real>, metric: string, session: Session)
    returns (r: Result<SweepReport, SearchError>)
    requires nodesStep.None? || nodesStep.value > 0
    ensures var lo := if minNodes.None? then DefaultMinNodes else minNodes.value;
            var stale := if staleness.None? then DefaultStaleness else staleness.value;
            r == Failure(NoThresholdEvaluated) <==> lo > maxNodes || stale <= 0
    ensures Consistent(session.ledger) && r.Failure? ==> r.error.ScoreFailure? || r.error.NoThresholdEvaluated?
    ensures r.Success? ==>
              Reported(cfg, if penalty.None? then DefaultNodesPenalty else penalty.value,
                       if minNodes.None? then DefaultMinNodes else minNodes.value,
                       if nodesStep.None? then DefaultNodesStep else nodesStep.value,
                       maxNodes + 1,
                       if staleness.None? then DefaultStaleness else staleness.value,
                       metric, session, r.value)
  {
    var lo := if minNodes.None? then DefaultMinNodes else minNodes.value;
    var step := if nodesStep.None? then DefaultNodesStep else nodesStep.value;
    var stale := if staleness.None? then DefaultStaleness else staleness.value;
    var pen := if penalty.None? then DefaultNodesPenalty else penalty.value;
    r := Sweep(cfg, lo, step, maxNodes + 1, stale, pen, metric, session);
  }

  lemma NextThreshold(lo: int, n: nat, step: int)
    ensures lo + n * step + step == lo + (n + 1) * step
  {
  }

  /** With a staleness above the number of thresholds below the limit, a
      sweep evaluates every one of them. */
  lemma SweepVisitsAll(lo: int, step: int, limit: int, stale: int, rows: seq<Row<int>>, staleCount: nat)
    requires step > 0
    requires SweepTrace(lo, step, limit, stale, rows, staleCount)
    requires stale > ThresholdCount(lo, limit, step)
    ensures |rows| == ThresholdCount(lo, limit, step)
  {
    ThresholdCountBounds(lo, limit, step);
    if |rows| > 0 {
      var last := |rows| - 1;
      assert lo + last * step < limit;
    }
    assert |rows| <= ThresholdCount(lo, limit, step);
    assert lo + |rows| * step >= limit;
  }

  /** From 3 by 100 up to `max_nodes` 103 with the default staleness, the
      sweep evaluates exactly the thresholds 3 and 103. */
  lemma SweepExample(rows: seq<Row<int>>, staleCount: nat)
    requires SweepTrace(3, 100, 103 + 1, DefaultStaleness, rows, staleCount)
    ensures |rows| == 2 && rows[0].key == 3 && rows[1].key == 103
  {
    assert ThresholdCount(203, 104, 100) == 0;
    assert ThresholdCount(103, 104, 100) == 1;
    assert ThresholdCount(3, 104, 100) == 2;
    SweepVisitsAll(3, 100, 104, DefaultStaleness, rows, staleCount);
  }
}
